=== FILE: README.md ===
# Dog-club bookkeeping, modelled in Dafny

This project models the bookkeeping engine of a dog boarding and training
club's web application. The engine keeps a double-entry journal over a fixed
chart of accounts. Every business event is posted as a balanced journal entry:

- invoices and their payments;
- client wallet top-ups and staff payouts;
- cheques;
- stock purchases and stock used in daily care, cooking and medication.

On top of the journal sit the finance page's reports, namely the trial
balance, the ledger of one account and the cash figure, and the dashboard
figures. The project also models the small helpers on the dashboard,
inventory, dogs, users and history pages that feed the engine or read from it.

Each operation is a pure function from one application state to the next.
The state holds the users (with their wallet balances), invoices, services,
inventory, stock movements, cheques, treatment plans and the journal. The
clock, the signed-in user and the id stamp are passed in as an environment
value (`Types.Env`). Money is a real number. The application's `x || 0` defaults
are stored as `0.0`, and optional texts are stored as `""`.

The modules follow the program:

- `Wrappers`, `Sums`, `Seqs`, `Text` and `Sorting` are helpers:
  - option and outcome types;
  - sums over sequences;
  - filtering;
  - digit strings, `parseInt` and `split`;
  - a stable sort.
- `Types` holds the records. `Chart` holds the default chart of accounts.
- `Journal` covers recording and deleting entries and account balances.
- `Projector` holds the finance page's balances, trial balance and ledger.
- `Club` holds the state and the shared posting step.
- The engine's operations:
  - `Wallets`: payouts, wallet corrections, top-ups and payroll;
  - `DueDates`;
  - `Billing`: invoices and payments;
  - `Reports`: the financial summary and a dog's debt;
  - `Checks`;
  - `Stock`: stock movements and average cost;
  - `Consumption`: daily logs, cooking and medication.
- `Seeds` holds the starting data.
- The page helpers are in `FinancePage`, `DashboardPage`, `InventoryPage`,
  `DogsPage`, `UsersPage` and `HistoryPage`.

Two invariants run through the model:

- **The books stay balanced.** Every entry's debits equal its credits within
  the tolerance of 0.01. The trial balance therefore nets out over any chart
  that lists each account once.
- **The wallets agree with the wallet account.** Every wallet operation moves
  the users' balances and the wallet liability account 2031 by the same
  amount. Their difference (`Club.WalletDrift`) is unchanged by every engine
  operation.

## Model

| member | source | states |
|---|---|---|
| Journal.Record | context/AppContext.tsx:230-238 | An entry is accepted exactly when its debits and credits differ by at most 0.01. A refused entry leaves the journal unchanged and reports both totals. An accepted entry goes first, numbered journal length + 1001, and keeps the caller's lines, status, date and reference. |
| Journal.CreatedBy | context/AppContext.tsx:234 | The author is never empty: the signed-in user's name, or "System" when nobody is signed in or the name is empty. |
| Journal.RecordKeepsBalanced | context/AppContext.tsx:230-238 | Recording keeps every entry of the journal balanced. |
| Journal.RecordBalance | context/AppContext.tsx:230-238 | An accepted entry moves each account's balance by exactly that entry's net on the account. A refused one moves nothing. |
| Journal.RecordKeepsNumbering | context/AppContext.tsx:234 | With only recording, numbers run without gaps down to 1001, so no two entries share a number. |
| Journal.NumberReusedAfterDelete | context/AppContext.tsx:234-239 | Because the number is the journal length + 1001, recording after a delete repeats the newest entry's number. |
| Journal.Delete | context/AppContext.tsx:239 | A caller who is not an administrator changes nothing. An administrator removes every entry with the id and keeps every other entry, each as many times as it was there. |
| Journal.DeleteAppend | context/AppContext.tsx:239 | An administrator's delete works entry by entry in the journal's order: deleting from two stretches is deleting from each, and a single entry goes exactly when it has the id. |
| Journal.DeleteAbsent | context/AppContext.tsx:239 | Deleting an id that no entry has leaves the journal as it is. |
| Journal.DeleteKeepsBalanced | context/AppContext.tsx:239 | Deleting keeps every remaining entry balanced. |
| Journal.DeleteBalance | context/AppContext.tsx:239 | Each account's balance after a delete, plus the balance of the removed entries, is the balance before. |
| Journal.TwoLine | context/AppContext.tsx:290 | The two-line posting used by every engine operation debits one account and credits another by the same amount. It is balanced and has exactly that effect on each account. |
| Journal.Post | context/AppContext.tsx:234 | Posting puts one entry in front, numbered journal length + 1001. It moves every account by the debit/credit effect of the amount and nothing else. |
| Projector.AccountBalances | pages/Finance.tsx:51-57 | The loop's map gives every account exactly its journal balance (debits less credits). Every account named on a line is a key, and every key is named on some line. |
| Projector.CashAndBankOfJournal | pages/Finance.tsx:138 | The cash card shows the journal balance of the cash box 1011 plus the bank 1012. |
| Projector.TrialBalance | pages/Finance.tsx:59-61 | The trial balance lists the chart's accounts with a nonzero balance, and every account with a nonzero balance is listed. |
| Projector.TrialBalanceInChartOrder | pages/Finance.tsx:59-61 | The trial balance is the chart's rows, one per account in chart order, with the zero rows filtered out: order and multiplicity follow the chart. |
| Projector.TrialBalanceTotal | pages/Finance.tsx:59-61 | Dropping the zero rows does not change the sum of balances over the chart. |
| Projector.BalancesNetOut | context/AppContext.tsx:233 | Over a chart listing each code once and covering every line, the chart's balances sum to within 0.01 per entry of zero. They sum to exactly zero when every entry is exactly balanced. |
| Projector.TrialBalanceNetsOut | pages/Finance.tsx:51-61 | The trial balance's total is within 0.01 per entry of zero, and zero when every entry is exactly balanced. |
| Projector.LedgerData | pages/Finance.tsx:38-49 | With no account selected the ledger is empty. Otherwise it has exactly the entries touching the account, in document-number order, and entries sharing a document number keep their journal order. Each row shows that entry's first line on the account, and the running balance adds debit less credit row by row. |
| Sorting.SortByStable | pages/Finance.tsx:41 | Sorting keeps the relative order of elements that are all tied, as the ledger's sort by document number does for entries sharing a number. |
| Projector.LedgerClosing | pages/Finance.tsx:38-49 | The ledger's last running balance is the sum, over the journal, of each entry's first line on the account. |
| Projector.LedgerClosesAtBalance | pages/Finance.tsx:38-49 | When no entry has two lines on the account, the ledger closes at the account's journal balance. |
| Projector.LedgerCountsFirstLineOnly | pages/Finance.tsx:44 | An entry with two lines on one account shows only the first in the ledger, so the ledger and the balance part. |
| Chart.ChartOrder | constants.ts:24-72 | The default chart lists its accounts in strictly ascending code order. |
| Chart.ChartTree | constants.ts:24-72 | Every account's parent is listed before it and has the same type. An account is a root exactly when its code is a group root. A leaf account's id is its own code, and each group's id stands for exactly one group code. |
| Chart.CodesAndIdsDistinct | constants.ts:24-72 | No two accounts of the default chart share a code or an id. |
| Chart.PostedCodesInChart | constants.ts:24-72 | Every account code the engine posts to is in the default chart. |
| Club.Credit | context/AppContext.tsx:297 | Exactly the users with the id have the amount added to their balance; every other user is unchanged. |
| Club.CreditTotal | context/AppContext.tsx:297 | With unique ids, crediting a listed user moves the wallet total by the amount, and an unknown id moves nothing. |
| Club.SetBalanceTotal | context/AppContext.tsx:292 | Setting one user's balance moves the wallet total by the change in that balance. |
| Club.PostTwo | context/AppContext.tsx:230-235 | A posting only prepends one balanced entry and changes nothing else in the state. |
| Club.PostTwoKeepsBooks | context/AppContext.tsx:230-238 | A posting keeps every entry of the journal balanced. |
| Wallets.PayoutCode | context/AppContext.tsx:297 | A payout is booked to commission expense 6011 exactly when it is a commission, and to salaries 6010 otherwise. |
| Wallets.ProcessPayout | context/AppContext.tsx:297 | The payee's balance rises by the amount and other users are untouched. A credit transaction of the amount goes first. The journal moves the payout expense up and the wallet liability by the amount. |
| Wallets.PayoutKeepsDrift | context/AppContext.tsx:297 | A payout to a listed user moves the wallets and the wallet account together. |
| Wallets.AdminUpdateWallet | context/AppContext.tsx:298 | A withdrawal takes the amount out of the wallet and pays it from the cash box. Any other kind adds it and books it as an expense. The new transaction, in front, is for the user and kind given and records the absolute amount and whether it was a credit. |
| Wallets.AdminUpdateKeepsDrift | context/AppContext.tsx:298 | A wallet correction moves the wallets and the wallet account together. |
| Wallets.ChargeWallet | context/AppContext.tsx:299 | With nobody signed in nothing happens. Otherwise only the signed-in user's balance changes, rising by the amount. One deposit transaction for that user, for the amount and credited, goes in front of the kept history, and the amount is paid in through the bank into the wallet account. |
| Wallets.ChargeWalletKeepsDrift | context/AppContext.tsx:299 | A top-up moves the wallets and the wallet account together. |
| Wallets.Payroll | context/AppContext.tsx:300 | The count is the number of users with a positive base salary and the total is the sum of those salaries. Each such user is credited their salary. The k-th new transaction in front is the salary of the k-th salaried user in list order: their id, their base salary, kind salary, credited. Salaries 6010 and the wallet account rise by the total. With nobody salaried nothing changes. The wallet drift is kept. |
| Wallets.PaySalaries | context/AppContext.tsx:300 | Walks the users once: the count of salaried users and the sum of their salaries come back, every user is paid their own salary, and the wallets' total rises by that sum. The k-th transaction made is the salary transaction of the k-th salaried user, for their id and base salary. |
| Wallets.PayslipsOfSalaried | context/AppContext.tsx:300 | The transactions the walk collects are exactly one salary transaction per user in the salaried sub-list, in order. |
| DueDates.DueDateAddsAWeek | context/AppContext.tsx:263 | For a readable date, the missing due date is the same date seven days later on the 30-day calendar the code uses, with rollover into the next month and year. |
| DueDates.DueDateOfUnreadable | context/AppContext.tsx:263 | A date whose parts are not numbers gets the due date "NaN/NaN/NaN". |
| DueDates.SameMonthDue | context/AppContext.tsx:263 | A date on or before the 23rd falls due on the same month's day seven later, written out with the year, month and day texts unchanged. |
| Billing.RevenueCode | context/AppContext.tsx:266 | For a listed service the revenue account is 4010, 4020, 4030 or 4040 exactly when its category is Training, Boarding, Medical or Grooming, and 4050 for any other category. For an unlisted service it is 4010 exactly when the invoice covers several services, otherwise 4050. It is always an account the chart's revenue group posts to. |
| Billing.RevenueByTable | context/AppContext.tsx:266 | For a listed service the account is read off the category table, with 4050 for a category the table lacks. No two categories share an account, and none of them uses 4050. |
| Billing.AddInvoice | context/AppContext.tsx:262-268 | The invoice, with its due date filled in when missing, goes first. Receivables rise and the service's revenue account is credited by its final amount, and nothing else changes. |
| Billing.AddInvoiceKeepsDrift | context/AppContext.tsx:262-268 | Issuing an invoice moves no wallet. |
| Billing.PaymentAmount | context/AppContext.tsx:279 | A zero amount means "the rest": what the invoice still owes. |
| Billing.PaymentAccount | context/AppContext.tsx:288-289 | Wallet payments go through the wallet account 2031, online and card payments through the bank 1012, and the rest through the cash box 1011. |
| Billing.Refusal | context/AppContext.tsx:276-287 | Each reason holds exactly when its own test is the first to fail: a missing invoice when no invoice has the id; already paid when the found invoice is paid; an invalid amount when it is unpaid and the payment is not positive; no payer when, past those, the payer is not on file; insufficient funds when, past those, a wallet payment exceeds the balance plus the top-up. Otherwise the payment goes ahead. |
| Billing.PayInvoice | context/AppContext.tsx:275-296 | A payment fails exactly when it is refused. A failure returns the refusal's reason and changes nothing, not even the requested recharge. |
| Billing.PayInvoicePostings | context/AppContext.tsx:286-294 | An accepted payment moves every account by three postings and nothing else: the recharge (Dr 1012, Cr 2031), the payment (Dr the payment account, Cr 1021) and the commission when one is due (Dr 6011, Cr 2031). |
| Billing.PayInvoiceFrame | context/AppContext.tsx:291-295 | An accepted payment changes only the invoice with the id, the wallets of the payer and of the commission's payee, the wallet transactions and the journal. |
| Billing.PayInvoiceTransactions | context/AppContext.tsx:286-294 | The new wallet transactions go in front of the old ones, which follow unchanged. The commission comes first when one is due, then the recharge deposit, then the wallet payment, each with its user and amount. |
| Billing.PayInvoiceUpdatesInvoice | context/AppContext.tsx:293 | The invoice's paid amount rises by the payment. It becomes PAID exactly when at most 100 remains and stays PENDING otherwise, and it records the method. |
| Billing.PayInvoicePayerBalance | context/AppContext.tsx:286-294 | The payer's balance rises by the top-up and falls by the payment when paid from the wallet, plus any commission owed to the payer. |
| Billing.WalletPaymentNeverOverdraws | context/AppContext.tsx:286-289 | An accepted wallet payment never leaves the payer below zero, counting apart any commission the payer earns from it. |
| Billing.PayInvoiceReceivables | context/AppContext.tsx:288-294 | Receivables fall by exactly the payment; the top-up and the commission leave them alone. |
| Billing.PayInvoiceKeepsDrift | context/AppContext.tsx:275-296 | Paying an invoice, with its top-up and commission, moves the wallets and the wallet account together. |
| Billing.CommissionDue | context/AppContext.tsx:294 | A commission is due exactly when the invoice names a provider, the payment settles it, the provider and the service exist, and the percentage is positive. It goes to that provider and is the percentage of the invoice's final amount. |
| Billing.CommissionPercent | context/AppContext.tsx:294 | The percentage is the provider's override for the service's category when that is set and not zero, and otherwise the service's default. |
| Billing.OverrideDecides | context/AppContext.tsx:294 | A set override decides the percentage whatever the service's default is. Overrides for other categories never matter. |
| Billing.CommissionWithinInvoice | context/AppContext.tsx:294 | With a percentage of at most 100 and a nonnegative invoice, the commission is between zero and the invoice's final amount. |
| Reports.DogFinancialStatus | context/AppContext.tsx:310 | The debt is the sum, over the dog's unpaid invoices, of what each still owes. The dog is "cleared" exactly when that debt is zero. |
| Reports.DogClearedIff | context/AppContext.tsx:310 | When no invoice is overpaid, a dog is cleared exactly when each of its unpaid invoices is paid in full. |
| Reports.ComputeFinancials | context/AppContext.tsx:252-260 | Revenue is the paid invoices' final amounts. Net profit is revenue less expenses. The wallet liability is the sum of the positive wallets and is never negative. Pending debts are the unpaid remainders plus the size of the overdrawn wallets, so they are at least the unpaid remainders. |
| Reports.WalletSplit | context/AppContext.tsx:257-258 | The wallet liability less the overdrawn part of pending debts is the wallet total. |
| Checks.AddCheck | context/AppContext.tsx:301 | The cheque goes first in the list and one posting is made: a received cheque debits cheques receivable 1031 against receivables 1021, and an issued one moves 2011 into cheques payable 2021. |
| Checks.UpdateCheckStatus | context/AppContext.tsx:302-303 | An unknown cheque changes nothing. Any status but cleared only sets the status. Clearing also posts the cheque's amount into or out of the bank. |
| Checks.ClearPosting | context/AppContext.tsx:301-302 | Clearing always moves money through the bank 1012, against the holding account the registration used: a received cheque credits the 1031 it was debited to, an issued one debits the 2021 it was credited to. |
| Checks.ReceiveThenClear | context/AppContext.tsx:301-303 | A received cheque that is then cleared brings its amount into the bank out of 1021 and leaves cheques receivable where they were. |
| Checks.IssueThenClear | context/AppContext.tsx:301-303 | An issued cheque that is then cleared pays its amount out of the bank against 2011 and leaves cheques payable where they were. |
| Checks.StatusKeepsFirst | context/AppContext.tsx:302 | A status change keeps the cheque it found first, with its kind and amount. |
| Checks.ClearTwicePostsTwice | context/AppContext.tsx:302-303 | Nothing stops clearing a cheque twice, and a received cheque cleared twice books its amount into the bank twice. |
| Checks.ChecksKeepDrift | context/AppContext.tsx:301-303 | Cheques move no wallet. |
| Stock.Restock | context/AppContext.tsx:354-364 | Only the quantity and average cost change, and the quantity never drops below zero. A priced stock-in that leaves stock reprices to the weighted average of old stock and purchase. Otherwise the cost is kept. |
| Stock.AverageBetween | context/AppContext.tsx:359-362 | A purchase puts the new average cost between the old average and the purchase price. |
| Stock.PurchaseAddsValue | context/AppContext.tsx:359-362 | After a purchase the stock's value is the old value plus the purchase's value. |
| Stock.UpdateStock | context/AppContext.tsx:353-377 | Exactly the items with the id are restocked. The movement is recorded even for an unknown item. A priced stock-in of positive value is booked from the cash box 1011 into the item's category inventory account, and nothing else is booked. |
| Stock.StoreCode | context/AppContext.tsx:373 | Food stock is 1041, medical stock is 1042, and everything else, an unknown item included, is 1043. |
| Stock.MovePrice | context/AppContext.tsx:368 | The recorded price is the given unit price if any, else the item's average cost, else 0. |
| Stock.UpdateStockKeepsNonneg | context/AppContext.tsx:363 | No stock movement makes a quantity negative. |
| Stock.UpdateStockKeepsDrift | context/AppContext.tsx:353-377 | Stock movements move no wallet. |
| Stock.OutKeepsItems | context/AppContext.tsx:353-366 | A stock-out changes only quantities: every item keeps its id, name, category, unit and cost. |
| Consumption.UsedQuantity | context/AppContext.tsx:384-386 | A food line with a weight on a kilogram item uses the weight in grams over 1000. Any other line uses its quantity. |
| Consumption.UsageMoves | context/AppContext.tsx:389-393 | A usage posting moves only the usage expense and stock accounts: the expense total rises and the stock total falls by the cost. |
| Consumption.AddDailyLog | context/AppContext.tsx:378-398 | The log goes in front of the dog's logs. Only quantities change in the inventory, and each booked line adds a stock movement. Every account moves by the sum of the lines' postings: the summed cost moves from stock into usage expense, and nothing is booked elsewhere. |
| Consumption.UseLine | context/AppContext.tsx:382-393 | A line is booked only when its item exists and its cost is positive. Then its item is taken out of stock by the used quantity, a movement is added, and the cost moves from the category's stock account to its expense account. Otherwise nothing changes. |
| Consumption.DailyLogDraws | context/AppContext.tsx:381-392 | With nonnegative stock and usage, every item ends at its quantity minus everything the booked lines drew from its id, floored at zero. Nothing else about the item changes. |
| Consumption.DrawLinesQuantity | context/AppContext.tsx:381-392 | Drawing the lines in turn from a nonnegative quantity leaves it at the quantity minus their total, floored at zero. |
| Consumption.DailyLogCostNonneg | context/AppContext.tsx:387-388 | A daily log never books a negative cost. |
| Consumption.DailyLogKeepsDrift | context/AppContext.tsx:378-399 | Daily logs move no wallet. |
| Consumption.CookedUnitCost | context/AppContext.tsx:403 | The cooked food's unit cost times the batch weight gives back the batch cost. With no weight the unit cost is 0. |
| Consumption.ProduceFoodBatch | context/AppContext.tsx:400-406 | The ingredients are taken out of stock one movement each. When the cooked-food item exists, the batch weight is restocked into it at the batch's unit cost, with one more movement. Taking out the ingredients books nothing; when the cooked item exists and weight and cost are positive, the batch cost is booked from the cash box into that item's stock account. No quantity turns negative. |
| Consumption.UseIngredient | context/AppContext.tsx:401 | An ingredient whose item exists is taken out of stock with exactly one movement; an unknown one changes nothing. Only inventory and movements change, ids and order are kept, and no quantity turns negative. |
| Consumption.CookBatch | context/AppContext.tsx:402-404 | The cooked-food item is looked up in the inventory as it was before the ingredients went out. Without it the state is unchanged; with it the batch weight is restocked at the batch's unit cost with one movement, and the batch cost moves from the cash box into that item's stock account exactly when weight and cost are positive. |
| Consumption.BatchStock | context/AppContext.tsx:400-404 | With nonnegative stock, ingredient quantities and weight, each item ends at its quantity minus what the ingredients took from it, floored at zero, plus the batch weight if it is the cooked item. |
| Consumption.TakeIngredientsQuantity | context/AppContext.tsx:401 | Taking the ingredients in turn from a nonnegative quantity leaves it at the quantity minus their total, floored at zero. |
| Consumption.StockCooked | context/AppContext.tsx:404 | The cooked item is restocked by the batch weight at the batch's unit cost, and one IN movement of that weight goes on top of the others. |
| Consumption.AdministerMedication | context/AppContext.tsx:408-420 | The dose is counted on the plan. When plan, prescription and item are found, the item is taken out of stock by the dosage, an OUT movement for the plan's dog goes on top, and the dosage times the average cost moves from medical stock 1042 into treatment expense 6031. Otherwise stock and books are untouched. |
| Consumption.DoseDrawsDown | context/AppContext.tsx:413-416 | When the item holds at least the dosage, every copy of it ends with exactly the dosage less and the same average cost. |
| Consumption.OutValue | context/AppContext.tsx:415-416 | Taking a quantity out lowers an item's stock value by that quantity at the average cost, which is the cost booked. |
| Consumption.BatchKeepsDrift | context/AppContext.tsx:400-407 | Cooking moves no wallet. |
| Consumption.DoseKeepsDrift | context/AppContext.tsx:408-421 | Medication moves no wallet. |
| Seeds.SeedInvoicesConsistent | constants.ts:147-151 | Each seeded invoice's final amount is its amount less its discount. It is paid between zero and that amount, and is PAID exactly when paid in full. |
| Seeds.SeedDogDebts | constants.ts:147-151 | At the start only the second dog owes anything: 800000 for its unpaid invoice. |
| Seeds.SeedInventorySound | constants.ts:158-163 | The seeded stock has no negative quantity or cost. |
| Seeds.SeedHasNoCookedFood | constants.ts:158-163 | The seeded inventory has no cooked-food item, so cooking from it stocks nothing in. |
| Seeds.SeedCheckOutstanding | constants.ts:165-167 | The one seeded cheque is received and outstanding. |
| FinancePage.InvoicePrice | pages/Finance.tsx:90-93 | A typed price wins. Otherwise the listed service's price is used, and 0 for an unlisted service. |
| FinancePage.ManualInvoice | pages/Finance.tsx:87-101 | The invoice's final amount is its price less the discount, floored at zero. It is unpaid, pending, not tied to a dog, and carries the form's payer, service and due date. |
| FinancePage.AddManualInvoice | pages/Finance.tsx:87-101 | Without a payer or a service nothing happens. Otherwise the invoice is issued and receivables rise by its final amount. |
| FinancePage.ManualInvoiceUsesListedPrice | pages/Finance.tsx:90-93 | With no typed price, a listed service is billed at its price less the discount. |
| FinancePage.SubmitManualEntry | pages/Finance.tsx:116 | A balanced manual entry is recorded and the form is closed and cleared. An unbalanced one changes neither the journal nor the form. |
| FinancePage.SubmitKeepsBooks | pages/Finance.tsx:116 | Manual entries keep every entry of the journal balanced. |
| DashboardPage.MyPendingInvoices | pages/Dashboard.tsx:61 | Only the signed-in user's unpaid invoices are listed, and none when nobody is signed in. |
| DashboardPage.PendingListedIff | pages/Dashboard.tsx:61 | An invoice is listed exactly when it is the signed-in user's and unpaid. |
| DashboardPage.RoomRowOf | pages/Dashboard.tsx:79-89 | A room awaits checkout exactly when one of its dogs leaves today, and is available exactly when it houses no dog. Its row lists exactly the dogs it houses, each as often as in the list of dogs. |
| DashboardPage.RoomRowCount | pages/Dashboard.tsx:79-89 | A row lists as many dogs as the room houses, and the room shows as available exactly when that list is empty. |
| DashboardPage.RoomStatusData | pages/Dashboard.tsx:79-89 | There is one row per room, in the rooms' order. |
| DashboardPage.ClientPayment | pages/Dashboard.tsx:104-130 | A non-positive amount is refused. An amount above what remains is refused. A wallet payment beyond the balance asks for a top-up of exactly the shortfall. Submission happens exactly when none of these applies. |
| DashboardPage.HandleClientPayment | pages/Dashboard.tsx:104-130 | Only a submitted payment reaches the engine's payment, with no top-up; anything else changes nothing. |
| DashboardPage.SubmittedPaymentAccepted | pages/Dashboard.tsx:104-130 | A payment that passes the page's checks on an open bill, made by the payer whose balance the page shows, is accepted by the engine. |
| DashboardPage.RechargeAndPay | pages/Dashboard.tsx:132-148 | The combined top-up and payment either fails and changes nothing, or passes exactly when the engine accepts it. |
| DashboardPage.RechargeCoversShortfall | pages/Dashboard.tsx:112-148 | After the page asked for a top-up, the combined payment goes through exactly when the top-up covers the shortfall. A smaller top-up is refused for insufficient funds. |
| InventoryPage.LowStockItems | pages/Inventory.tsx:47 | Only items at or below their minimum are listed, and all of them are. |
| InventoryPage.AddItem | pages/Inventory.tsx:52-66 | Without a name nothing happens. Otherwise exactly one item joins the end, carrying the given id and the form's name, category, quantity, unit and minimum, with an average cost of 0. |
| InventoryPage.FirstPurchaseSetsCost | pages/Inventory.tsx:62 | An item added with cost 0 and no stock takes the price of its first purchase as its average cost. |
| InventoryPage.SubmitEdit | pages/Inventory.tsx:69-84 | Without a name nothing happens. Otherwise every item with the edited id becomes the edited item with the form's name, category, unit and minimum, keeping its id, quantity and cost, and other items are untouched. |
| InventoryPage.EditTwice | pages/Inventory.tsx:69-84 | Submitting the same form twice is the same as submitting it once. |
| InventoryPage.EditUndo | pages/Inventory.tsx:69-84 | With distinct item ids, submitting an item's original fields after an edit restores the inventory. |
| InventoryPage.EditKeepsStock | pages/Inventory.tsx:69-84 | Editing an item never makes a quantity negative. |
| InventoryPage.AddIngredient | pages/Inventory.tsx:102 | Without an item or a quantity nothing happens. A listed item's quantity is raised, and a new item is appended. |
| InventoryPage.AddIngredientKeepsDistinct | pages/Inventory.tsx:102 | The kitchen list never names an item twice. |
| InventoryPage.AddIngredientWeight | pages/Inventory.tsx:102-104 | Adding a quantity raises the raw weight and that item's quantity by it. |
| InventoryPage.RemoveIngredient | pages/Inventory.tsx:103 | The item is gone from the list and every other ingredient stays. |
| InventoryPage.RemoveWeight | pages/Inventory.tsx:103-104 | Removing an item lowers the raw weight by its quantity. |
| InventoryPage.RemoveUndoesAdd | pages/Inventory.tsx:102-103 | Removing a newly added item gives back the list. |
| InventoryPage.CookWeight | pages/Inventory.tsx:105 | The cooked weight is between zero and the raw weight for a tolerance from 0 to 100. It is the raw weight at 0 and nothing at 100. |
| InventoryPage.HandleCook | pages/Inventory.tsx:105 | Cooking produces a batch at the raw weight less the tolerance and empties the kitchen list. |
| InventoryPage.CookedNoHeavierThanRaw | pages/Inventory.tsx:104-105 | A batch never weighs more than its ingredients. |
| DogsPage.AdmissionCost | pages/DogsList.tsx:137-140 | The admission total is the selected prices less the discount, floored at zero. |
| DogsPage.UnknownServiceIsFree | pages/DogsList.tsx:137-140 | Selecting a service the list does not know adds nothing. |
| DogsPage.AdmissionCostOrderFree | pages/DogsList.tsx:137-140 | The total does not depend on the order of selection. |
| DogsPage.ToggleService | pages/DogsList.tsx:230-237 | The toggled service is selected afterwards exactly when it was not selected before, and other selections are kept. |
| DogsPage.ToggleTwice | pages/DogsList.tsx:230-237 | Toggling twice restores the selection, and restores the list itself when the service was not selected. |
| DogsPage.SubmitAdmission | pages/DogsList.tsx:206-226 | The admission goes ahead exactly when a dog, a room and at least one service are chosen, and it carries them unchanged. |
| DogsPage.DogReport | pages/DogsList.tsx:256-260 | The report sums the dog's final amounts and paid amounts, where a PAID invoice with no paid amount counts as fully paid. Pending is their difference. |
| DogsPage.ReportAgreesWithDebt | pages/DogsList.tsx:256-260 | When each of the dog's PAID invoices carries no paid amount or exactly its final amount, the report's pending figure equals the engine's debt for the dog. |
| DogsPage.CalculateAge | pages/DogsList.tsx:123-135 | The age is empty exactly when the date is missing or its year is unreadable. |
| DogsPage.AgeOfDate | pages/DogsList.tsx:123-135 | For a written date, the age is 1403 less the year, and "under one year" from 1403 on. |
| DogsPage.DisplayedDogs | pages/DogsList.tsx:142 | The active view shows no checked-out dog and the archive shows only checked-out dogs. |
| DogsPage.ViewsPartitionDogs | pages/DogsList.tsx:142 | Every dog appears in exactly one of the two views. |
| UsersPage.ToggleRole | pages/Users.tsx:100-104 | A role not held is appended. A held role is dropped unless it is the only one. Other roles are kept. |
| UsersPage.ToggleRoleKeepsSome | pages/Users.tsx:100-104 | The role list never becomes empty and never repeats a role. |
| UsersPage.ToggleRoleTwice | pages/Users.tsx:100-104 | Adding a role and toggling it again gives back the list. |
| UsersPage.IsStaff | pages/Users.tsx:133 | A user is staff exactly when holding a role other than client. |
| UsersPage.StaffRoleMakesStaff | pages/Users.tsx:133 | Adding a role other than client makes the user staff. |
| UsersPage.SubmitUser | pages/Users.tsx:106-116 | Without a name, a phone or a role nothing happens. An edit gives every user with the edited id the form's name, phone, roles, base salary and commission overrides, keeping the id and balance, and leaves the others alone. A new user goes first with the new id, the form's fields and the typed balance. |
| UsersPage.EditKeepsWallets | pages/Users.tsx:106-116 | Editing a user never changes the wallet drift. |
| UsersPage.NewUserMovesWallets | pages/Users.tsx:109-113 | A new user's typed balance enters the wallets with no posting, so the drift moves by exactly that balance. |
| UsersPage.UserTransactions | pages/Users.tsx:132 | The list holds exactly the user's transactions, each as many times as in the full list, largest id first. |
| UsersPage.UserTransactionsTotal | pages/Users.tsx:132 | The list is as long as the count of the user's transactions, and its amounts add up to the user's part of the full list's total. |
| UsersPage.HandleChange | pages/Users.tsx:28-30 | Only the clicked permission flips, and one never set reads as off. |
| UsersPage.ChangeTwice | pages/Users.tsx:28-30 | Clicking a permission twice restores the form. |
| HistoryPage.FilteredLogs | pages/History.tsx:25-36 | A log is shown exactly when it matches the user, category and case-folded search filters, with every copy of a matching line kept, so the count is the number of matching lines. With no filter, every log is shown in order. |
| HistoryPage.FilteredLogsInOrder | pages/History.tsx:25-36 | Filtering keeps the log's order: a log made of two parts is filtered part by part in place, and one line is kept exactly when it matches. |
| HistoryPage.UserFilterNarrows | pages/History.tsx:25-36 | Choosing a user never shows a log the other filters alone would hide. |
| HistoryPage.ArchivedChecklists | pages/History.tsx:39-41 | The archive holds exactly the checklists an administrator verified, every copy of each, so its length is their count. |
| HistoryPage.ArchivedInOrder | pages/History.tsx:39-41 | The archive keeps the checklists' order, part by part, and keeps one checklist exactly when it is verified. |
| HistoryPage.TotalPages | pages/History.tsx:45 | The page count is the smallest count of 20-item pages that holds all items. |
| HistoryPage.PageSlice | pages/History.tsx:46 | A page shows at most 20 items, in place. It is non-empty exactly up to the last page, and full before it. |
| HistoryPage.PagesCoverData | pages/History.tsx:44-46 | Reading every page in turn shows every item once, in order. |
| HistoryPage.HandlePageChange | pages/History.tsx:48-52 | Only a page from 1 to the last is taken; anything else keeps the current page. |
| HistoryPage.PageChangeKeepsData | pages/History.tsx:44-52 | From a page showing data, every page change lands on a page showing data. |

## Left out

- React runs the handlers on a snapshot of the state, and the model does not reproduce that:
  - Entries posted from one handler can share a document number in the application. The model numbers them one after another.
  - The down payment `admitDog` makes cannot find the invoice created in the same call.
  - The model is a sequence of state transitions.
- `admitDog`, `addExpense`, `updateInvoice` and the plain list setters (rooms, services, tickets, reminders, tasks, reports) are not modelled. Only the admission form's guard and total are modelled, as `DogsPage.SubmitAdmission` and `DogsPage.AdmissionCost`.
- Persistence is not modelled: loading from and saving to local storage, and creating and restoring backups (context/AppContext.tsx:168-218, 442-460).
- The system log writes, alerts and confirmations are not modelled.
- Mirroring the signed-in user's copy after an update is not modelled. The signed-in user is an input.
- Ids, timestamps, locale date formats and `Math.random` are not modelled. They are the `env` parameter.
- The default permissions of new users (`getDefaultPermissions`), the e-mail and employment-date fields, and everything else about logging in are not modelled.
- Floating point is not modelled: amounts are exact reals, and `Number()` of a form field, with its `NaN`, is taken as already parsed.
- Dafny's code-unit order stands in for `localeCompare`. `Text.Lower` folds ASCII letters only.
- `Text.ParseInt` reads leading digits only, with no sign or leading blanks, which covers the dates the application writes.
- HistoryPage.PageSlice: requires a page of at least 1. The page counter starts at 1 and only `handlePageChange`'s checked values reach it.
- InventoryPage.AddIngredient: the quantity field is an `Option`. `None` stands for the empty field.
- Wallets.ProcessPayout: the application posts the payout entry even when no user has the id. The model does the same, and the drift lemma covers only listed users.
- Consumption.ProduceFoodBatch: the cooked batch enters stock as a priced purchase, so its cost is booked from the cash box 1011 into stock while the ingredients' stock-out books nothing. The model keeps this as written.
- The seeded invoices' due dates are not proved against the due-date rule. `DueDates.SameMonthDue` states the rule for dates written out the way the seeds write them.
- Checks.AddCheck: the entry's description text is not modelled.
- Consumption.DailyLogDraws: the floored quantities are stated for nonnegative stock and nonnegative used quantities and weights. A negative line can raise stock, and the floor then depends on the order of the lines.
- Consumption.BatchStock: stated likewise for nonnegative stock, ingredient quantities and batch weight.
- Consumption.DoseDrawsDown: stated for a dosage between zero and the item's quantity, where no floor applies. It is stated over the dose `DoseOf` finds, passed in as `Administer`'s argument.
- UsersPage.SubmitUser: a new user's typed balance is not posted to the journal in the application. `UsersPage.NewUserMovesWallets` states the resulting drift instead of an invariant.
- The user interface, the charts and the AI chat are not modelled.

=== FILE: billing.dfy ===
/** Billing in context/AppContext.tsx: issuing an invoice (262-267), paying it
    (275-296), the debt of one dog (310) and the dashboard figures (252-260). */
module Billing {
  import opened Wrappers
  import opened Types
  import opened Sums
  import opened Seqs
  import opened Journal
  import opened Club
  import opened Wallets
  import opened DueDates
  import Chart
  import Stock

  /** The receivables account an invoice is charged to. */
  const Receivables: string := "1021"

  /** The revenue account of an invoice: by the category of its service, with the
      multi-service invoice of an admission booked as training, anything else 4050. */
  function RevenueCode(services: seq<Service>, serviceId: string): (code: string)
    ensures code in Chart.RevenuePosted
    ensures FirstIndex(services, ServiceIs(serviceId)).None? ==> (code == "4010" <==> serviceId == "MULTI")
    ensures FirstIndex(services, ServiceIs(serviceId)).None? ==> (code == "4050" <==> serviceId != "MULTI")
    ensures var k := FirstIndex(services, ServiceIs(serviceId));
      k.Some? ==> (code == "4010" <==> services[k.value].category == "Training")
    ensures var k := FirstIndex(services, ServiceIs(serviceId));
      k.Some? ==> (code == "4020" <==> services[k.value].category == "Boarding")
    ensures var k := FirstIndex(services, ServiceIs(serviceId));
      k.Some? ==> (code == "4030" <==> services[k.value].category == "Medical")
    ensures var k := FirstIndex(services, ServiceIs(serviceId));
      k.Some? ==> (code == "4040" <==> services[k.value].category == "Grooming")
    ensures var k := FirstIndex(services, ServiceIs(serviceId));
      k.Some? ==> (code == "4050" <==> services[k.value].category !in CategoryRevenue)
  {
    match FirstIndex(services, ServiceIs(serviceId))
    case Some(k) =>
      var cat := services[k].category;
      if cat == "Training" then "4010"
      else if cat == "Boarding" then "4020"
      else if cat == "Medical" then "4030"
      else if cat == "Grooming" then "4040"
      else "4050"
    case None => if serviceId == "MULTI" then "4010" else "4050"
  }

  /** The service categories with a revenue account of their own. */
  const CategoryRevenue: map<string, string> :=
    map["Training" := "4010", "Boarding" := "4020", "Medical" := "4030", "Grooming" := "4040"]

  /** The revenue account is read off the category table for a listed service,
      4050 standing for every category the table lacks, and no two categories
      of the table share an account. */
  lemma RevenueByTable(services: seq<Service>, serviceId: string)
    requires FirstIndex(services, ServiceIs(serviceId)).Some?
    ensures var cat := services[FirstIndex(services, ServiceIs(serviceId)).value].category;
      RevenueCode(services, serviceId) == if cat in CategoryRevenue then CategoryRevenue[cat] else "4050"
    ensures forall a, b :: a in CategoryRevenue && b in CategoryRevenue && a != b ==> CategoryRevenue[a] != CategoryRevenue[b]
    ensures forall a :: a in CategoryRevenue ==> CategoryRevenue[a] != "4050"
  {
  }

  /** The invoice as stored: a missing due date becomes a week after the issue date. */
  function Scheduled(inv: Invoice): (r: Invoice)
    ensures r == inv.(dueDate := r.dueDate)
    ensures inv.dueDate != "" ==> r == inv
  {
    if inv.dueDate == "" then inv.(dueDate := DueDate(inv.date)) else inv
  }

  /** `addInvoice`: stores the invoice first and posts its final amount from
      receivables to revenue (Dr 1021, Cr revenue). */
  function AddInvoice(s: State, env: Env, inv: Invoice): (r: State)
    ensures r == s.(invoices := r.invoices, journal := r.journal)
    ensures r.invoices == [Scheduled(inv)] + s.invoices
    ensures |r.journal| == |s.journal| + 1
    ensures forall c :: Balance(r.journal, c) == Balance(s.journal, c) + Effect(Receivables, RevenueCode(s.services, inv.serviceId), inv.finalAmount, c)
  {
    var s1 := s.(invoices := [Scheduled(inv)] + s.invoices);
    PostTwo(s1, env, inv.date, "", inv.id, Receivables, RevenueCode(s.services, inv.serviceId), inv.finalAmount)
  }

  /** Issuing an invoice touches no wallet and not the wallet account. */
  lemma AddInvoiceKeepsDrift(s: State, env: Env, inv: Invoice)
    ensures WalletDrift(AddInvoice(s, env, inv)) == WalletDrift(s)
  {
    assert RevenueCode(s.services, inv.serviceId) != WalletCode;
  }

  // Paying an invoice

  /** The refusals of `payInvoice`, in the order it checks them. */
  datatype PayError = InvoiceNotFound | AlreadyPaid | InvalidAmount | PayerNotFound | InsufficientFunds

  /** `amount || (finalAmount - (paidAmount || 0))`: an omitted or zero amount pays the rest. */
  function PaymentAmount(inv: Invoice, amount: real): (pay: real)
    ensures amount != 0.0 ==> pay == amount
    ensures amount == 0.0 ==> pay == inv.finalAmount - inv.paidAmount
  {
    if amount != 0.0 then amount else inv.finalAmount - inv.paidAmount
  }

  /** `rechargeAmount && rechargeAmount > 0`: only a positive recharge is applied. */
  function TopUp(recharge: real): (t: real)
    ensures t >= 0.0 && (recharge > 0.0 ==> t == recharge) && (recharge <= 0.0 ==> t == 0.0)
  {
    if recharge > 0.0 then recharge else 0.0
  }

  /** An invoice counts as settled once at most 100 remains unpaid. */
  predicate Settles(inv: Invoice, paid: real) {
    paid >= inv.finalAmount - 100.0
  }

  /** The account a payment comes in on: the wallet liability for a wallet
      payment, the bank for online and card payments, the cash box otherwise. */
  function PaymentAccount(via: PaymentMethod): (code: string)
    ensures code == WalletCode <==> via == Wallet
    ensures code == "1012" <==> via == Online || via == Card
    ensures code in ["2031", "1012", "1011"]
    ensures code in Chart.PostedCodes
  {
    if via == Wallet then WalletCode
    else if via == Online || via == Card then "1012"
    else "1011"
  }

  /** Why `payInvoice` refuses, or `None` when it goes ahead. */
  function Refusal(s: State, invoiceId: string, via: PaymentMethod, amount: real, recharge: real): (e: Option<PayError>)
    ensures e == Some(InvoiceNotFound) <==> forall i :: 0 <= i < |s.invoices| ==> s.invoices[i].id != invoiceId
    ensures e.None? <==>
      FirstIndex(s.invoices, InvoiceIs(invoiceId)).Some? &&
      var inv := s.invoices[FirstIndex(s.invoices, InvoiceIs(invoiceId)).value];
      var pay := PaymentAmount(inv, amount);
      inv.status != Paid && pay > 0.0 && FindUser(s, inv.userId).Some? &&
      (via == Wallet ==> s.users[FindUser(s, inv.userId).value].balance + TopUp(recharge) >= pay)
    ensures var f := FirstIndex(s.invoices, InvoiceIs(invoiceId));
      f.Some? ==> (e == Some(AlreadyPaid) <==> s.invoices[f.value].status == Paid)
    ensures var f := FirstIndex(s.invoices, InvoiceIs(invoiceId));
      f.Some? ==>
        var inv := s.invoices[f.value];
        (e == Some(InvalidAmount) <==> inv.status != Paid && PaymentAmount(inv, amount) <= 0.0)
    ensures var f := FirstIndex(s.invoices, InvoiceIs(invoiceId));
      f.Some? ==>
        var inv := s.invoices[f.value];
        (e == Some(PayerNotFound) <==> inv.status != Paid && PaymentAmount(inv, amount) > 0.0 && FindUser(s, inv.userId).None?)
    ensures var f := FirstIndex(s.invoices, InvoiceIs(invoiceId));
      f.Some? ==>
        var inv := s.invoices[f.value];
        var pay := PaymentAmount(inv, amount);
        (e == Some(InsufficientFunds) <==>
          inv.status != Paid && pay > 0.0 && FindUser(s, inv.userId).Some? &&
          via == Wallet && s.users[FindUser(s, inv.userId).value].balance + TopUp(recharge) < pay)
  {
    match FirstIndex(s.invoices, InvoiceIs(invoiceId))
    case None => Some(InvoiceNotFound)
    case Some(k) =>
      var inv := s.invoices[k];
      if inv.status == Paid then Some(AlreadyPaid)
      else
        var pay := PaymentAmount(inv, amount);
        if pay <= 0.0 then Some(InvalidAmount)
        else match FindUser(s, inv.userId)
          case None => Some(PayerNotFound)
          case Some(u) =>
            if via == Wallet && s.users[u].balance + TopUp(recharge) < pay then Some(InsufficientFunds)
            else None
  }

  /** The commission percentage: the provider's override for the service's
      category when it is set and not zero, otherwise the service's default. */
  function CommissionPercent(provider: User, service: Service): (pct: real)
    ensures service.category in provider.commissionOverrides && provider.commissionOverrides[service.category] != 0.0 ==>
      pct == provider.commissionOverrides[service.category]
    ensures service.category !in provider.commissionOverrides || provider.commissionOverrides[service.category] == 0.0 ==>
      pct == service.defaultCommission
  {
    if service.category in provider.commissionOverrides && provider.commissionOverrides[service.category] != 0.0
    then provider.commissionOverrides[service.category]
    else service.defaultCommission
  }

  /** A set override decides the percentage whatever the service's default, and
      overrides for other categories never matter. */
  lemma OverrideDecides(provider: User, service: Service, d: real, other: string, x: real)
    requires other != service.category
    ensures var p2 := provider.(commissionOverrides := provider.commissionOverrides[other := x]);
      CommissionPercent(p2, service) == CommissionPercent(provider, service)
    ensures service.category in provider.commissionOverrides && provider.commissionOverrides[service.category] != 0.0 ==>
      CommissionPercent(provider, service.(defaultCommission := d)) == CommissionPercent(provider, service)
  {
  }

  /** The invoice's provider and service are both on file. */
  predicate Priced(s: State, inv: Invoice) {
    FindUser(s, inv.providerId).Some? && FindService(s, inv.serviceId).Some?
  }

  /** The percentage the invoice's provider earns on its service. */
  function PercentFor(s: State, inv: Invoice): real
    requires Priced(s, inv)
  {
    CommissionPercent(s.users[FindUser(s, inv.providerId).value], s.services[FindService(s, inv.serviceId).value])
  }

  /** The provider and amount of the commission a payment triggers, if any: the
      invoice names a provider, the payment settles it, provider and service
      exist, and the percentage is positive. The amount is that percentage of
      the invoice's final amount. */
  function CommissionDue(s: State, inv: Invoice, newPaid: real): (r: Option<(string, real)>)
    ensures r.Some? <==> inv.providerId != "" && Settles(inv, newPaid) && Priced(s, inv) && PercentFor(s, inv) > 0.0
    ensures r.Some? ==> r.value.0 == inv.providerId && HasUser(s.users, inv.providerId)
    ensures r.Some? ==> r.value.1 == inv.finalAmount * PercentFor(s, inv) / 100.0
  {
    if inv.providerId == "" || !Settles(inv, newPaid) then None
    else match (FindUser(s, inv.providerId), FindService(s, inv.serviceId))
      case (Some(p), Some(v)) =>
        var pct := CommissionPercent(s.users[p], s.services[v]);
        if pct > 0.0 then Some((s.users[p].id, inv.finalAmount * pct / 100.0)) else None
      case _ => None
  }

  /** A commission of at most 100 percent on an invoice of nonnegative amount is
      positive part of that amount, never more. */
  lemma CommissionWithinInvoice(s: State, inv: Invoice, newPaid: real)
    requires inv.finalAmount >= 0.0
    requires CommissionDue(s, inv, newPaid).Some? && PercentFor(s, inv) <= 100.0
    ensures 0.0 <= CommissionDue(s, inv, newPaid).value.1 <= inv.finalAmount
  {
    var f, pct := inv.finalAmount, PercentFor(s, inv);
    assert f * pct <= f * 100.0 by {
      Stock.MulMonotone(f, pct, 100.0);
    }
    assert 0.0 <= f * pct by {
      Stock.MulMonotone(f, 0.0, pct);
    }
    assert CommissionDue(s, inv, newPaid).value.1 == f * pct / 100.0;
    assert f * pct / 100.0 <= f * 100.0 / 100.0;
  }

  /** `invoices.map(inv => inv.id === id ? v : inv)`. */
  function Replace(invoices: seq<Invoice>, id: string, v: Invoice): (r: seq<Invoice>)
    ensures |r| == |invoices|
    ensures forall i :: 0 <= i < |r| ==> r[i] == if invoices[i].id == id then v else invoices[i]
  {
    if |invoices| == 0 then []
    else [if invoices[0].id == id then v else invoices[0]] + Replace(invoices[1..], id, v)
  }

  /** The wallet transactions of the payer's side, in the order `payInvoice`
      lists them: the recharge deposit first, then the payment out of the wallet. */
  function PayerTxns(env: Env, payer: User, via: PaymentMethod, pay: real, recharge: real): (t: seq<WalletTxn>)
    ensures |t| == (if recharge > 0.0 then 1 else 0) + (if via == Wallet then 1 else 0)
    ensures forall i :: 0 <= i < |t| ==> t[i].userId == payer.id
    ensures recharge > 0.0 ==> t[0].kind == Deposit && t[0].amount == recharge && t[0].isCredit
    ensures via == Wallet ==> t[|t| - 1].kind == Payment && t[|t| - 1].amount == pay && !t[|t| - 1].isCredit
  {
    (if recharge > 0.0 then [WalletTxn("txn_rc_" + env.stamp, payer.id, recharge, Deposit, "", env.today, true)] else [])
    + (if via == Wallet then [WalletTxn("txn_py_" + env.stamp, payer.id, pay, Payment, "", env.today, false)] else [])
  }

  /** The optional recharge's posting: the top-up paid into the bank for the
      payer's wallet (Dr 1012, Cr 2031). */
  function RechargePosting(s: State, env: Env, payer: User, recharge: real): (r: State)
    ensures recharge <= 0.0 ==> r == s
    ensures r == s.(journal := r.journal)
    ensures forall c :: Balance(r.journal, c) == Balance(s.journal, c) + Effect("1012", WalletCode, TopUp(recharge), c)
  {
    if recharge > 0.0 then PostTwo(s, env, env.today, payer.name, "", "1012", WalletCode, recharge) else s
  }

  /** The payment's posting: from the payment account to receivables. */
  function PayPosting(s: State, env: Env, inv: Invoice, via: PaymentMethod, pay: real): (r: State)
    ensures r == s.(journal := r.journal)
    ensures forall c :: Balance(r.journal, c) == Balance(s.journal, c) + Effect(PaymentAccount(via), Receivables, pay, c)
  {
    PostTwo(s, env, inv.date, "", inv.id, PaymentAccount(via), Receivables, pay)
  }

  /** The payer's transactions go in together, then the recharge and the payment are posted in that order. */
  function PayerBooks(s: State, env: Env, inv: Invoice, payer: User, via: PaymentMethod, pay: real, recharge: real): (r: State)
    ensures r == s.(transactions := r.transactions, journal := r.journal)
    ensures r.transactions == PayerTxns(env, payer, via, pay, recharge) + s.transactions
    ensures forall c :: Balance(r.journal, c) == Balance(s.journal, c) + Effect("1012", WalletCode, TopUp(recharge), c)
                                                 + Effect(PaymentAccount(via), Receivables, pay, c)
  {
    var s1 := s.(transactions := PayerTxns(env, payer, via, pay, recharge) + s.transactions);
    PayPosting(RechargePosting(s1, env, payer, recharge), env, inv, via, pay)
  }

  /** The payer's side of an accepted payment: the payer's transactions go in
      together, the recharge and the payment are posted in that order, and the
      payer's wallet is set to its balance plus the recharge, less the payment
      when it came out of the wallet. */
  function Collect(s: State, env: Env, k: nat, u: nat, via: PaymentMethod, pay: real, recharge: real): (r: State)
    requires k < |s.invoices| && u < |s.users|
    ensures r == s.(users := r.users, transactions := r.transactions, journal := r.journal)
    ensures r.transactions == PayerTxns(env, s.users[u], via, pay, recharge) + s.transactions
    ensures |r.users| == |s.users| && forall i :: 0 <= i < |s.users| ==> r.users[i].id == s.users[i].id
    ensures forall i :: 0 <= i < |s.users| && s.users[i].id != s.users[u].id ==> r.users[i] == s.users[i]
    ensures r.users[u].balance == s.users[u].balance + TopUp(recharge) - (if via == Wallet then pay else 0.0)
    ensures forall c :: Balance(r.journal, c) == Balance(s.journal, c) + Effect("1012", WalletCode, TopUp(recharge), c)
                                                 + Effect(PaymentAccount(via), Receivables, pay, c)
    ensures UniqueUserIds(s.users) ==> UniqueUserIds(r.users) && WalletDrift(r) == WalletDrift(s)
  {
    var inv, payer := s.invoices[k], s.users[u];
    var balance := payer.balance + TopUp(recharge) - (if via == Wallet then pay else 0.0);
    var s2 := PayerBooks(s, env, inv, payer, via, pay, recharge);
    var users := PayerWallet(s.users, u, balance);
    if UniqueUserIds(s.users) then
      PayerDrift(s.journal, s2.journal, s.users, users, via, pay, recharge);
      s2.(users := users)
    else s2.(users := users)
  }

  /** The payer's wallet set to `v`: every user keeps its id and everybody else
      is untouched, and with unique ids the total moves by the change. */
  function PayerWallet(users: seq<User>, u: nat, v: real): (r: seq<User>)
    requires u < |users|
    ensures |r| == |users| && forall i :: 0 <= i < |users| ==> r[i].id == users[i].id
    ensures forall i :: 0 <= i < |users| && users[i].id != users[u].id ==> r[i] == users[i]
    ensures r[u].balance == v
    ensures UniqueUserIds(users) ==> UniqueUserIds(r) && WalletTotal(r) == WalletTotal(users) + (v - users[u].balance)
  {
    if UniqueUserIds(users) then
      SetBalanceTotal(users, u, v);
      SetBalance(users, users[u].id, v)
    else SetBalance(users, users[u].id, v)
  }

  /** The payer's wallet moves by the recharge less a wallet payment, and the
      wallet account by the opposite, so their sum stays put. */
  lemma PayerDrift(j: seq<Entry>, j2: seq<Entry>, users: seq<User>, users2: seq<User>, via: PaymentMethod, pay: real, recharge: real)
    requires forall c :: Balance(j2, c) == Balance(j, c) + Effect("1012", WalletCode, TopUp(recharge), c)
                                           + Effect(PaymentAccount(via), Receivables, pay, c)
    requires WalletTotal(users2) == WalletTotal(users) + TopUp(recharge) - (if via == Wallet then pay else 0.0)
    ensures WalletTotal(users2) + Balance(j2, WalletCode) == WalletTotal(users) + Balance(j, WalletCode)
  {
    assert Balance(j2, WalletCode) == Balance(j, WalletCode) - TopUp(recharge) + (if via == Wallet then pay else 0.0);
  }

  /** The invoice as `payInvoice` leaves it: paid amount, status and method. */
  function Updated(inv: Invoice, via: PaymentMethod, pay: real): (r: Invoice)
    ensures r.paidAmount == inv.paidAmount + pay
    ensures r.status == Paid <==> Settles(inv, inv.paidAmount + pay)
    ensures r.status != Paid ==> r.status == Pending
    ensures r == inv.(paidAmount := r.paidAmount, status := r.status, paymentMethod := Some(via))
  {
    var newPaid := inv.paidAmount + pay;
    inv.(paidAmount := newPaid, status := if Settles(inv, newPaid) then Paid else Pending, paymentMethod := Some(via))
  }

  /** What a commission, when one is due, does to account `c`: Dr 6011, Cr 2031. */
  function CommissionEffect(due: Option<(string, real)>, c: string): real {
    if due.Some? then Effect("6011", WalletCode, due.value.1, c) else 0.0
  }

  /** The commission payout, when the payment triggers one: the provider's wallet
      is credited, a commission transaction goes first, and it is booked from
      commission expense to the wallet account. */
  function PayCommission(s3: State, env: Env, due: Option<(string, real)>, reference: string): (r: State)
    ensures r == s3.(users := r.users, transactions := r.transactions, journal := r.journal)
    ensures |r.users| == |s3.users|
    ensures forall i :: 0 <= i < |s3.users| ==>
      r.users[i] == s3.users[i].(balance := s3.users[i].balance + (if due.Some? && s3.users[i].id == due.value.0 then due.value.1 else 0.0))
    ensures due.None? ==> r.transactions == s3.transactions
    ensures due.Some? ==>
      |r.transactions| == |s3.transactions| + 1 && r.transactions[1..] == s3.transactions &&
      r.transactions[0].kind == Commission && r.transactions[0].userId == due.value.0 &&
      r.transactions[0].amount == due.value.1 && r.transactions[0].isCredit
    ensures forall c :: Balance(r.journal, c) == Balance(s3.journal, c) + CommissionEffect(due, c)
    ensures UniqueUserIds(s3.users) && (due.Some? ==> HasUser(s3.users, due.value.0)) ==>
      WalletDrift(r) == WalletDrift(s3)
  {
    match due
    case Some((provider, amount)) =>
      var r := ProcessPayout(s3, env, provider, amount, Commission, reference);
      assert PayoutCode(Commission) == "6011";
      if UniqueUserIds(s3.users) && HasUser(s3.users, provider) then
        PayoutKeepsDrift(s3, env, provider, amount, Commission, reference);
        r
      else r
    case None => s3
  }

  /** What a payment `payInvoice` accepts does, in order: the payer's side, the
      commission, the invoice update. */
  function Settle(s: State, env: Env, k: nat, u: nat, via: PaymentMethod, pay: real, recharge: real): (r: State)
    requires k < |s.invoices| && u < |s.users|
    ensures r == s.(users := r.users, transactions := r.transactions, journal := r.journal, invoices := r.invoices)
  {
    var inv := s.invoices[k];
    var s3 := Collect(s, env, k, u, via, pay, recharge);
    var s4 := PayCommission(s3, env, CommissionDue(s, inv, inv.paidAmount + pay), inv.id);
    s4.(invoices := Replace(s4.invoices, inv.id, Updated(inv, via, pay)))
  }

  /** Every account moves by the recharge, the payment and the commission. */
  lemma SettleJournal(s: State, env: Env, k: nat, u: nat, via: PaymentMethod, pay: real, recharge: real)
    requires k < |s.invoices| && u < |s.users|
    ensures var due := CommissionDue(s, s.invoices[k], s.invoices[k].paidAmount + pay);
      var r := Settle(s, env, k, u, via, pay, recharge);
      forall c :: Balance(r.journal, c) == Balance(s.journal, c) + Effect("1012", WalletCode, TopUp(recharge), c)
        + Effect(PaymentAccount(via), Receivables, pay, c) + CommissionEffect(due, c)
  {
    SettleSteps(s, env, k, u, via, pay, recharge);
  }

  /** Only the invoices with the paid invoice's id change, to the updated invoice. */
  lemma SettleInvoices(s: State, env: Env, k: nat, u: nat, via: PaymentMethod, pay: real, recharge: real)
    requires k < |s.invoices| && u < |s.users|
    ensures var r := Settle(s, env, k, u, via, pay, recharge);
      |r.invoices| == |s.invoices| &&
      forall i :: 0 <= i < |s.invoices| ==>
        r.invoices[i] == if s.invoices[i].id == s.invoices[k].id then Updated(s.invoices[k], via, pay) else s.invoices[i]
  {
    SettleSteps(s, env, k, u, via, pay, recharge);
  }

  /** Only the payer and the commission's payee change. */
  lemma SettleUsers(s: State, env: Env, k: nat, u: nat, via: PaymentMethod, pay: real, recharge: real)
    requires k < |s.invoices| && u < |s.users|
    ensures var due := CommissionDue(s, s.invoices[k], s.invoices[k].paidAmount + pay);
      var r := Settle(s, env, k, u, via, pay, recharge);
      |r.users| == |s.users| &&
      forall i :: 0 <= i < |s.users| && s.users[i].id != s.users[u].id && (due.None? || s.users[i].id != due.value.0) ==>
        r.users[i] == s.users[i]
  {
    SettleSteps(s, env, k, u, via, pay, recharge);
    var inv := s.invoices[k];
    var due := CommissionDue(s, inv, inv.paidAmount + pay);
    var s3 := Collect(s, env, k, u, via, pay, recharge);
    var s4 := PayCommission(s3, env, due, inv.id);
    var r := Settle(s, env, k, u, via, pay, recharge);
    assert r.users == s4.users;
    forall i | 0 <= i < |s.users| && s.users[i].id != s.users[u].id && (due.None? || s.users[i].id != due.value.0)
      ensures r.users[i] == s.users[i]
    {
      assert s3.users[i] == s.users[i];
      assert s4.users[i] == s3.users[i];
    }
  }

  /** The payer's transactions go on top of the earlier ones, with the commission above them. */
  lemma SettleTransactions(s: State, env: Env, k: nat, u: nat, via: PaymentMethod, pay: real, recharge: real)
    requires k < |s.invoices| && u < |s.users|
    ensures var due := CommissionDue(s, s.invoices[k], s.invoices[k].paidAmount + pay);
      var t := PayerTxns(env, s.users[u], via, pay, recharge);
      var r := Settle(s, env, k, u, via, pay, recharge);
      (due.None? ==> r.transactions == t + s.transactions) &&
      (due.Some? ==>
        |r.transactions| == |t| + |s.transactions| + 1 && r.transactions[1..] == t + s.transactions &&
        r.transactions[0].kind == Commission && r.transactions[0].userId == due.value.0 &&
        r.transactions[0].amount == due.value.1)
  {
    SettleSteps(s, env, k, u, via, pay, recharge);
  }

  /** `Settle` in its two steps. */
  lemma SettleSteps(s: State, env: Env, k: nat, u: nat, via: PaymentMethod, pay: real, recharge: real)
    requires k < |s.invoices| && u < |s.users|
    ensures var inv := s.invoices[k];
      var s4 := PayCommission(Collect(s, env, k, u, via, pay, recharge), env, CommissionDue(s, inv, inv.paidAmount + pay), inv.id);
      Settle(s, env, k, u, via, pay, recharge) == s4.(invoices := Replace(s4.invoices, inv.id, Updated(inv, via, pay)))
  {
  }

  /** The payer's wallet after `Settle`. */
  lemma SettlePayer(s: State, env: Env, k: nat, u: nat, via: PaymentMethod, pay: real, recharge: real)
    requires k < |s.invoices| && u < |s.users|
    ensures var inv := s.invoices[k];
      var c := CommissionDue(s, inv, inv.paidAmount + pay);
      var r := Settle(s, env, k, u, via, pay, recharge);
      |r.users| == |s.users| &&
      r.users[u].balance == s.users[u].balance + TopUp(recharge) - (if via == Wallet then pay else 0.0)
        + (if c.Some? && c.value.0 == s.users[u].id then c.value.1 else 0.0)
  {
    SettleSteps(s, env, k, u, via, pay, recharge);
  }

  /** Receivables after `Settle`. */
  lemma SettleReceivables(s: State, env: Env, k: nat, u: nat, via: PaymentMethod, pay: real, recharge: real)
    requires k < |s.invoices| && u < |s.users|
    ensures Balance(Settle(s, env, k, u, via, pay, recharge).journal, Receivables) == Balance(s.journal, Receivables) - pay
  {
    SettleJournal(s, env, k, u, via, pay, recharge);
    var inv := s.invoices[k];
    assert CommissionEffect(CommissionDue(s, inv, inv.paidAmount + pay), Receivables) == 0.0;
  }

  /** The commission's payee is still a user after the payer's side. */
  lemma CollectKeepsPayee(s: State, env: Env, k: nat, u: nat, via: PaymentMethod, pay: real, recharge: real, id: string)
    requires k < |s.invoices| && u < |s.users| && HasUser(s.users, id)
    ensures HasUser(Collect(s, env, k, u, via, pay, recharge).users, id)
  {
    var s3 := Collect(s, env, k, u, via, pay, recharge);
    var p :| 0 <= p < |s.users| && s.users[p].id == id;
    assert s3.users[p].id == id;
  }

  /** The wallet figure after the payer's side and the commission. */
  lemma CollectCommissionDrift(s: State, env: Env, k: nat, u: nat, via: PaymentMethod, pay: real, recharge: real)
    requires k < |s.invoices| && u < |s.users|
    requires UniqueUserIds(s.users)
    ensures var inv := s.invoices[k];
      var s4 := PayCommission(Collect(s, env, k, u, via, pay, recharge), env, CommissionDue(s, inv, inv.paidAmount + pay), inv.id);
      WalletDrift(s4) == WalletDrift(s)
  {
    var inv := s.invoices[k];
    var c := CommissionDue(s, inv, inv.paidAmount + pay);
    if c.Some? {
      CollectKeepsPayee(s, env, k, u, via, pay, recharge, c.value.0);
    }
  }

  /** The wallet figure after `Settle`. */
  lemma SettleDrift(s: State, env: Env, k: nat, u: nat, via: PaymentMethod, pay: real, recharge: real)
    requires k < |s.invoices| && u < |s.users|
    requires UniqueUserIds(s.users)
    ensures WalletDrift(Settle(s, env, k, u, via, pay, recharge)) == WalletDrift(s)
  {
    SettleSteps(s, env, k, u, via, pay, recharge);
    CollectCommissionDrift(s, env, k, u, via, pay, recharge);
  }

  /** `payInvoice`: a refusal changes nothing, the requested recharge included;
      otherwise the payment is settled. */
  function PayInvoice(s: State, env: Env, invoiceId: string, via: PaymentMethod, amount: real, recharge: real): (r: (State, Outcome<PayError>))
    ensures r.1.Fail? <==> Refusal(s, invoiceId, via, amount, recharge).Some?
    ensures r.1.Fail? ==> r.0 == s && r.1.error == Refusal(s, invoiceId, via, amount, recharge).value
  {
    match Refusal(s, invoiceId, via, amount, recharge)
    case Some(e) => (s, Fail(e))
    case None =>
      var k := FirstIndex(s.invoices, InvoiceIs(invoiceId)).value;
      var u := FindUser(s, s.invoices[k].userId).value;
      (Settle(s, env, k, u, via, PaymentAmount(s.invoices[k], amount), recharge), Pass)
  }

  /** The invoice `k` and the payer `u` that `payInvoice` finds for `invoiceId`. */
  predicate Found(s: State, invoiceId: string, k: nat, u: nat) {
    FirstIndex(s.invoices, InvoiceIs(invoiceId)) == Some(k) && k < |s.invoices| &&
    FindUser(s, s.invoices[k].userId) == Some(u) && u < |s.users|
  }

  /** An accepted payment is `Settle` at the invoice and payer `payInvoice` finds. */
  lemma PayInvoiceSettles(s: State, env: Env, invoiceId: string, via: PaymentMethod, amount: real, recharge: real,
                          k: nat, u: nat)
    requires Refusal(s, invoiceId, via, amount, recharge).None? && Found(s, invoiceId, k, u)
    ensures s.invoices[k].id == invoiceId && s.users[u].id == s.invoices[k].userId
    ensures PayInvoice(s, env, invoiceId, via, amount, recharge).0 == Settle(s, env, k, u, via, PaymentAmount(s.invoices[k], amount), recharge)
  {
  }

  /** An accepted payment moves every account by the recharge (Dr 1012, Cr 2031),
      the payment (Dr the payment account, Cr 1021) and the commission when one is
      due (Dr 6011, Cr 2031), and by nothing else. */
  lemma PayInvoicePostings(s: State, env: Env, invoiceId: string, via: PaymentMethod, amount: real, recharge: real,
                           k: nat, u: nat)
    requires Refusal(s, invoiceId, via, amount, recharge).None? && Found(s, invoiceId, k, u)
    ensures var inv := s.invoices[k];
      var pay := PaymentAmount(inv, amount);
      var r := PayInvoice(s, env, invoiceId, via, amount, recharge).0;
      forall c :: Balance(r.journal, c) == Balance(s.journal, c) + Effect("1012", WalletCode, TopUp(recharge), c)
        + Effect(PaymentAccount(via), Receivables, pay, c) + CommissionEffect(CommissionDue(s, inv, inv.paidAmount + pay), c)
  {
    PayInvoiceSettles(s, env, invoiceId, via, amount, recharge, k, u);
    SettleJournal(s, env, k, u, via, PaymentAmount(s.invoices[k], amount), recharge);
  }

  /** An accepted payment changes only the invoices with the id, the wallets of
      the payer and of the commission's payee, the wallet transactions and the
      journal. */
  lemma PayInvoiceFrame(s: State, env: Env, invoiceId: string, via: PaymentMethod, amount: real, recharge: real,
                        k: nat, u: nat)
    requires Refusal(s, invoiceId, via, amount, recharge).None? && Found(s, invoiceId, k, u)
    ensures var inv := s.invoices[k];
      var due := CommissionDue(s, inv, inv.paidAmount + PaymentAmount(inv, amount));
      var r := PayInvoice(s, env, invoiceId, via, amount, recharge).0;
      r == s.(users := r.users, transactions := r.transactions, journal := r.journal, invoices := r.invoices) &&
      |r.invoices| == |s.invoices| && |r.users| == |s.users| &&
      (forall i :: 0 <= i < |s.invoices| && s.invoices[i].id != invoiceId ==> r.invoices[i] == s.invoices[i]) &&
      (forall i :: 0 <= i < |s.users| && s.users[i].id != inv.userId && (due.None? || s.users[i].id != due.value.0) ==>
        r.users[i] == s.users[i])
  {
    PayInvoiceSettles(s, env, invoiceId, via, amount, recharge, k, u);
    SettleInvoices(s, env, k, u, via, PaymentAmount(s.invoices[k], amount), recharge);
    SettleUsers(s, env, k, u, via, PaymentAmount(s.invoices[k], amount), recharge);
  }

  /** The wallet transactions of a payment as `payInvoice` leaves them: the
      commission to `provider`, when one is due, then the payer's recharge
      deposit, then the payer's payment out of the wallet, and below them the
      older transactions unchanged. */
  predicate PaymentTxns(rt: seq<WalletTxn>, older: seq<WalletTxn>, due: Option<(string, real)>, provider: string,
                        via: PaymentMethod, pay: real, recharge: real, payer: string)
  {
    var d := if due.Some? then 1 else 0;
    var n := d + (if recharge > 0.0 then 1 else 0) + (if via == Wallet then 1 else 0);
    |rt| == |older| + n && rt[n..] == older &&
    (due.Some? ==> rt[0].kind == Commission && rt[0].userId == provider && rt[0].amount == due.value.1) &&
    (recharge > 0.0 ==> rt[d].kind == Deposit && rt[d].userId == payer && rt[d].amount == recharge) &&
    (via == Wallet ==> rt[n - 1].kind == Payment && rt[n - 1].userId == payer && rt[n - 1].amount == pay)
  }

  /** The wallet transactions of an accepted payment go on top in the order the
      application leaves them: the commission when one is due, then the recharge
      deposit, then the payment out of the wallet; the earlier ones follow unchanged. */
  lemma PayInvoiceTransactions(s: State, env: Env, invoiceId: string, via: PaymentMethod, amount: real, recharge: real,
                               k: nat, u: nat)
    requires Refusal(s, invoiceId, via, amount, recharge).None? && Found(s, invoiceId, k, u)
    ensures var inv := s.invoices[k];
      var pay := PaymentAmount(inv, amount);
      PaymentTxns(PayInvoice(s, env, invoiceId, via, amount, recharge).0.transactions, s.transactions,
                  CommissionDue(s, inv, inv.paidAmount + pay), inv.providerId, via, pay, recharge, inv.userId)
  {
    PayInvoiceSettles(s, env, invoiceId, via, amount, recharge, k, u);
    var inv := s.invoices[k];
    var pay := PaymentAmount(inv, amount);
    var due := CommissionDue(s, inv, inv.paidAmount + pay);
    var r := Settle(s, env, k, u, via, pay, recharge);
    SettleTransactions(s, env, k, u, via, pay, recharge);
    TxnOrder(r.transactions, s.transactions, PayerTxns(env, s.users[u], via, pay, recharge), due, inv.providerId, via, pay, recharge, inv.userId);
  }

  /** Where the wallet transactions of a payment sit: the commission, when one
      is due, above the payer's recharge and payment, above the older ones. */
  lemma TxnOrder(rt: seq<WalletTxn>, older: seq<WalletTxn>, t: seq<WalletTxn>, due: Option<(string, real)>, provider: string,
                 via: PaymentMethod, pay: real, recharge: real, payer: string)
    requires |t| == (if recharge > 0.0 then 1 else 0) + (if via == Wallet then 1 else 0)
    requires forall i :: 0 <= i < |t| ==> t[i].userId == payer
    requires recharge > 0.0 ==> t[0].kind == Deposit && t[0].amount == recharge
    requires via == Wallet ==> t[|t| - 1].kind == Payment && t[|t| - 1].amount == pay
    requires due.None? ==> rt == t + older
    requires due.Some? ==>
      |rt| == |t| + |older| + 1 && rt[1..] == t + older &&
      rt[0].kind == Commission && rt[0].userId == provider && rt[0].amount == due.value.1
    ensures PaymentTxns(rt, older, due, provider, via, pay, recharge, payer)
  {
    var d := if due.Some? then 1 else 0;
    assert rt[d..] == t + older;
    Stacked(rt, d, t, older);
  }

  /** A list whose tail from `d` is `t` followed by `older`. */
  lemma Stacked(rt: seq<WalletTxn>, d: nat, t: seq<WalletTxn>, older: seq<WalletTxn>)
    requires d <= |rt| && rt[d..] == t + older
    ensures |rt| == d + |t| + |older| && rt[d + |t|..] == older
    ensures forall i :: 0 <= i < |t| ==> rt[d + i] == t[i]
  {
    assert rt[d + |t|..] == rt[d..][|t|..];
    forall i | 0 <= i < |t|
      ensures rt[d + i] == t[i]
    {
      assert rt[d + i] == rt[d..][i];
    }
  }

  /** Whenever `payInvoice` accepts, it has found an invoice and a payer. */
  lemma AcceptedIsFound(s: State, invoiceId: string, via: PaymentMethod, amount: real, recharge: real)
    requires Refusal(s, invoiceId, via, amount, recharge).None?
    ensures exists k: nat, u: nat :: Found(s, invoiceId, k, u)
  {
    var k := FirstIndex(s.invoices, InvoiceIs(invoiceId)).value;
    var u := FindUser(s, s.invoices[k].userId).value;
    assert Found(s, invoiceId, k, u);
  }

  /** The invoice paid: its paid amount grows by the payment, it is PAID exactly
      when at most 100 remains, PENDING otherwise, and it records the payment method.
      Nothing caps the payment at what remains. */
  lemma PayInvoiceUpdatesInvoice(s: State, env: Env, invoiceId: string, via: PaymentMethod, amount: real, recharge: real,
                                 k: nat, u: nat)
    requires Refusal(s, invoiceId, via, amount, recharge).None? && Found(s, invoiceId, k, u)
    ensures var inv := s.invoices[k];
      var r := PayInvoice(s, env, invoiceId, via, amount, recharge).0;
      var newPaid := inv.paidAmount + PaymentAmount(inv, amount);
      |r.invoices| == |s.invoices| &&
      r.invoices[k].paidAmount == newPaid &&
      (r.invoices[k].status == Paid <==> newPaid >= inv.finalAmount - 100.0) &&
      (r.invoices[k].status != Paid ==> r.invoices[k].status == Pending) &&
      r.invoices[k] == inv.(paidAmount := newPaid, status := r.invoices[k].status, paymentMethod := Some(via))
  {
    PayInvoiceSettles(s, env, invoiceId, via, amount, recharge, k, u);
  }

  /** The payer's wallet ends at its balance plus the recharge, less the payment
      when it came out of the wallet, plus any commission paid to the payer. */
  lemma PayInvoicePayerBalance(s: State, env: Env, invoiceId: string, via: PaymentMethod, amount: real, recharge: real,
                               k: nat, u: nat)
    requires Refusal(s, invoiceId, via, amount, recharge).None? && Found(s, invoiceId, k, u)
    ensures var inv := s.invoices[k];
      var pay := PaymentAmount(inv, amount);
      var c := CommissionDue(s, inv, inv.paidAmount + pay);
      var r := PayInvoice(s, env, invoiceId, via, amount, recharge).0;
      |r.users| == |s.users| &&
      r.users[u].balance == s.users[u].balance + TopUp(recharge) - (if via == Wallet then pay else 0.0)
        + (if c.Some? && c.value.0 == s.users[u].id then c.value.1 else 0.0)
  {
    PayInvoiceSettles(s, env, invoiceId, via, amount, recharge, k, u);
    SettlePayer(s, env, k, u, via, PaymentAmount(s.invoices[k], amount), recharge);
  }

  /** A wallet payment never takes the payer's wallet below zero, before any
      commission the payer earns from it. */
  lemma WalletPaymentNeverOverdraws(s: State, env: Env, invoiceId: string, amount: real, recharge: real, k: nat, u: nat)
    requires Refusal(s, invoiceId, Wallet, amount, recharge).None? && Found(s, invoiceId, k, u)
    ensures var inv := s.invoices[k];
      var c := CommissionDue(s, inv, inv.paidAmount + PaymentAmount(inv, amount));
      var r := PayInvoice(s, env, invoiceId, Wallet, amount, recharge).0;
      r.users[u].balance >= (if c.Some? && c.value.0 == s.users[u].id then c.value.1 else 0.0)
  {
    PayInvoicePayerBalance(s, env, invoiceId, Wallet, amount, recharge, k, u);
  }

  /** The receivables account falls by exactly the payment; the recharge and the
      commission do not touch it. */
  lemma PayInvoiceReceivables(s: State, env: Env, invoiceId: string, via: PaymentMethod, amount: real, recharge: real,
                              k: nat, u: nat)
    requires Refusal(s, invoiceId, via, amount, recharge).None? && Found(s, invoiceId, k, u)
    ensures var r := PayInvoice(s, env, invoiceId, via, amount, recharge).0;
      Balance(r.journal, Receivables) == Balance(s.journal, Receivables) - PaymentAmount(s.invoices[k], amount)
  {
    PayInvoiceSettles(s, env, invoiceId, via, amount, recharge, k, u);
    SettleReceivables(s, env, k, u, via, PaymentAmount(s.invoices[k], amount), recharge);
  }

  /** With distinct user ids, paying an invoice keeps the wallets in step with the wallet account. */
  lemma PayInvoiceKeepsDrift(s: State, env: Env, invoiceId: string, via: PaymentMethod, amount: real, recharge: real)
    requires UniqueUserIds(s.users)
    ensures WalletDrift(PayInvoice(s, env, invoiceId, via, amount, recharge).0) == WalletDrift(s)
  {
    if Refusal(s, invoiceId, via, amount, recharge).None? {
      AcceptedIsFound(s, invoiceId, via, amount, recharge);
      var k: nat, u: nat :| Found(s, invoiceId, k, u);
      PayInvoiceSettles(s, env, invoiceId, via, amount, recharge, k, u);
      SettleDrift(s, env, k, u, via, PaymentAmount(s.invoices[k], amount), recharge);
    }
  }
}

=== FILE: checks.dfy ===
/** The cheque lifecycle of context/AppContext.tsx:301-302. Registering a cheque
    books it against the trade accounts; clearing it moves the money through the
    bank; bouncing it, or setting it back to outstanding, only changes its status. */
module Checks {
  import opened Wrappers
  import opened Types
  import opened Seqs
  import opened Journal
  import opened Club

  /** The two accounts a cheque is registered with. A received cheque turns a
      receivable into a cheque in hand (Dr 1031, Cr 1021); a cheque the club
      writes settles a payable into cheques payable (Dr 2011, Cr 2021). */
  function RegisterPosting(kind: CheckType): (p: (string, string))
    ensures kind == Received ==> p == ("1031", "1021")
    ensures kind == Issued ==> p == ("2011", "2021")
  {
    match kind
    case Received => ("1031", "1021")
    case Issued => ("2011", "2021")
  }

  /** The two accounts of clearing: a received cheque is cashed into the bank
      (Dr 1012, Cr 1031); a written one is paid from it (Dr 2021, Cr 1012). */
  function ClearPosting(kind: CheckType): (p: (string, string))
    ensures p.0 != p.1 && (p.0 == "1012" || p.1 == "1012")
    ensures kind == Received ==> p.1 == RegisterPosting(kind).0
    ensures kind == Issued ==> p.0 == RegisterPosting(kind).1
  {
    match kind
    case Received => ("1012", "1031")
    case Issued => ("2021", "1012")
  }

  /** `addCheck`: the cheque goes first on the list and its registration is posted. */
  function AddCheck(s: State, env: Env, c: Check): (r: State)
    ensures r == s.(checks := r.checks, journal := r.journal)
    ensures r.checks == [c] + s.checks
    ensures |r.journal| == |s.journal| + 1
    ensures var (dr, cr) := RegisterPosting(c.kind);
      forall code :: Balance(r.journal, code) == Balance(s.journal, code) + Effect(dr, cr, c.amount, code)
  {
    var (dr, cr) := RegisterPosting(c.kind);
    PostTwo(s.(checks := [c] + s.checks), env, c.registeredDate, "", c.checkNumber, dr, cr, c.amount)
  }

  /** `checks.map(c => c.id === id ? { ...c, status } : c)`. */
  function SetStatus(checks: seq<Check>, id: string, status: CheckStatus): (r: seq<Check>)
    ensures |r| == |checks|
    ensures forall i :: 0 <= i < |r| ==> r[i] == if checks[i].id == id then checks[i].(status := status) else checks[i]
  {
    if |checks| == 0 then []
    else [if checks[0].id == id then checks[0].(status := status) else checks[0]] + SetStatus(checks[1..], id, status)
  }

  /** `updateCheckStatus`: an unknown id changes nothing. Otherwise every cheque
      with the id takes the new status, and only a change to Cleared posts, with
      the amount and kind of the first such cheque. Nothing stops a cheque that
      is already cleared from being cleared, and posted, again. */
  function UpdateCheckStatus(s: State, env: Env, checkId: string, status: CheckStatus): (r: State)
    ensures (forall i :: 0 <= i < |s.checks| ==> s.checks[i].id != checkId) ==> r == s
    ensures r == s.(checks := r.checks, journal := r.journal)
    ensures status != Cleared ==> r.journal == s.journal
    ensures FirstIndex(s.checks, CheckIs(checkId)).Some? ==> r.checks == SetStatus(s.checks, checkId, status)
    ensures FirstIndex(s.checks, CheckIs(checkId)).Some? && status == Cleared ==>
      var c := s.checks[FirstIndex(s.checks, CheckIs(checkId)).value];
      var (dr, cr) := ClearPosting(c.kind);
      |r.journal| == |s.journal| + 1 &&
      forall code :: Balance(r.journal, code) == Balance(s.journal, code) + Effect(dr, cr, c.amount, code)
  {
    match FirstIndex(s.checks, CheckIs(checkId))
    case None => s
    case Some(k) =>
      var c := s.checks[k];
      var s1 := s.(checks := SetStatus(s.checks, checkId, status));
      if status == Cleared then
        var (dr, cr) := ClearPosting(c.kind);
        PostTwo(s1, env, env.today, "", c.checkNumber, dr, cr, c.amount)
      else s1
  }

  /** Cheques never touch a wallet or the wallet account. */
  lemma ChecksKeepDrift(s: State, env: Env, c: Check, checkId: string, status: CheckStatus)
    ensures WalletDrift(AddCheck(s, env, c)) == WalletDrift(s)
    ensures WalletDrift(UpdateCheckStatus(s, env, checkId, status)) == WalletDrift(s)
  {
    assert RegisterPosting(c.kind).0 != WalletCode && RegisterPosting(c.kind).1 != WalletCode;
    StatusKeepsDrift(s, env, checkId, status);
  }

  lemma StatusKeepsDrift(s: State, env: Env, checkId: string, status: CheckStatus)
    ensures WalletDrift(UpdateCheckStatus(s, env, checkId, status)) == WalletDrift(s)
  {
    match FirstIndex(s.checks, CheckIs(checkId))
    case None =>
    case Some(k) =>
      match s.checks[k].kind
      case Received =>
        assert ClearPosting(Received) == ("1012", "1031");
      case Issued =>
        assert ClearPosting(Issued) == ("2021", "1012");
  }

  /** Registering a received cheque and then clearing it moves its amount from
      receivables to the bank and leaves nothing in cheques on hand. */
  lemma ReceiveThenClear(s: State, env: Env, c: Check)
    requires c.kind == Received
    ensures var r := UpdateCheckStatus(AddCheck(s, env, c), env, c.id, Cleared);
      Balance(r.journal, "1012") == Balance(s.journal, "1012") + c.amount &&
      Balance(r.journal, "1021") == Balance(s.journal, "1021") - c.amount &&
      Balance(r.journal, "1031") == Balance(s.journal, "1031")
  {
    var s1 := AddCheck(s, env, c);
    assert s1.checks[0] == c;
    assert FirstIndex(s1.checks, CheckIs(c.id)) == Some(0);
  }

  /** Writing a cheque and then clearing it settles its amount of payables out
      of the bank and leaves nothing in cheques payable. */
  lemma IssueThenClear(s: State, env: Env, c: Check)
    requires c.kind == Issued
    ensures var r := UpdateCheckStatus(AddCheck(s, env, c), env, c.id, Cleared);
      Balance(r.journal, "2011") == Balance(s.journal, "2011") + c.amount &&
      Balance(r.journal, "1012") == Balance(s.journal, "1012") - c.amount &&
      Balance(r.journal, "2021") == Balance(s.journal, "2021")
  {
    var s1 := AddCheck(s, env, c);
    assert s1.checks[0] == c;
    assert FirstIndex(s1.checks, CheckIs(c.id)) == Some(0);
  }

  /** A status change keeps the cheque it found first, with its kind and amount. */
  lemma StatusKeepsFirst(s: State, env: Env, checkId: string, status: CheckStatus, k: nat)
    requires FirstIndex(s.checks, CheckIs(checkId)) == Some(k)
    ensures var r := UpdateCheckStatus(s, env, checkId, status);
      FirstIndex(r.checks, CheckIs(checkId)) == Some(k) && k < |r.checks| &&
      r.checks[k].kind == s.checks[k].kind && r.checks[k].amount == s.checks[k].amount
  {
    var r := UpdateCheckStatus(s, env, checkId, status);
    assert r.checks[k] == s.checks[k].(status := status);
    forall i | 0 <= i < k
      ensures !CheckIs(checkId)(r.checks[i])
    {
      assert !CheckIs(checkId)(s.checks[i]);
    }
  }

  /** Clearing a received cheque twice books its amount into the bank twice. */
  lemma ClearTwicePostsTwice(s: State, env: Env, checkId: string, k: nat)
    requires FirstIndex(s.checks, CheckIs(checkId)) == Some(k)
    requires s.checks[k].kind == Received
    ensures var r := UpdateCheckStatus(UpdateCheckStatus(s, env, checkId, Cleared), env, checkId, Cleared);
      Balance(r.journal, "1012") == Balance(s.journal, "1012") + 2.0 * s.checks[k].amount
  {
    var s1 := UpdateCheckStatus(s, env, checkId, Cleared);
    StatusKeepsFirst(s, env, checkId, Cleared, k);
    assert Balance(s1.journal, "1012") == Balance(s.journal, "1012") + s.checks[k].amount;
    var s2 := UpdateCheckStatus(s1, env, checkId, Cleared);
    assert Balance(s2.journal, "1012") == Balance(s1.journal, "1012") + s1.checks[k].amount;
  }
}

=== FILE: club.dfy ===
/** The state the bookkeeping operations of context/AppContext.tsx work on, the
    lookups they share, and the wallet bookkeeping every operation keeps: the
    users' balances against the wallet liability account 2031. */
module Club {
  import opened Wrappers
  import opened Types
  import opened Sums
  import opened Seqs
  import opened Text
  import opened Journal

  /** The lists of the application state the engine reads and writes, newest
      first where the application prepends. */
  datatype State = State(
    users: seq<User>,
    transactions: seq<WalletTxn>,
    invoices: seq<Invoice>,
    services: seq<Service>,
    journal: seq<Entry>,
    accounts: seq<Account>,
    checks: seq<Check>,
    inventory: seq<Item>,
    moves: seq<StockMove>,
    dogs: seq<Dog>,
    treatments: seq<TreatmentPlan>,
    expenses: seq<ExpenseRecord>)

  /** The wallet liability account: what the club owes its users' wallets. */
  const WalletCode: string := "2031"

  // Lookups by id, each the first match as `find` returns it

  function UserIs(id: string): User -> bool { (u: User) => u.id == id }
  function InvoiceIs(id: string): Invoice -> bool { (v: Invoice) => v.id == id }
  function ServiceIs(id: string): Service -> bool { (v: Service) => v.id == id }
  function ItemIs(id: string): Item -> bool { (v: Item) => v.id == id }
  function ItemNamed(name: string): Item -> bool { (v: Item) => v.name == name }
  function CheckIs(id: string): Check -> bool { (v: Check) => v.id == id }
  function PlanIs(id: string): TreatmentPlan -> bool { (v: TreatmentPlan) => v.id == id }
  function PrescriptionIs(id: string): Prescription -> bool { (v: Prescription) => v.id == id }

  function FindUser(s: State, id: string): Option<nat> { FirstIndex(s.users, UserIs(id)) }
  function FindService(s: State, id: string): Option<nat> { FirstIndex(s.services, ServiceIs(id)) }
  function FindItem(s: State, id: string): Option<nat> { FirstIndex(s.inventory, ItemIs(id)) }

  /** No two users share an id, as the ids the application hands out ensure. */
  predicate UniqueUserIds(users: seq<User>) {
    forall a, b :: 0 <= a < b < |users| ==> users[a].id != users[b].id
  }

  predicate HasUser(users: seq<User>, id: string) {
    exists k :: 0 <= k < |users| && users[k].id == id
  }

  // Wallets

  /** `users.map(u => u.id === id ? { ...u, balance: u.balance + delta } : u)`. */
  function Credit(users: seq<User>, id: string, delta: real): (r: seq<User>)
    ensures |r| == |users|
    ensures forall i :: 0 <= i < |r| && users[i].id != id ==> r[i] == users[i]
    ensures forall i :: 0 <= i < |r| && users[i].id == id ==> r[i] == users[i].(balance := users[i].balance + delta)
  {
    if |users| == 0 then []
    else
      var u := users[0];
      [if u.id == id then u.(balance := u.balance + delta) else u] + Credit(users[1..], id, delta)
  }

  /** `users.map(u => u.id === id ? { ...u, balance: v } : u)`. */
  function SetBalance(users: seq<User>, id: string, v: real): (r: seq<User>)
    ensures |r| == |users|
    ensures forall i :: 0 <= i < |r| && users[i].id != id ==> r[i] == users[i]
    ensures forall i :: 0 <= i < |r| && users[i].id == id ==> r[i] == users[i].(balance := v)
  {
    if |users| == 0 then []
    else
      var u := users[0];
      [if u.id == id then u.(balance := v) else u] + SetBalance(users[1..], id, v)
  }

  function UserBalance(u: User): real { u.balance }

  /** The sum of all wallet balances. */
  function WalletTotal(users: seq<User>): real { SumOf(users, UserBalance) }

  lemma UniqueTail(users: seq<User>)
    requires |users| > 0 && UniqueUserIds(users)
    ensures UniqueUserIds(users[1..])
    ensures !HasUser(users[1..], users[0].id)
  {
    var rest := users[1..];
    forall a, b | 0 <= a < b < |rest|
      ensures rest[a].id != rest[b].id
    {
      assert rest[a] == users[a + 1] && rest[b] == users[b + 1];
    }
    forall k | 0 <= k < |rest|
      ensures rest[k].id != users[0].id
    {
      assert rest[k] == users[k + 1];
    }
  }

  lemma HasUserTail(users: seq<User>, id: string)
    requires |users| > 0 && users[0].id != id
    ensures HasUser(users, id) <==> HasUser(users[1..], id)
  {
    if HasUser(users, id) {
      var k :| 0 <= k < |users| && users[k].id == id;
      assert users[1..][k - 1].id == id;
    }
    if HasUser(users[1..], id) {
      var k :| 0 <= k < |users[1..]| && users[1..][k].id == id;
      assert users[k + 1].id == id;
    }
  }

  /** Crediting one user moves the total of all wallets by the amount when the
      user exists, and not at all otherwise. */
  lemma {:induction false} CreditTotal(users: seq<User>, id: string, delta: real)
    requires UniqueUserIds(users)
    ensures WalletTotal(Credit(users, id, delta)) == WalletTotal(users) + (if HasUser(users, id) then delta else 0.0)
  {
    if |users| > 0 {
      UniqueTail(users);
      CreditTotal(users[1..], id, delta);
      if users[0].id == id {
        assert HasUser(users, id);
        SumOfCongruent(users[1..], UserBalance, UserBalance);
        assert Credit(users[1..], id, delta) == users[1..];
      } else {
        HasUserTail(users, id);
      }
    }
  }

  /** Setting one user's balance to `v` moves the total by `v` less the old balance. */
  lemma {:induction false} SetBalanceTotal(users: seq<User>, k: nat, v: real)
    requires UniqueUserIds(users) && k < |users|
    ensures WalletTotal(SetBalance(users, users[k].id, v)) == WalletTotal(users) + (v - users[k].balance)
  {
    var id := users[k].id;
    UniqueTail(users);
    if k == 0 {
      assert SetBalance(users[1..], id, v) == users[1..];
    } else {
      assert users[1..][k - 1] == users[k];
      SetBalanceTotal(users[1..], k - 1, v);
    }
  }

  lemma FoundUser(s: State, id: string)
    requires FindUser(s, id).Some?
    ensures HasUser(s.users, id) && s.users[FindUser(s, id).value].id == id
  {
  }

  // Posting

  /** A fresh entry id: the operation's stamp and the journal's length. */
  function EntryId(env: Env, j: seq<Entry>): string {
    "je_" + env.stamp + "_" + NatToString(|j|)
  }

  /** Records the two-line posting `amount` from `dr` to `cr` on the state's
      journal, authored by the signed-in user; nothing else changes. */
  function PostTwo(s: State, env: Env, date: string, description: string, reference: string,
                   dr: string, cr: string, amount: real): (r: State)
    ensures r == s.(journal := r.journal)
    ensures |r.journal| == |s.journal| + 1 && r.journal[1..] == s.journal
    ensures r.journal[0].lines == TwoLine(dr, cr, amount)
    ensures forall c :: Balance(r.journal, c) == Balance(s.journal, c) + Effect(dr, cr, amount, c)
  {
    s.(journal := Post(s.journal, date, description, reference, dr, cr, amount,
                       EntryId(env, s.journal), CreatedBy(env.currentUser)))
  }

  /** Every entry on the state's journal balances. */
  predicate Books(s: State) {
    AllBalanced(s.journal)
  }

  lemma PostTwoKeepsBooks(s: State, env: Env, date: string, description: string, reference: string,
                          dr: string, cr: string, amount: real)
    requires Books(s)
    ensures Books(PostTwo(s, env, date, description, reference, dr, cr, amount))
  {
    var r := PostTwo(s, env, date, description, reference, dr, cr, amount);
    forall k | 0 <= k < |r.journal|
      ensures Balanced(r.journal[k].lines)
    {
      if k > 0 {
        assert r.journal[k] == s.journal[k - 1];
      }
    }
  }

  /** The wallet balances together with the wallet liability account. Every
      posting that changes a wallet changes 2031 by the opposite amount, so the
      operations keep this figure fixed. */
  function WalletDrift(s: State): real {
    WalletTotal(s.users) + Balance(s.journal, WalletCode)
  }
}

=== FILE: collections.dfy ===
/** Sums of real-valued measures over sequences: every total in the books
    (debits, credits, balances, salaries, costs) is one of these folds. */
module Sums {

  function Abs(x: real): (r: real)
    ensures r >= 0.0
    ensures r == x || r == -x
  {
    if x < 0.0 then -x else x
  }

  /** The sum of `f` over `s`, first element first. */
  function SumOf<T>(s: seq<T>, f: T -> real): real
  {
    if |s| == 0 then 0.0 else f(s[0]) + SumOf(s[1..], f)
  }

  lemma {:induction false} SumOfAppend<T>(a: seq<T>, b: seq<T>, f: T -> real)
    ensures SumOf(a + b, f) == SumOf(a, f) + SumOf(b, f)
  {
    if |a| == 0 {
      assert a + b == b;
    } else {
      assert (a + b)[1..] == a[1..] + b;
      SumOfAppend(a[1..], b, f);
    }
  }

  /** The sum over a two-element list. */
  lemma SumOfPair<T>(a: T, b: T, f: T -> real)
    ensures SumOf([a, b], f) == f(a) + f(b)
  {
    assert [a, b][1..] == [b];
    assert [b][1..] == [];
    assert SumOf([b], f) == f(b) + SumOf([], f);
  }

  /** Adding one element at the end adds its measure. */
  lemma SumOfSnoc<T>(s: seq<T>, x: T, f: T -> real)
    ensures SumOf(s + [x], f) == SumOf(s, f) + f(x)
  {
    SumOfAppend(s, [x], f);
  }

  lemma {:induction false} SumOfNonneg<T>(s: seq<T>, f: T -> real)
    requires forall i :: 0 <= i < |s| ==> f(s[i]) >= 0.0
    ensures SumOf(s, f) >= 0.0
  {
    if |s| > 0 {
      SumOfNonneg(s[1..], f);
    }
  }

  /** Pointwise `f <= g` on the elements gives `SumOf(s, f) <= SumOf(s, g)`. */
  lemma {:induction false} SumOfMonotone<T>(s: seq<T>, f: T -> real, g: T -> real)
    requires forall i :: 0 <= i < |s| ==> f(s[i]) <= g(s[i])
    ensures SumOf(s, f) <= SumOf(s, g)
  {
    if |s| > 0 {
      SumOfMonotone(s[1..], f, g);
    }
  }

  /** The sum of a pointwise sum is the sum of the sums. */
  lemma {:induction false} SumOfPlus<T>(s: seq<T>, f: T -> real, g: T -> real, h: T -> real)
    requires forall i :: 0 <= i < |s| ==> h(s[i]) == f(s[i]) + g(s[i])
    ensures SumOf(s, h) == SumOf(s, f) + SumOf(s, g)
  {
    if |s| > 0 {
      SumOfPlus(s[1..], f, g, h);
    }
  }

  /** Measures that agree on the elements give equal sums. */
  lemma {:induction false} SumOfCongruent<T>(s: seq<T>, f: T -> real, g: T -> real)
    requires forall i :: 0 <= i < |s| ==> f(s[i]) == g(s[i])
    ensures SumOf(s, f) == SumOf(s, g)
  {
    if |s| > 0 {
      SumOfCongruent(s[1..], f, g);
    }
  }

  /** A measure that vanishes on every element sums to zero. */
  lemma {:induction false} SumOfZero<T>(s: seq<T>, f: T -> real)
    requires forall i :: 0 <= i < |s| ==> f(s[i]) == 0.0
    ensures SumOf(s, f) == 0.0
  {
    if |s| > 0 {
      SumOfZero(s[1..], f);
    }
  }

  /** A sum of nonnegative terms is zero only when every term is. */
  lemma {:induction false} SumOfNonnegZero<T>(s: seq<T>, f: T -> real)
    requires forall i :: 0 <= i < |s| ==> f(s[i]) >= 0.0
    requires SumOf(s, f) == 0.0
    ensures forall i :: 0 <= i < |s| ==> f(s[i]) == 0.0
  {
    if |s| > 0 {
      SumOfNonneg(s[1..], f);
      SumOfNonnegZero(s[1..], f);
      forall i | 1 <= i < |s|
        ensures f(s[i]) == 0.0
      {
        assert s[i] == s[1..][i - 1];
      }
    }
  }

  /** Triangle inequality: a sum is no larger in size than the sum of bounds on its terms. */
  lemma {:induction false} SumOfAbsBound<T>(s: seq<T>, f: T -> real, g: T -> real)
    requires forall i :: 0 <= i < |s| ==> Abs(f(s[i])) <= g(s[i])
    ensures Abs(SumOf(s, f)) <= SumOf(s, g)
  {
    if |s| > 0 {
      SumOfAbsBound(s[1..], f, g);
      assert Abs(f(s[0])) <= g(s[0]);
    }
  }

  /** Taking the element at `k` out of a sum. */
  lemma SumOfRemoveAt<T>(b: seq<T>, k: nat, f: T -> real)
    requires k < |b|
    ensures SumOf(b, f) == f(b[k]) + SumOf(b[..k] + b[k + 1..], f)
  {
    var p, x, q := b[..k], b[k], b[k + 1..];
    assert b == p + [x] + q;
    SumOfAppend(p + [x], q, f);
    SumOfSnoc(p, x, f);
    SumOfAppend(p, q, f);
  }

  /** Taking the same element out of two permutations leaves permutations. */
  lemma RemoveMatching<T>(a: seq<T>, b: seq<T>, k: nat)
    requires |a| > 0 && k < |b| && b[k] == a[0] && multiset(a) == multiset(b)
    ensures multiset(a[1..]) == multiset(b[..k] + b[k + 1..])
  {
    var x := a[0];
    assert a == [x] + a[1..];
    assert b == b[..k] + [x] + b[k + 1..];
    calc {
      multiset(a[1..]);
      multiset(a) - multiset{x};
      multiset(b) - multiset{x};
      multiset(b[..k]) + multiset{x} + multiset(b[k + 1..]) - multiset{x};
      multiset(b[..k] + b[k + 1..]);
    }
  }

  /** A sum does not depend on the order of the elements. */
  lemma {:induction false} SumOfPermutation<T>(a: seq<T>, b: seq<T>, f: T -> real)
    requires multiset(a) == multiset(b)
    ensures SumOf(a, f) == SumOf(b, f)
    decreases |a|
  {
    if |a| == 0 {
      assert |b| == |multiset(b)| == 0;
    } else {
      assert a[0] in multiset(b);
      var k :| 0 <= k < |b| && b[k] == a[0];
      RemoveMatching(a, b, k);
      SumOfPermutation(a[1..], b[..k] + b[k + 1..], f);
      SumOfRemoveAt(b, k, f);
    }
  }

  /** Summing `Indicator(x, v)` over a list holding `x` exactly once gives `v`. */
  function Indicator<T(==)>(x: T, v: real): T -> real
  {
    y => if y == x then v else 0.0
  }

  lemma {:induction false} SumOfIndicator<T>(s: seq<T>, x: T, v: real)
    requires forall i, j :: 0 <= i < j < |s| ==> s[i] != s[j]
    ensures SumOf(s, Indicator(x, v)) == if x in s then v else 0.0
  {
    if |s| > 0 {
      assert forall i, j :: 0 <= i < j < |s[1..]| ==> s[1..][i] != s[1..][j] by {
        forall i, j | 0 <= i < j < |s[1..]|
          ensures s[1..][i] != s[1..][j]
        {
          assert s[1..][i] == s[i + 1] && s[1..][j] == s[j + 1];
        }
      }
      SumOfIndicator(s[1..], x, v);
      if s[0] == x {
        assert x !in s[1..] by {
          forall i | 0 <= i < |s[1..]|
            ensures s[1..][i] != x
          {
            assert s[1..][i] == s[i + 1];
          }
        }
      }
    }
  }
}

/** Order-preserving filters and counts over sequences. */
module Seqs {
  import opened Wrappers
  import opened Sums

  /** The elements of `s` satisfying `p`, in their original order. */
  function Filter<T>(s: seq<T>, p: T -> bool): (r: seq<T>)
    ensures |r| <= |s|
    ensures forall i :: 0 <= i < |r| ==> p(r[i])
    ensures forall i :: 0 <= i < |s| && p(s[i]) ==> s[i] in r
    ensures multiset(r) <= multiset(s)
  {
    if |s| == 0 then []
    else
      var rest := Filter(s[1..], p);
      assert s == [s[0]] + s[1..];
      if p(s[0]) then [s[0]] + rest else rest
  }

  lemma {:induction false} FilterAppend<T>(a: seq<T>, b: seq<T>, p: T -> bool)
    ensures Filter(a + b, p) == Filter(a, p) + Filter(b, p)
  {
    if |a| == 0 {
      assert a + b == b;
    } else {
      assert (a + b)[1..] == a[1..] + b;
      FilterAppend(a[1..], b, p);
    }
  }

  /** Adding one element in front keeps it exactly when it passes the test. */
  lemma FilterCons<T>(x: T, s: seq<T>, p: T -> bool)
    ensures Filter([x] + s, p) == (if p(x) then [x] else []) + Filter(s, p)
  {
    assert ([x] + s)[1..] == s;
  }

  /** Adding one element at the end keeps it exactly when it passes the test. */
  lemma FilterSnoc<T>(s: seq<T>, x: T, p: T -> bool)
    ensures Filter(s + [x], p) == Filter(s, p) + (if p(x) then [x] else [])
  {
    FilterAppend(s, [x], p);
    assert [x][1..] == [];
  }

  /** Filtering by a test every element passes changes nothing. */
  lemma {:induction false} FilterAll<T>(s: seq<T>, p: T -> bool)
    requires forall i :: 0 <= i < |s| ==> p(s[i])
    ensures Filter(s, p) == s
  {
    if |s| > 0 {
      FilterAll(s[1..], p);
    }
  }

  /** A filter keeps every copy of an element that passes the test and no copy of one that fails it. */
  lemma {:induction false} FilterMultiplicity<T>(s: seq<T>, p: T -> bool)
    ensures forall x :: multiset(Filter(s, p))[x] == if p(x) then multiset(s)[x] else 0
  {
    if |s| > 0 {
      FilterMultiplicity(s[1..], p);
      assert s == [s[0]] + s[1..];
    }
  }

  /** An element is in a filter exactly when it is in the list and passes the test. */
  lemma FilterMembers<T>(s: seq<T>, p: T -> bool)
    ensures forall x :: x in Filter(s, p) <==> x in s && p(x)
  {
    forall x | x in Filter(s, p)
      ensures x in s
    {
      assert x in multiset(Filter(s, p));
    }
  }

  /** Lists with the same elements, counted, hold the same elements. */
  lemma SameMembers<T>(a: seq<T>, b: seq<T>)
    requires multiset(a) == multiset(b)
    ensures forall x :: x in a <==> x in b
  {
    forall x
      ensures x in a <==> x in b
    {
      assert x in a <==> x in multiset(a);
      assert x in b <==> x in multiset(b);
    }
  }

  /** No element occurs twice. */
  predicate Distinct<T(==)>(s: seq<T>) {
    forall i, j :: 0 <= i < j < |s| ==> s[i] != s[j]
  }

  /** A filter of a list without repeats has no repeats. */
  lemma {:induction false} FilterKeepsDistinct<T>(s: seq<T>, p: T -> bool)
    requires Distinct(s)
    ensures Distinct(Filter(s, p))
  {
    if |s| > 0 {
      var tail := s[1..];
      assert Distinct(tail) by {
        forall i, j | 0 <= i < j < |tail|
          ensures tail[i] != tail[j]
        {
          assert tail[i] == s[i + 1] && tail[j] == s[j + 1];
        }
      }
      FilterKeepsDistinct(tail, p);
      var rest := Filter(tail, p);
      if p(s[0]) {
        assert s[0] !in multiset(tail) by {
          forall i | 0 <= i < |tail|
            ensures tail[i] != s[0]
          {
            assert tail[i] == s[i + 1];
          }
        }
        assert s[0] !in rest;
        var r := [s[0]] + rest;
        forall i, j | 0 <= i < j < |r|
          ensures r[i] != r[j]
        {
          if i == 0 {
            assert r[j] == rest[j - 1];
          } else {
            assert r[i] == rest[i - 1] && r[j] == rest[j - 1];
          }
        }
      }
    }
  }

  /** How many elements of `s` satisfy `p`. */
  function CountOf<T>(s: seq<T>, p: T -> bool): (n: nat)
    ensures n <= |s|
  {
    if |s| == 0 then 0 else (if p(s[0]) then 1 else 0) + CountOf(s[1..], p)
  }

  /** Adding one element at the end counts it when it satisfies `p`. */
  lemma {:induction false} CountOfSnoc<T>(s: seq<T>, x: T, p: T -> bool)
    ensures CountOf(s + [x], p) == CountOf(s, p) + (if p(x) then 1 else 0)
  {
    if |s| > 0 {
      assert (s + [x])[1..] == s[1..] + [x];
      CountOfSnoc(s[1..], x, p);
    } else {
      assert (s + [x])[1..] == [];
    }
  }

  lemma {:induction false} CountOfIsFilterLength<T>(s: seq<T>, p: T -> bool)
    ensures CountOf(s, p) == |Filter(s, p)|
  {
    if |s| > 0 {
      CountOfIsFilterLength(s[1..], p);
    }
  }

  /** Every element of `s` satisfies `p` or every element fails it: the two filters split `s`. */
  lemma {:induction false} FilterPartition<T>(s: seq<T>, p: T -> bool, q: T -> bool)
    requires forall x :: q(x) == !p(x)
    ensures multiset(Filter(s, p)) + multiset(Filter(s, q)) == multiset(s)
  {
    if |s| > 0 {
      FilterPartition(s[1..], p, q);
      assert s == [s[0]] + s[1..];
    }
  }

  /** Dropping elements whose measure is zero does not change the sum. */
  lemma {:induction false} SumOfFilter<T>(s: seq<T>, p: T -> bool, f: T -> real)
    requires forall i :: 0 <= i < |s| && !p(s[i]) ==> f(s[i]) == 0.0
    ensures SumOf(Filter(s, p), f) == SumOf(s, f)
  {
    if |s| > 0 {
      SumOfFilter(s[1..], p, f);
    }
  }

  /** Summing over a filter is summing a measure that is zero off the filter. */
  lemma {:induction false} SumOfFilterMask<T>(s: seq<T>, p: T -> bool, f: T -> real, g: T -> real)
    requires forall i :: 0 <= i < |s| ==> g(s[i]) == if p(s[i]) then f(s[i]) else 0.0
    ensures SumOf(Filter(s, p), f) == SumOf(s, g)
  {
    if |s| > 0 {
      SumOfFilterMask(s[1..], p, f, g);
    }
  }

  /** `s.findIndex(p)`: the position of the first element satisfying `p`, if any. */
  function FirstIndex<T>(s: seq<T>, p: T -> bool): (r: Option<nat>)
    ensures r.None? <==> forall i :: 0 <= i < |s| ==> !p(s[i])
    ensures r.Some? ==> r.value < |s| && p(s[r.value])
    ensures r.Some? ==> forall i :: 0 <= i < r.value ==> !p(s[i])
  {
    if |s| == 0 then None
    else if p(s[0]) then Some(0)
    else
      match FirstIndex(s[1..], p)
      case None => None
      case Some(k) => Some(k + 1)
  }
}

=== FILE: constants.dfy ===
/** The seeded chart of accounts (constants.ts:24-72): five roots, one per
    account type, each followed by its sub-groups and postable leaves. The
    chart is kept as one list per account type; `DefaultAccounts` joins them
    in the order constants.ts lists them. */
module Chart {
  import opened Wrappers
  import opened Types
  import opened Text

  function Acc(id: string, code: string, name: string, kind: AccountType, parentId: string): (a: Account)
    ensures a.isActive
  {
    Account(id, code, name, kind, parentId, true)
  }

  const AssetAccounts: seq<Account> := [
    Acc("a1", "10", "دارایی‌های جاری", Asset, ""),
    Acc("a2", "1010", "موجودی نقد و بانک", Asset, "a1"),
    Acc("1011", "1011", "صندوق مرکزی", Asset, "a2"),
    Acc("1012", "1012", "بانک ملی", Asset, "a2"),
    Acc("a3", "1020", "حساب‌های دریافتنی", Asset, "a1"),
    Acc("1021", "1021", "بدهکاران تجاری (مشتریان)", Asset, "a3"),
    Acc("a4", "1030", "اسناد دریافتنی", Asset, "a1"),
    Acc("1031", "1031", "چک‌های دریافتنی", Asset, "a4"),
    Acc("a5", "1040", "موجودی کالا", Asset, "a1"),
    Acc("1041", "1041", "انبار غذا", Asset, "a5"),
    Acc("1042", "1042", "انبار دارو", Asset, "a5"),
    Acc("1043", "1043", "انبار تجهیزات", Asset, "a5")
  ]

  /** Where each parent of `AssetAccounts` sits in it, `-1` for the root. */
  const AssetParents: seq<int> := [-1, 0, 1, 1, 0, 4, 0, 6, 0, 8, 8, 8]

  const LiabilityAccounts: seq<Account> := [
    Acc("l1", "20", "بدهی‌های جاری", Liability, ""),
    Acc("l2", "2010", "حساب‌های پرداختنی", Liability, "l1"),
    Acc("2011", "2011", "بستانکاران تجاری (تامین کنندگان)", Liability, "l2"),
    Acc("l3", "2020", "اسناد پرداختنی", Liability, "l1"),
    Acc("2021", "2021", "چک‌های پرداختی", Liability, "l3"),
    Acc("l4", "2030", "پیش‌دریافت‌ها", Liability, "l1"),
    Acc("2031", "2031", "کیف پول کاربران (بدهی به اعضا)", Liability, "l4"),
    Acc("l5", "2040", "حقوق پرداختنی", Liability, "l1")
  ]

  /** Where each parent of `LiabilityAccounts` sits in it, `-1` for the root. */
  const LiabilityParents: seq<int> := [-1, 0, 1, 0, 3, 0, 5, 0]

  const EquityAccounts: seq<Account> := [
    Acc("eq1", "30", "حقوق صاحبان سهام", Equity, ""),
    Acc("3010", "3010", "سرمایه اولیه", Equity, "eq1"),
    Acc("3020", "3020", "سود/زیان انباشته", Equity, "eq1")
  ]

  /** Where each parent of `EquityAccounts` sits in it, `-1` for the root. */
  const EquityParents: seq<int> := [-1, 0, 0]

  const RevenueAccounts: seq<Account> := [
    Acc("r1", "40", "درآمدهای عملیاتی", Revenue, ""),
    Acc("4010", "4010", "درآمد آموزش", Revenue, "r1"),
    Acc("4020", "4020", "درآمد پانسیون", Revenue, "r1"),
    Acc("4030", "4030", "درآمد خدمات پزشکی", Revenue, "r1"),
    Acc("4040", "4040", "درآمد اصلاح و شستشو", Revenue, "r1"),
    Acc("4050", "4050", "فروش کالا و غذا", Revenue, "r1")
  ]

  /** Where each parent of `RevenueAccounts` sits in it, `-1` for the root. */
  const RevenueParents: seq<int> := [-1, 0, 0, 0, 0, 0]

  const ExpenseAccounts: seq<Account> := [
    Acc("ex1", "60", "هزینه‌های عملیاتی", Expense, ""),
    Acc("6010", "6010", "هزینه حقوق و دستمزد", Expense, "ex1"),
    Acc("6011", "6011", "هزینه پورسانت مربیان", Expense, "ex1"),
    Acc("6020", "6020", "هزینه اجاره", Expense, "ex1"),
    Acc("6030", "6030", "هزینه خوراک سگ‌ها (COGS)", Expense, "ex1"),
    Acc("6031", "6031", "هزینه دارو و درمان (COGS)", Expense, "ex1"),
    Acc("6040", "6040", "هزینه تعمیرات و نگهداری", Expense, "ex1"),
    Acc("6050", "6050", "هزینه تبلیغات", Expense, "ex1"),
    Acc("6060", "6060", "هزینه ملزومات مصرفی", Expense, "ex1")
  ]

  /** Where each parent of `ExpenseAccounts` sits in it, `-1` for the root. */
  const ExpenseParents: seq<int> := [-1, 0, 0, 0, 0, 0, 0, 0, 0]

  /** `DEFAULT_ACCOUNTS`. */
  const DefaultAccounts: seq<Account> :=
    AssetAccounts + LiabilityAccounts + EquityAccounts + RevenueAccounts + ExpenseAccounts

  /** The codes of the five roots. */
  const RootCodes: seq<string> := ["10", "20", "30", "40", "60"]

  /** The codes the engine's postings use, grouped by account type. */
  const AssetPosted: seq<string> := ["1011", "1012", "1021", "1031", "1041", "1042", "1043"]
  const LiabilityPosted: seq<string> := ["2011", "2021", "2031"]
  const RevenuePosted: seq<string> := ["4010", "4020", "4030", "4040", "4050"]
  const ExpensePosted: seq<string> := ["6010", "6011", "6020", "6030", "6031", "6040", "6050", "6060"]

  const PostedCodes: seq<string> := AssetPosted + LiabilityPosted + RevenuePosted + ExpensePosted

  predicate CodesAscending(s: seq<Account>) {
    forall i :: 0 <= i < |s| - 1 ==> StrLt(s[i].code, s[i + 1].code)
  }

  /** Every account with a parent finds it earlier in the list, with the same type. */
  predicate ParentsEarlier(s: seq<Account>) {
    forall i :: 0 <= i < |s| && s[i].parentId != "" ==>
      exists k :: 0 <= k < i && s[k].id == s[i].parentId && s[k].kind == s[i].kind
  }

  /** `parents[i]` is where the parent of `s[i]` sits, or `-1` when it has none. */
  predicate ParentsAt(s: seq<Account>, parents: seq<int>) {
    |parents| == |s| &&
    forall i :: 0 <= i < |s| ==>
      if s[i].parentId == "" then parents[i] == -1
      else 0 <= parents[i] < i && s[parents[i]].id == s[i].parentId && s[parents[i]].kind == s[i].kind
  }

  lemma ParentsAtEarlier(s: seq<Account>, parents: seq<int>)
    requires ParentsAt(s, parents)
    ensures ParentsEarlier(s)
  {
    forall i | 0 <= i < |s| && s[i].parentId != ""
      ensures exists k :: 0 <= k < i && s[k].id == s[i].parentId && s[k].kind == s[i].kind
    {
      var k := parents[i];
      assert 0 <= k < i && s[k].id == s[i].parentId && s[k].kind == s[i].kind;
    }
  }

  /** The accounts without a parent are exactly those with a root code. */
  predicate RootsMarked(s: seq<Account>) {
    forall i :: 0 <= i < |s| ==> (s[i].parentId == "" <==> s[i].code in RootCodes)
  }

  /** The code a seeded id stands for: group ids are letters, leaf ids are their own codes. */
  function CodeOfId(id: string): string {
    if id == "a1" then "10" else if id == "a2" then "1010" else if id == "a3" then "1020"
    else if id == "a4" then "1030" else if id == "a5" then "1040"
    else if id == "l1" then "20" else if id == "l2" then "2010" else if id == "l3" then "2020"
    else if id == "l4" then "2030" else if id == "l5" then "2040"
    else if id == "eq1" then "30" else if id == "r1" then "40" else if id == "ex1" then "60"
    else id
  }

  predicate IdsStandForCodes(s: seq<Account>) {
    forall i :: 0 <= i < |s| ==> CodeOfId(s[i].id) == s[i].code
  }

  lemma AssetOrder()
    ensures forall i :: 0 <= i < |AssetAccounts| - 1 ==> StrLt(AssetAccounts[i].code, AssetAccounts[i + 1].code)
  {
  }

  lemma AssetTree()
    ensures ParentsEarlier(AssetAccounts)
  {
    ParentsAtEarlier(AssetAccounts, AssetParents);
  }

  lemma AssetRoots()
    ensures forall i :: 0 <= i < |AssetAccounts| ==> (AssetAccounts[i].parentId == "" <==> AssetAccounts[i].code in RootCodes)
  {
  }

  lemma AssetIds()
    ensures forall i :: 0 <= i < |AssetAccounts| ==> CodeOfId(AssetAccounts[i].id) == AssetAccounts[i].code
  {
  }

  lemma LiabilityOrder()
    ensures forall i :: 0 <= i < |LiabilityAccounts| - 1 ==> StrLt(LiabilityAccounts[i].code, LiabilityAccounts[i + 1].code)
  {
  }

  lemma LiabilityTree()
    ensures ParentsEarlier(LiabilityAccounts)
  {
    ParentsAtEarlier(LiabilityAccounts, LiabilityParents);
  }

  lemma LiabilityRoots()
    ensures forall i :: 0 <= i < |LiabilityAccounts| ==> (LiabilityAccounts[i].parentId == "" <==> LiabilityAccounts[i].code in RootCodes)
  {
  }

  lemma LiabilityIds()
    ensures forall i :: 0 <= i < |LiabilityAccounts| ==> CodeOfId(LiabilityAccounts[i].id) == LiabilityAccounts[i].code
  {
  }

  lemma EquityOrder()
    ensures forall i :: 0 <= i < |EquityAccounts| - 1 ==> StrLt(EquityAccounts[i].code, EquityAccounts[i + 1].code)
  {
  }

  lemma EquityTree()
    ensures ParentsEarlier(EquityAccounts)
  {
    ParentsAtEarlier(EquityAccounts, EquityParents);
  }

  lemma EquityRoots()
    ensures forall i :: 0 <= i < |EquityAccounts| ==> (EquityAccounts[i].parentId == "" <==> EquityAccounts[i].code in RootCodes)
  {
  }

  lemma EquityIds()
    ensures forall i :: 0 <= i < |EquityAccounts| ==> CodeOfId(EquityAccounts[i].id) == EquityAccounts[i].code
  {
  }

  lemma RevenueOrder()
    ensures forall i :: 0 <= i < |RevenueAccounts| - 1 ==> StrLt(RevenueAccounts[i].code, RevenueAccounts[i + 1].code)
  {
  }

  lemma RevenueTree()
    ensures ParentsEarlier(RevenueAccounts)
  {
    ParentsAtEarlier(RevenueAccounts, RevenueParents);
  }

  lemma RevenueRoots()
    ensures forall i :: 0 <= i < |RevenueAccounts| ==> (RevenueAccounts[i].parentId == "" <==> RevenueAccounts[i].code in RootCodes)
  {
  }

  lemma RevenueIds()
    ensures forall i :: 0 <= i < |RevenueAccounts| ==> CodeOfId(RevenueAccounts[i].id) == RevenueAccounts[i].code
  {
  }

  lemma ExpenseOrder()
    ensures forall i :: 0 <= i < |ExpenseAccounts| - 1 ==> StrLt(ExpenseAccounts[i].code, ExpenseAccounts[i + 1].code)
  {
  }

  lemma ExpenseTree()
    ensures ParentsEarlier(ExpenseAccounts)
  {
    ParentsAtEarlier(ExpenseAccounts, ExpenseParents);
  }

  lemma ExpenseRoots()
    ensures forall i :: 0 <= i < |ExpenseAccounts| ==> (ExpenseAccounts[i].parentId == "" <==> ExpenseAccounts[i].code in RootCodes)
  {
  }

  lemma ExpenseIds()
    ensures forall i :: 0 <= i < |ExpenseAccounts| ==> CodeOfId(ExpenseAccounts[i].id) == ExpenseAccounts[i].code
  {
  }

  lemma {:induction false} ConcatOrder(a: seq<Account>, b: seq<Account>)
    requires CodesAscending(a) && CodesAscending(b)
    requires |a| == 0 || |b| == 0 || StrLt(a[|a| - 1].code, b[0].code)
    ensures CodesAscending(a + b)
  {
    var s := a + b;
    forall i | 0 <= i < |s| - 1
      ensures StrLt(s[i].code, s[i + 1].code)
    {
      if i + 1 < |a| {
        assert s[i] == a[i] && s[i + 1] == a[i + 1];
      } else if i + 1 == |a| {
        assert s[i] == a[|a| - 1] && s[i + 1] == b[0];
      } else {
        assert s[i] == b[i - |a|] && s[i + 1] == b[i - |a| + 1];
      }
    }
  }

  lemma {:induction false} ConcatTree(a: seq<Account>, b: seq<Account>)
    requires ParentsEarlier(a) && ParentsEarlier(b)
    ensures ParentsEarlier(a + b)
  {
    var s := a + b;
    forall i | 0 <= i < |s| && s[i].parentId != ""
      ensures exists k :: 0 <= k < i && s[k].id == s[i].parentId && s[k].kind == s[i].kind
    {
      if i < |a| {
        assert s[i] == a[i];
        var k :| 0 <= k < i && a[k].id == a[i].parentId && a[k].kind == a[i].kind;
        assert s[k] == a[k];
      } else {
        var j := i - |a|;
        assert s[i] == b[j];
        var k :| 0 <= k < j && b[k].id == b[j].parentId && b[k].kind == b[j].kind;
        assert s[k + |a|] == b[k];
      }
    }
  }

  lemma ConcatRoots(a: seq<Account>, b: seq<Account>)
    requires RootsMarked(a) && RootsMarked(b)
    requires IdsStandForCodes(a) && IdsStandForCodes(b)
    ensures RootsMarked(a + b) && IdsStandForCodes(a + b)
  {
    var s := a + b;
    assert forall i :: 0 <= i < |s| ==> s[i] == if i < |a| then a[i] else b[i - |a|];
  }

  /** The whole chart lists its codes in increasing order. */
  lemma ChartOrder()
    ensures CodesAscending(DefaultAccounts)
  {
    AssetOrder();
    LiabilityOrder();
    EquityOrder();
    RevenueOrder();
    ExpenseOrder();
    ConcatOrder(AssetAccounts, LiabilityAccounts);
    var s1 := AssetAccounts + LiabilityAccounts;
    ConcatOrder(s1, EquityAccounts);
    var s2 := s1 + EquityAccounts;
    ConcatOrder(s2, RevenueAccounts);
    var s3 := s2 + RevenueAccounts;
    ConcatOrder(s3, ExpenseAccounts);
  }

  /** Every parent of the chart comes earlier with the same type, the accounts
      without a parent are exactly 10/20/30/40/60, and every id stands for its
      account's code. */
  lemma ChartTree()
    ensures ParentsEarlier(DefaultAccounts)
    ensures RootsMarked(DefaultAccounts) && IdsStandForCodes(DefaultAccounts)
  {
    AssetTree();
    LiabilityTree();
    EquityTree();
    RevenueTree();
    ExpenseTree();
    AssetRoots();
    AssetIds();
    LiabilityRoots();
    LiabilityIds();
    EquityRoots();
    EquityIds();
    RevenueRoots();
    RevenueIds();
    ExpenseRoots();
    ExpenseIds();
    ConcatTree(AssetAccounts, LiabilityAccounts);
    ConcatRoots(AssetAccounts, LiabilityAccounts);
    var s1 := AssetAccounts + LiabilityAccounts;
    ConcatTree(s1, EquityAccounts);
    ConcatRoots(s1, EquityAccounts);
    var s2 := s1 + EquityAccounts;
    ConcatTree(s2, RevenueAccounts);
    ConcatRoots(s2, RevenueAccounts);
    var s3 := s2 + RevenueAccounts;
    ConcatTree(s3, ExpenseAccounts);
    ConcatRoots(s3, ExpenseAccounts);
  }

  /** A strictly increasing list of codes has no repeats. */
  lemma {:induction false} AscendingIsStrict(s: seq<Account>)
    requires CodesAscending(s)
    ensures forall i, j :: 0 <= i < j < |s| ==> StrLt(s[i].code, s[j].code)
  {
    if |s| > 1 {
      assert CodesAscending(s[1..]) by {
        forall i | 0 <= i < |s[1..]| - 1
          ensures StrLt(s[1..][i].code, s[1..][i + 1].code)
        {
          assert s[1..][i] == s[i + 1] && s[1..][i + 1] == s[i + 2];
        }
      }
      AscendingIsStrict(s[1..]);
      forall i, j | 0 <= i < j < |s|
        ensures StrLt(s[i].code, s[j].code)
      {
        if i > 0 {
          assert s[1..][i - 1] == s[i] && s[1..][j - 1] == s[j];
        } else if j > 1 {
          assert s[1..][0] == s[1] && s[1..][j - 1] == s[j];
          StrLtTransitive(s[0].code, s[1].code, s[j].code);
        }
      }
    }
  }

  /** No two accounts of the chart share a code, nor an id. */
  lemma CodesAndIdsDistinct()
    ensures forall i, j :: 0 <= i < j < |DefaultAccounts| ==>
              DefaultAccounts[i].code != DefaultAccounts[j].code &&
              DefaultAccounts[i].id != DefaultAccounts[j].id
  {
    ChartOrder();
    ChartTree();
    AscendingIsStrict(DefaultAccounts);
    forall i, j | 0 <= i < j < |DefaultAccounts|
      ensures DefaultAccounts[i].code != DefaultAccounts[j].code
    {
      StrLtIrreflexive(DefaultAccounts[i].code);
    }
  }

  /** The position of the account with code `code`, if any. */
  function FindCode(accounts: seq<Account>, code: string): (r: Option<nat>)
    ensures r.Some? ==> r.value < |accounts| && accounts[r.value].code == code
    ensures r.None? ==> forall i :: 0 <= i < |accounts| ==> accounts[i].code != code
  {
    if |accounts| == 0 then None
    else if accounts[0].code == code then Some(0)
    else match FindCode(accounts[1..], code)
      case None => None
      case Some(k) => Some(k + 1)
  }

  lemma {:induction false} FindCodeConcat(a: seq<Account>, b: seq<Account>, code: string)
    requires FindCode(a, code).Some? || FindCode(b, code).Some?
    ensures FindCode(a + b, code).Some?
  {
    var r := FindCode(a, code);
    if r.Some? {
      assert (a + b)[r.value] == a[r.value];
    } else {
      var k := FindCode(b, code).value;
      assert (a + b)[|a| + k] == b[k];
    }
  }

  /** A code found at some position is found by `FindCode`. */
  lemma FoundAt(s: seq<Account>, i: nat, code: string)
    requires i < |s| && s[i].code == code
    ensures FindCode(s, code).Some?
  {
  }

  lemma AssetPostedFound()
    ensures forall k :: 0 <= k < |AssetPosted| ==> FindCode(AssetAccounts, AssetPosted[k]).Some?
  {
    var at := [2, 3, 5, 7, 9, 10, 11];
    forall k | 0 <= k < |AssetPosted|
      ensures FindCode(AssetAccounts, AssetPosted[k]).Some?
    {
      FoundAt(AssetAccounts, at[k], AssetPosted[k]);
    }
  }

  lemma LiabilityPostedFound()
    ensures forall k :: 0 <= k < |LiabilityPosted| ==> FindCode(LiabilityAccounts, LiabilityPosted[k]).Some?
  {
    var at := [2, 4, 6];
    forall k | 0 <= k < |LiabilityPosted|
      ensures FindCode(LiabilityAccounts, LiabilityPosted[k]).Some?
    {
      FoundAt(LiabilityAccounts, at[k], LiabilityPosted[k]);
    }
  }

  lemma RevenuePostedFound()
    ensures forall k :: 0 <= k < |RevenuePosted| ==> FindCode(RevenueAccounts, RevenuePosted[k]).Some?
  {
    forall k | 0 <= k < |RevenuePosted|
      ensures FindCode(RevenueAccounts, RevenuePosted[k]).Some?
    {
      FoundAt(RevenueAccounts, k + 1, RevenuePosted[k]);
    }
  }

  lemma ExpensePostedFound()
    ensures forall k :: 0 <= k < |ExpensePosted| ==> FindCode(ExpenseAccounts, ExpensePosted[k]).Some?
  {
    forall k | 0 <= k < |ExpensePosted|
      ensures FindCode(ExpenseAccounts, ExpensePosted[k]).Some?
    {
      FoundAt(ExpenseAccounts, k + 1, ExpensePosted[k]);
    }
  }

  /** Every code the engine posts to is an account of the chart. */
  lemma PostedCodesInChart()
    ensures forall k :: 0 <= k < |PostedCodes| ==> FindCode(DefaultAccounts, PostedCodes[k]).Some?
  {
    AssetPostedFound();
    LiabilityPostedFound();
    RevenuePostedFound();
    ExpensePostedFound();
    var s1 := AssetAccounts + LiabilityAccounts;
    var s2 := s1 + EquityAccounts;
    var s3 := s2 + RevenueAccounts;
    forall k | 0 <= k < |PostedCodes|
      ensures FindCode(DefaultAccounts, PostedCodes[k]).Some?
    {
      var c := PostedCodes[k];
      var n1, n2, n3 := |AssetPosted|, |AssetPosted| + |LiabilityPosted|,
        |AssetPosted| + |LiabilityPosted| + |RevenuePosted|;
      if k < n1 {
        assert c == AssetPosted[k];
        FindCodeConcat(AssetAccounts, LiabilityAccounts, c);
        FindCodeConcat(s1, EquityAccounts, c);
        FindCodeConcat(s2, RevenueAccounts, c);
      } else if k < n2 {
        assert c == LiabilityPosted[k - n1];
        FindCodeConcat(AssetAccounts, LiabilityAccounts, c);
        FindCodeConcat(s1, EquityAccounts, c);
        FindCodeConcat(s2, RevenueAccounts, c);
      } else if k < n3 {
        assert c == RevenuePosted[k - n2];
        FindCodeConcat(s2, RevenueAccounts, c);
      } else {
        assert c == ExpensePosted[k - n3];
      }
      FindCodeConcat(s3, ExpenseAccounts, c);
    }
  }
}

=== FILE: consumption.dfy ===
/** What the kennel uses up, in context/AppContext.tsx: the food and medicine of
    a daily log (`addDailyLog`, 378-398), a batch of cooked food
    (`produceFoodBatch`, 400-406) and a dose of a treatment plan
    (`administerMedication`, 408-420). Each takes stock out through
    `updateStock` and books what it used at the item's average cost. The items
    are looked up in the inventory as it was when the operation started, as
    `addDailyLog` does; a stock-out changes only quantities, so later lookups would
    find the same names, categories, units and costs. */
module Consumption {
  import opened Wrappers
  import opened Types
  import opened Sums
  import opened Seqs
  import opened Journal
  import opened Club
  import opened Stock
  import Chart

  /** The unit name of items counted in kilograms. */
  const Kilogram: string := "کیلوگرم"

  /** The name of the cooked-food item a batch is stocked into. */
  const CookedName: string := "غذای پخته روزانه"

  /** The expense and the inventory account a category is used up from: food
      6030 from 1041, medicine 6031 from 1042, anything else 6060 from 1043. */
  function UsageCodes(category: ItemCategory): (p: (string, string))
    ensures p.0 in ["6030", "6031", "6060"] && p.1 in ["1041", "1042", "1043"]
    ensures p.1 == StoreCode(Some(Item("", "", category, 0.0, "", 0.0, 0.0)))
    ensures p.0 in Chart.PostedCodes && p.1 in Chart.PostedCodes
  {
    match category
    case Food => ("6030", "1041")
    case Medical => ("6031", "1042")
    case _ => ("6060", "1043")
  }

  // Daily logs

  /** The quantity a log line uses: a weight in grams for food counted in
      kilograms, the quantity used otherwise. */
  function UsedQuantity(item: Item, e: LogEntry): (q: real)
    ensures item.category == Food && e.weight != 0.0 && item.unit == Kilogram ==> q * 1000.0 == e.weight
    ensures !(item.category == Food && e.weight != 0.0 && item.unit == Kilogram) ==> q == e.quantityUsed
  {
    if item.category == Food && e.weight != 0.0 && item.unit == Kilogram then e.weight / 1000.0 else e.quantityUsed
  }

  /** The item a log line draws on, if it names one that exists and uses some of it. */
  function LineItem(items: seq<Item>, e: LogEntry): Option<Item> {
    if e.itemId != "" && e.quantityUsed != 0.0 then ItemById(items, e.itemId) else None
  }

  /** The cost of a log line at the average cost. */
  function LineCost(items: seq<Item>, e: LogEntry): real {
    match LineItem(items, e)
    case None => 0.0
    case Some(item) => UsedQuantity(item, e) * item.averageCost
  }

  /** What a log line books: its cost when that is positive, nothing otherwise. */
  function Booked(items: seq<Item>): LogEntry -> real {
    (e: LogEntry) => if LineCost(items, e) > 0.0 then LineCost(items, e) else 0.0
  }

  /** The three consumption expense accounts together. */
  function Expensed(j: seq<Entry>): real {
    Balance(j, "6030") + Balance(j, "6031") + Balance(j, "6060")
  }

  /** The three inventory accounts together. */
  function Stocked(j: seq<Entry>): real {
    Balance(j, "1041") + Balance(j, "1042") + Balance(j, "1043")
  }

  /** The accounts consumption books to. */
  predicate UsageAccount(c: string) {
    c == "6030" || c == "6031" || c == "6060" || c == "1041" || c == "1042" || c == "1043"
  }

  /** A category's usage posting touches only the usage accounts, adding the
      amount to the expense side and taking it from the inventory side. */
  lemma UsageEffect(category: ItemCategory, cost: real)
    ensures var (dr, cr) := UsageCodes(category);
      (forall c :: !UsageAccount(c) ==> Effect(dr, cr, cost, c) == 0.0) &&
      Effect(dr, cr, cost, "6030") + Effect(dr, cr, cost, "6031") + Effect(dr, cr, cost, "6060") == cost &&
      Effect(dr, cr, cost, "1041") + Effect(dr, cr, cost, "1042") + Effect(dr, cr, cost, "1043") == -cost
  {
  }

  /** A posting from an inventory account to its category's expense account
      moves the two sides by the amount and no account outside them. */
  lemma UsageMoves(j: seq<Entry>, j2: seq<Entry>, category: ItemCategory, cost: real)
    requires forall c :: Balance(j2, c) == Balance(j, c) + Effect(UsageCodes(category).0, UsageCodes(category).1, cost, c)
    ensures forall c :: !UsageAccount(c) ==> Balance(j2, c) == Balance(j, c)
    ensures Expensed(j2) == Expensed(j) + cost && Stocked(j2) == Stocked(j) - cost
  {
    UsageEffect(category, cost);
    var (dr, cr) := UsageCodes(category);
    assert Expensed(j2) - Expensed(j) == Effect(dr, cr, cost, "6030") + Effect(dr, cr, cost, "6031") + Effect(dr, cr, cost, "6060");
    assert Stocked(j2) - Stocked(j) == Effect(dr, cr, cost, "1041") + Effect(dr, cr, cost, "1042") + Effect(dr, cr, cost, "1043");
  }

  /** What a log line does to account `c`: its cost, when positive, booked
      from the item's inventory account to its expense account. */
  function LineEffect(items: seq<Item>, c: string): LogEntry -> real {
    (e: LogEntry) =>
      match LineItem(items, e)
      case None => 0.0
      case Some(item) =>
        if LineCost(items, e) > 0.0 then Effect(UsageCodes(item.category).0, UsageCodes(item.category).1, LineCost(items, e), c)
        else 0.0
  }

  /** Whether a log line is booked and taken out of stock. */
  predicate Draws(items: seq<Item>, e: LogEntry) {
    LineItem(items, e).Some? && LineCost(items, e) > 0.0
  }

  /** One log line: when its item exists and its cost is positive, the used
      quantity is taken out of stock and the cost is booked from the inventory
      account to the expense account; otherwise nothing happens, so an item
      held at no cost is never taken out of stock. */
  function UseLine(s: State, env: Env, items: seq<Item>, dogId: string, date: string, e: LogEntry): (r: State)
    ensures r == s.(inventory := r.inventory, moves := r.moves, journal := r.journal)
    ensures !Draws(items, e) ==> r == s
    ensures r.inventory == DrawLine(s.inventory, items, e) && Requantified(s.inventory, r.inventory)
    ensures Draws(items, e) ==>
      var item := LineItem(items, e).value;
      |r.inventory| == |s.inventory| &&
      (forall k :: 0 <= k < |s.inventory| ==>
        r.inventory[k] == if s.inventory[k].id == item.id then Restock(s.inventory[k], Out, UsedQuantity(item, e), 0.0) else s.inventory[k]) &&
      |r.moves| == |s.moves| + 1 && r.moves[1..] == s.moves &&
      r.moves[0].itemId == item.id && r.moves[0].kind == Out && r.moves[0].quantity == UsedQuantity(item, e)
    ensures forall c :: Balance(r.journal, c) == Balance(s.journal, c) + LineEffect(items, c)(e)
    ensures NonnegStock(s.inventory) ==> NonnegStock(r.inventory)
    ensures forall c :: !UsageAccount(c) ==> Balance(r.journal, c) == Balance(s.journal, c)
    ensures Expensed(r.journal) == Expensed(s.journal) + Booked(items)(e)
    ensures Stocked(r.journal) == Stocked(s.journal) - Booked(items)(e)
  {
    var item := LineItem(items, e);
    var cost := LineCost(items, e);
    if item.Some? && cost > 0.0 then
      var used := UsedQuantity(item.value, e);
      assert cost == used * item.value.averageCost;
      var (expense, store) := UsageCodes(item.value.category);
      var s1 := UpdateStock(s, env, item.value.id, used, Out, dogId, 0.0);
      var r := PostTwo(s1, env, date, "", "", expense, store, cost);
      UsageMoves(s.journal, r.journal, item.value.category, cost);
      assert Booked(items)(e) == cost;
      r
    else
      assert Booked(items)(e) == 0.0;
      s
  }

  /** The lines in order, each as `UseLine`. */
  function UseLines(s: State, env: Env, items: seq<Item>, dogId: string, date: string, es: seq<LogEntry>): (r: State)
    ensures r == s.(inventory := r.inventory, moves := r.moves, journal := r.journal)
    ensures r.inventory == DrawLines(s.inventory, items, es)
    ensures Requantified(s.inventory, r.inventory)
    ensures |r.moves| == |s.moves| + CountOf(es, Drawing(items))
    ensures forall c :: Balance(r.journal, c) == Balance(s.journal, c) + SumOf(es, LineEffect(items, c))
    ensures NonnegStock(s.inventory) ==> NonnegStock(r.inventory)
    ensures forall c :: !UsageAccount(c) ==> Balance(r.journal, c) == Balance(s.journal, c)
    ensures Expensed(r.journal) == Expensed(s.journal) + SumOf(es, Booked(items))
    ensures Stocked(r.journal) == Stocked(s.journal) - SumOf(es, Booked(items))
    decreases |es|
  {
    if |es| == 0 then s
    else
      var s1 := UseLine(s, env, items, dogId, date, es[0]);
      var r := UseLines(s1, env, items, dogId, date, es[1..]);
      RequantifiedTrans(s.inventory, s1.inventory, r.inventory);
      r
  }

  /** Requantifying twice is requantifying. */
  lemma RequantifiedTrans(a: seq<Item>, b: seq<Item>, c: seq<Item>)
    requires Requantified(a, b) && Requantified(b, c)
    ensures Requantified(a, c)
  {
  }

  function Drawing(items: seq<Item>): LogEntry -> bool { (e: LogEntry) => Draws(items, e) }

  /** The units one log line takes from the items with the id: its used
      quantity when it is booked against such an item, otherwise nothing. */
  function DrawnBy(items: seq<Item>, id: string, e: LogEntry): real {
    if Draws(items, e) && LineItem(items, e).value.id == id then UsedQuantity(LineItem(items, e).value, e) else 0.0
  }

  /** The units the booked lines of a log take, together, from the items with the id. */
  function Drawn(items: seq<Item>, id: string, es: seq<LogEntry>): real
    decreases |es|
  {
    if |es| == 0 then 0.0 else DrawnBy(items, id, es[0]) + Drawn(items, id, es[1..])
  }

  /** The log's lines use no negative quantity or weight. */
  predicate NonnegUse(es: seq<LogEntry>) {
    forall i :: 0 <= i < |es| ==> es[i].quantityUsed >= 0.0 && es[i].weight >= 0.0
  }

  /** Taking `a` and then `b` out, each floored at zero, is taking both at once. */
  lemma FloorTwice(q: real, a: real, b: real, q1: real, q2: real, total: real)
    requires q >= 0.0 && a >= 0.0 && b >= 0.0 && q1 == Max0(q - a) && q2 == Max0(q1 - b) && total == a + b
    ensures q2 == Max0(q - total)
  {
  }

  /** What the lines draw from one id is never negative. */
  lemma {:induction false} DrawnNonneg(items: seq<Item>, id: string, es: seq<LogEntry>)
    requires NonnegUse(es)
    ensures Drawn(items, id, es) >= 0.0
    decreases |es|
  {
    if |es| > 0 {
      DrawnOneNonneg(items, id, es[0]);
      assert NonnegUse(es[1..]);
      DrawnNonneg(items, id, es[1..]);
    }
  }

  /** A line with nonnegative quantity and weight draws nothing negative. */
  lemma DrawnOneNonneg(items: seq<Item>, id: string, e: LogEntry)
    requires e.quantityUsed >= 0.0 && e.weight >= 0.0
    ensures DrawnBy(items, id, e) >= 0.0
  {
    if Draws(items, e) {
      assert UsedQuantity(LineItem(items, e).value, e) >= 0.0;
    }
  }

  /** The inventory after one line: its item, when booked, restocked out by the quantity used. */
  function DrawLine(inv: seq<Item>, items: seq<Item>, e: LogEntry): seq<Item> {
    if Draws(items, e) then RestockAll(inv, LineItem(items, e).value.id, Out, UsedQuantity(LineItem(items, e).value, e), 0.0)
    else inv
  }

  /** The inventory after the lines in order. */
  function DrawLines(inv: seq<Item>, items: seq<Item>, es: seq<LogEntry>): (r: seq<Item>)
    ensures |r| == |inv|
    decreases |es|
  {
    if |es| == 0 then inv else DrawLines(DrawLine(inv, items, es[0]), items, es[1..])
  }

  /** One line takes what it draws from the item's id off the item's quantity, floored at zero. */
  lemma DrawLineAt(inv: seq<Item>, items: seq<Item>, e: LogEntry, k: nat)
    requires k < |inv| && inv[k].quantity >= 0.0
    ensures k < |DrawLine(inv, items, e)|
    ensures DrawLine(inv, items, e)[k] == inv[k].(quantity := Max0(inv[k].quantity - DrawnBy(items, inv[k].id, e)))
  {
    var i := inv[k];
    if Draws(items, e) && LineItem(items, e).value.id == i.id {
      assert Restock(i, Out, UsedQuantity(LineItem(items, e).value, e), 0.0).averageCost == i.averageCost;
    }
  }

  /** Over all the lines, an item ends at its quantity less everything the
      booked lines drew from its id, floored at zero; nothing else about it changes. */
  lemma {:induction false} DrawLinesQuantity(inv: seq<Item>, items: seq<Item>, es: seq<LogEntry>, k: nat)
    requires k < |inv| && inv[k].quantity >= 0.0 && NonnegUse(es)
    ensures var r := DrawLines(inv, items, es);
      k < |r| && r[k] == inv[k].(quantity := Max0(inv[k].quantity - Drawn(items, inv[k].id, es)))
    decreases |es|
  {
    var i := inv[k];
    if |es| > 0 {
      var e, tail := es[0], es[1..];
      var inv1 := DrawLine(inv, items, e);
      var a, rest := DrawnBy(items, i.id, e), Drawn(items, i.id, tail);
      DrawLineAt(inv, items, e, k);
      DrawnOneNonneg(items, i.id, e);
      assert NonnegUse(tail);
      DrawLinesQuantity(inv1, items, tail, k);
      DrawnNonneg(items, i.id, tail);
      FloorTwice(i.quantity, a, rest, inv1[k].quantity, DrawLines(inv1, items, tail)[k].quantity, Drawn(items, i.id, es));
    }
  }

  /** `dogs.map(d => d.id === dogId ? { ...d, logs: [log, ...d.logs] } : d)`. */
  function AddLog(dogs: seq<Dog>, dogId: string, log: DailyLog): (r: seq<Dog>)
    ensures |r| == |dogs|
    ensures forall k :: 0 <= k < |r| ==> r[k] == if dogs[k].id == dogId then dogs[k].(logs := [log] + dogs[k].logs) else dogs[k]
  {
    if |dogs| == 0 then []
    else [if dogs[0].id == dogId then dogs[0].(logs := [log] + dogs[0].logs) else dogs[0]] + AddLog(dogs[1..], dogId, log)
  }

  /** `addDailyLog`: the log goes first on the dog's list, then the food lines and
      the medical lines are used up in order. Every account moves by the lines'
      postings, each from its item's inventory account to its expense account
      (food 6030 from 1041, medicine 6031 from 1042, the rest 6060 from 1043), so
      consumption moves value from inventory to expense and touches no other account. */
  function AddDailyLog(s: State, env: Env, dogId: string, log: DailyLog): (r: State)
    ensures r == s.(dogs := r.dogs, inventory := r.inventory, moves := r.moves, journal := r.journal)
    ensures r.dogs == AddLog(s.dogs, dogId, log)
    ensures Requantified(s.inventory, r.inventory)
    ensures |r.moves| == |s.moves| + CountOf(log.foodEntries + log.medicalEntries, Drawing(s.inventory))
    ensures forall c :: Balance(r.journal, c) == Balance(s.journal, c) + SumOf(log.foodEntries + log.medicalEntries, LineEffect(s.inventory, c))
    ensures NonnegStock(s.inventory) ==> NonnegStock(r.inventory)
    ensures forall c :: !UsageAccount(c) ==> Balance(r.journal, c) == Balance(s.journal, c)
    ensures var used := SumOf(log.foodEntries + log.medicalEntries, Booked(s.inventory));
      Expensed(r.journal) == Expensed(s.journal) + used && Stocked(r.journal) == Stocked(s.journal) - used
  {
    var s1 := s.(dogs := AddLog(s.dogs, dogId, log));
    UseLines(s1, env, s.inventory, dogId, log.date, log.foodEntries + log.medicalEntries)
  }

  /** After a daily log whose lines use no negative amounts, every item holds
      its quantity less what the booked lines drew from its id, floored at zero. */
  lemma DailyLogDraws(s: State, env: Env, dogId: string, log: DailyLog)
    requires NonnegStock(s.inventory) && NonnegUse(log.foodEntries + log.medicalEntries)
    ensures var r := AddDailyLog(s, env, dogId, log);
      |r.inventory| == |s.inventory| &&
      forall k :: 0 <= k < |s.inventory| ==>
        r.inventory[k] == s.inventory[k].(quantity := Max0(s.inventory[k].quantity -
          Drawn(s.inventory, s.inventory[k].id, log.foodEntries + log.medicalEntries)))
  {
    var r := AddDailyLog(s, env, dogId, log);
    var s1 := s.(dogs := AddLog(s.dogs, dogId, log));
    var es := log.foodEntries + log.medicalEntries;
    assert r.inventory == DrawLines(s.inventory, s.inventory, es);
    DrawLinesEvery(s.inventory, s.inventory, es);
  }

  /** `DrawLinesQuantity` at every position of a nonnegative inventory. */
  lemma DrawLinesEvery(inv: seq<Item>, items: seq<Item>, es: seq<LogEntry>)
    requires NonnegStock(inv) && NonnegUse(es)
    ensures var r := DrawLines(inv, items, es);
      |r| == |inv| &&
      forall k :: 0 <= k < |inv| ==> r[k] == inv[k].(quantity := Max0(inv[k].quantity - Drawn(items, inv[k].id, es)))
  {
    forall k | 0 <= k < |inv|
      ensures DrawLines(inv, items, es)[k] == inv[k].(quantity := Max0(inv[k].quantity - Drawn(items, inv[k].id, es)))
    {
      DrawLinesQuantity(inv, items, es, k);
    }
  }

  /** The cost a daily log books is never negative. */
  lemma DailyLogCostNonneg(s: State, log: DailyLog)
    ensures SumOf(log.foodEntries + log.medicalEntries, Booked(s.inventory)) >= 0.0
  {
    SumOfNonneg(log.foodEntries + log.medicalEntries, Booked(s.inventory));
  }

  /** A daily log never touches a wallet or the wallet account. */
  lemma DailyLogKeepsDrift(s: State, env: Env, dogId: string, log: DailyLog)
    ensures WalletDrift(AddDailyLog(s, env, dogId, log)) == WalletDrift(s)
  {
    var r := AddDailyLog(s, env, dogId, log);
    assert !UsageAccount(WalletCode);
    assert Balance(r.journal, WalletCode) == Balance(s.journal, WalletCode);
    assert r.users == s.users;
  }

  // Cooking a batch

  /** An ingredient of a batch: an item id and the quantity taken. */
  datatype Ingredient = Ingredient(itemId: string, quantity: real)

  /** What an ingredient costs at its item's average cost; an unknown item costs nothing. */
  function IngredientCost(items: seq<Item>): Ingredient -> real {
    (ing: Ingredient) =>
      var item := ItemById(items, ing.itemId);
      if item.Some? then ing.quantity * item.value.averageCost else 0.0
  }

  /** Whether an ingredient names an item of the inventory. */
  function Known(items: seq<Item>): Ingredient -> bool {
    (ing: Ingredient) => ItemById(items, ing.itemId).Some?
  }

  /** The same items in the same order, with possibly other quantities. */
  predicate Requantified(a: seq<Item>, b: seq<Item>) {
    |a| == |b| && forall k :: 0 <= k < |a| ==> b[k] == a[k].(quantity := b[k].quantity)
  }

  /** Lookups by id see the same item in a requantified inventory, but for its quantity. */
  lemma RequantifiedLookup(a: seq<Item>, b: seq<Item>, id: string)
    requires Requantified(a, b)
    ensures ItemById(b, id).Some? == ItemById(a, id).Some?
    ensures ItemById(b, id).Some? ==> ItemById(b, id).value == ItemById(a, id).value.(quantity := ItemById(b, id).value.quantity)
  {
    var x, y := FirstIndex(a, ItemIs(id)), FirstIndex(b, ItemIs(id));
    assert forall k :: 0 <= k < |a| ==> (ItemIs(id)(a[k]) <==> ItemIs(id)(b[k]));
  }

  /** The inventory after one ingredient: its item, when known, restocked out by the quantity. */
  function TakeIngredient(inv: seq<Item>, items: seq<Item>, ing: Ingredient): seq<Item> {
    if Known(items)(ing) then RestockAll(inv, ing.itemId, Out, ing.quantity, 0.0) else inv
  }

  /** The inventory after the ingredients in order. */
  function TakeIngredients(inv: seq<Item>, items: seq<Item>, ings: seq<Ingredient>): (r: seq<Item>)
    ensures |r| == |inv|
    decreases |ings|
  {
    if |ings| == 0 then inv else TakeIngredients(TakeIngredient(inv, items, ings[0]), items, ings[1..])
  }

  /** The units one ingredient takes from the items with the id: its quantity
      when it names such a known item, otherwise nothing. */
  function TakenBy(items: seq<Item>, id: string, ing: Ingredient): real {
    if Known(items)(ing) && ing.itemId == id then ing.quantity else 0.0
  }

  /** The units the known ingredients of a batch take, together, from the items with the id. */
  function Taken(items: seq<Item>, id: string, ings: seq<Ingredient>): real
    decreases |ings|
  {
    if |ings| == 0 then 0.0 else TakenBy(items, id, ings[0]) + Taken(items, id, ings[1..])
  }

  /** No ingredient is taken in a negative quantity. */
  predicate NonnegTake(ings: seq<Ingredient>) {
    forall i :: 0 <= i < |ings| ==> ings[i].quantity >= 0.0
  }

  /** What the ingredients take from one id is never negative. */
  lemma {:induction false} TakenNonneg(items: seq<Item>, id: string, ings: seq<Ingredient>)
    requires NonnegTake(ings)
    ensures Taken(items, id, ings) >= 0.0
    decreases |ings|
  {
    if |ings| > 0 {
      assert NonnegTake(ings[1..]);
      TakenNonneg(items, id, ings[1..]);
    }
  }

  /** One ingredient takes what it takes from the item's id off the item's quantity, floored at zero. */
  lemma TakeIngredientAt(inv: seq<Item>, items: seq<Item>, ing: Ingredient, k: nat)
    requires k < |inv| && inv[k].quantity >= 0.0
    ensures k < |TakeIngredient(inv, items, ing)|
    ensures TakeIngredient(inv, items, ing)[k] == inv[k].(quantity := Max0(inv[k].quantity - TakenBy(items, inv[k].id, ing)))
  {
    var i := inv[k];
    if Known(items)(ing) && ing.itemId == i.id {
      assert Restock(i, Out, ing.quantity, 0.0).averageCost == i.averageCost;
    }
  }

  /** Over all the ingredients, an item ends at its quantity less everything the
      known ingredients took from its id, floored at zero; nothing else about it changes. */
  lemma {:induction false} TakeIngredientsQuantity(inv: seq<Item>, items: seq<Item>, ings: seq<Ingredient>, k: nat)
    requires k < |inv| && inv[k].quantity >= 0.0 && NonnegTake(ings)
    ensures var r := TakeIngredients(inv, items, ings);
      k < |r| && r[k] == inv[k].(quantity := Max0(inv[k].quantity - Taken(items, inv[k].id, ings)))
    decreases |ings|
  {
    var i := inv[k];
    if |ings| > 0 {
      var ing, tail := ings[0], ings[1..];
      var inv1 := TakeIngredient(inv, items, ing);
      var a, rest := TakenBy(items, i.id, ing), Taken(items, i.id, tail);
      TakeIngredientAt(inv, items, ing, k);
      assert NonnegTake(tail);
      TakeIngredientsQuantity(inv1, items, tail, k);
      TakenNonneg(items, i.id, tail);
      FloorTwice(i.quantity, a, rest, inv1[k].quantity, TakeIngredients(inv1, items, tail)[k].quantity, Taken(items, i.id, ings));
    }
  }

  /** One ingredient: when its item exists, the quantity is taken out of stock
      with one movement; otherwise nothing happens. */
  function UseIngredient(s: State, env: Env, items: seq<Item>, ing: Ingredient): (r: State)
    ensures r == s.(inventory := r.inventory, moves := r.moves)
    ensures r.inventory == TakeIngredient(s.inventory, items, ing) && Requantified(s.inventory, r.inventory)
    ensures NonnegStock(s.inventory) ==> NonnegStock(r.inventory)
    ensures |r.moves| == |s.moves| + (if Known(items)(ing) then 1 else 0)
  {
    if Known(items)(ing) then UpdateStock(s, env, ing.itemId, ing.quantity, Out, "", 0.0) else s
  }

  /** Every ingredient whose item exists is taken out of stock, in order. */
  function UseIngredients(s: State, env: Env, items: seq<Item>, ings: seq<Ingredient>): (r: State)
    ensures r == s.(inventory := r.inventory, moves := r.moves)
    ensures r.inventory == TakeIngredients(s.inventory, items, ings)
    ensures Requantified(s.inventory, r.inventory)
    ensures NonnegStock(s.inventory) ==> NonnegStock(r.inventory)
    ensures |r.moves| == |s.moves| + CountOf(ings, Known(items))
    decreases |ings|
  {
    if |ings| == 0 then s
    else
      var ing := ings[0];
      var s1 := UseIngredient(s, env, items, ing);
      var r := UseIngredients(s1, env, items, ings[1..]);
      RequantifiedTrans(s.inventory, s1.inventory, r.inventory);
      r
  }

  /** The cost of a batch: its ingredients at their average costs. */
  function BatchCost(items: seq<Item>, ings: seq<Ingredient>): real {
    SumOf(ings, IngredientCost(items))
  }

  /** The unit cost of the cooked food: the batch cost over the weight, 0 for no weight. */
  function CookedUnitCost(cost: real, totalWeight: real): (u: real)
    ensures totalWeight > 0.0 ==> u * totalWeight == cost
    ensures totalWeight <= 0.0 ==> u == 0.0
  {
    if totalWeight > 0.0 then cost / totalWeight else 0.0
  }

  /** The stock-in of a batch of `totalWeight` at its unit cost into the item
      with the id: a purchase of exactly the batch cost when weight and cost are
      positive, and no booking otherwise. */
  function StockCooked(s: State, env: Env, id: string, cost: real, totalWeight: real): (r: State)
    ensures r == s.(inventory := r.inventory, moves := r.moves, journal := r.journal)
    ensures r.inventory == RestockAll(s.inventory, id, In, totalWeight, CookedUnitCost(cost, totalWeight))
    ensures |r.moves| == |s.moves| + 1 && r.moves[1..] == s.moves
    ensures r.moves[0].itemId == id && r.moves[0].kind == In && r.moves[0].quantity == totalWeight
    ensures NonnegStock(s.inventory) ==> NonnegStock(r.inventory)
    ensures totalWeight > 0.0 && cost > 0.0 ==>
      forall c :: Balance(r.journal, c) == Balance(s.journal, c) + Effect(StoreCode(ItemById(s.inventory, id)), "1011", cost, c)
    ensures !(totalWeight > 0.0 && cost > 0.0) ==> r.journal == s.journal
  {
    CookedMovement(s, env, id, cost, totalWeight);
    UpdateStock(s, env, id, totalWeight, In, "", CookedUnitCost(cost, totalWeight))
  }

  /** The batch's stock-in is a purchase exactly when weight and cost are
      positive, and then it is valued at the batch cost. */
  lemma CookedMovement(s: State, env: Env, id: string, cost: real, totalWeight: real)
    ensures var unitCost := CookedUnitCost(cost, totalWeight);
      var m := Movement(s, env, id, totalWeight, In, "", unitCost);
      Purchases(In, m.quantity, m.unitPrice, unitCost) <==> totalWeight > 0.0 && cost > 0.0
    ensures var unitCost := CookedUnitCost(cost, totalWeight);
      var m := Movement(s, env, id, totalWeight, In, "", unitCost);
      totalWeight > 0.0 && cost > 0.0 ==> m.totalPrice == cost
  {
    var unitCost := CookedUnitCost(cost, totalWeight);
    var m := Movement(s, env, id, totalWeight, In, "", unitCost);
    if totalWeight > 0.0 && cost > 0.0 {
      assert unitCost > 0.0;
      assert m.unitPrice == unitCost && m.totalPrice == cost;
    } else if totalWeight > 0.0 && unitCost != 0.0 {
      assert m.unitPrice == unitCost && m.totalPrice == cost;
    }
  }

  /** `produceFoodBatch`: the ingredients are taken out of stock and, when the
      inventory holds the cooked-food item, the batch weight is stocked into it
      at the batch's unit cost. That stock-in goes through `updateStock` as a
      priced purchase, so a positive batch cost is booked from the cash box into
      the cooked item's inventory account; taking the ingredients out books nothing. */
  function ProduceFoodBatch(s: State, env: Env, ings: seq<Ingredient>, totalWeight: real): (r: State)
    ensures r == s.(inventory := r.inventory, moves := r.moves, journal := r.journal)
    ensures var cooked := FirstIndex(s.inventory, ItemNamed(CookedName));
      var taken := TakeIngredients(s.inventory, s.inventory, ings);
      (cooked.None? ==> r.inventory == taken) &&
      (cooked.Some? ==>
        r.inventory == RestockAll(taken, s.inventory[cooked.value].id, In, totalWeight,
                                  CookedUnitCost(BatchCost(s.inventory, ings), totalWeight)))
    ensures var cooked := FirstIndex(s.inventory, ItemNamed(CookedName));
      |r.moves| == |s.moves| + CountOf(ings, Known(s.inventory)) + (if cooked.Some? then 1 else 0)
    ensures NonnegStock(s.inventory) ==> NonnegStock(r.inventory)
    ensures var cooked := FirstIndex(s.inventory, ItemNamed(CookedName));
      var cost := BatchCost(s.inventory, ings);
      cooked.Some? && totalWeight > 0.0 && cost > 0.0 ==>
        var code := StoreCode(ItemById(s.inventory, s.inventory[cooked.value].id));
        forall c :: Balance(r.journal, c) == Balance(s.journal, c) + Effect(code, "1011", cost, c)
    ensures var cooked := FirstIndex(s.inventory, ItemNamed(CookedName));
      !(cooked.Some? && totalWeight > 0.0 && BatchCost(s.inventory, ings) > 0.0) ==> r.journal == s.journal
  {
    CookBatch(UseIngredients(s, env, s.inventory, ings), env, s.inventory, BatchCost(s.inventory, ings), totalWeight)
  }

  /** The second half of `produceFoodBatch`: when `items`, the inventory as it
      was before the ingredients went out, holds the cooked-food item, the
      batch weight is stocked into it at the batch's unit cost. */
  function CookBatch(s1: State, env: Env, items: seq<Item>, cost: real, totalWeight: real): (r: State)
    requires Requantified(items, s1.inventory)
    ensures r == s1.(inventory := r.inventory, moves := r.moves, journal := r.journal)
    ensures var cooked := FirstIndex(items, ItemNamed(CookedName));
      (cooked.None? ==> r == s1) &&
      (cooked.Some? ==>
        r.inventory == RestockAll(s1.inventory, items[cooked.value].id, In, totalWeight, CookedUnitCost(cost, totalWeight)) &&
        |r.moves| == |s1.moves| + 1)
    ensures NonnegStock(s1.inventory) ==> NonnegStock(r.inventory)
    ensures var cooked := FirstIndex(items, ItemNamed(CookedName));
      cooked.Some? && totalWeight > 0.0 && cost > 0.0 ==>
        var code := StoreCode(ItemById(items, items[cooked.value].id));
        forall c :: Balance(r.journal, c) == Balance(s1.journal, c) + Effect(code, "1011", cost, c)
    ensures var cooked := FirstIndex(items, ItemNamed(CookedName));
      !(cooked.Some? && totalWeight > 0.0 && cost > 0.0) ==> r.journal == s1.journal
  {
    match FirstIndex(items, ItemNamed(CookedName))
    case None => s1
    case Some(k) =>
      var id := items[k].id;
      RequantifiedLookup(items, s1.inventory, id);
      assert ItemById(items, id).Some?;
      assert StoreCode(ItemById(s1.inventory, id)) == StoreCode(ItemById(items, id));
      StockCooked(s1, env, id, cost, totalWeight)
  }

  /** With no negative stock, ingredient quantity or weight, a batch leaves every
      item at its quantity less what the known ingredients took from its id,
      floored at zero, plus the batch weight for the cooked-food item. */
  lemma BatchStock(s: State, env: Env, ings: seq<Ingredient>, totalWeight: real)
    requires NonnegStock(s.inventory) && NonnegTake(ings) && totalWeight >= 0.0
    ensures var r := ProduceFoodBatch(s, env, ings, totalWeight);
      var cooked := FirstIndex(s.inventory, ItemNamed(CookedName));
      |r.inventory| == |s.inventory| &&
      forall k :: 0 <= k < |s.inventory| ==>
        r.inventory[k].quantity ==
          Max0(s.inventory[k].quantity - Taken(s.inventory, s.inventory[k].id, ings)) +
          (if cooked.Some? && s.inventory[k].id == s.inventory[cooked.value].id then totalWeight else 0.0)
  {
    var r := ProduceFoodBatch(s, env, ings, totalWeight);
    var cooked := FirstIndex(s.inventory, ItemNamed(CookedName));
    var id := if cooked.Some? then Some(s.inventory[cooked.value].id) else None;
    CookedStock(s.inventory, ings, id, totalWeight, CookedUnitCost(BatchCost(s.inventory, ings), totalWeight), r.inventory);
  }

  /** `BatchStock` on the inventory alone: the ingredients taken, then the
      weight stocked into the item with `cookedId`, if there is one. */
  lemma CookedStock(inv: seq<Item>, ings: seq<Ingredient>, cookedId: Option<string>, w: real, u: real, out: seq<Item>)
    requires NonnegStock(inv) && NonnegTake(ings) && w >= 0.0
    requires var taken := TakeIngredients(inv, inv, ings);
      out == if cookedId.Some? then RestockAll(taken, cookedId.value, In, w, u) else taken
    ensures |out| == |inv|
    ensures forall k :: 0 <= k < |inv| ==>
      out[k].quantity == Max0(inv[k].quantity - Taken(inv, inv[k].id, ings)) +
        (if cookedId.Some? && inv[k].id == cookedId.value then w else 0.0)
  {
    forall k | 0 <= k < |inv|
      ensures out[k].quantity == Max0(inv[k].quantity - Taken(inv, inv[k].id, ings)) +
        (if cookedId.Some? && inv[k].id == cookedId.value then w else 0.0)
    {
      CookedStockAt(inv, ings, cookedId, w, u, out, k);
    }
  }

  /** `CookedStock` at one place. */
  lemma CookedStockAt(inv: seq<Item>, ings: seq<Ingredient>, cookedId: Option<string>, w: real, u: real, out: seq<Item>, k: nat)
    requires NonnegStock(inv) && NonnegTake(ings) && w >= 0.0 && k < |inv|
    requires var taken := TakeIngredients(inv, inv, ings);
      out == if cookedId.Some? then RestockAll(taken, cookedId.value, In, w, u) else taken
    ensures k < |out|
    ensures out[k].quantity == Max0(inv[k].quantity - Taken(inv, inv[k].id, ings)) +
      (if cookedId.Some? && inv[k].id == cookedId.value then w else 0.0)
  {
    var taken := TakeIngredients(inv, inv, ings);
    TakeIngredientsQuantity(inv, inv, ings, k);
    if cookedId.Some? {
      CookedItem(taken[k], cookedId.value, w, u, out[k]);
    }
  }

  /** One item of the batch's stock-in: the cooked item gains the weight. */
  lemma CookedItem(t: Item, id: string, w: real, u: real, o: Item)
    requires t.quantity >= 0.0 && w >= 0.0
    requires o == if t.id == id then Restock(t, In, w, u) else t
    ensures o.quantity == t.quantity + (if t.id == id then w else 0.0)
  {
    if t.id == id {
      assert NewQuantity(t, In, w) == t.quantity + w;
    }
  }

  // Medication

  /** `medications.map(m => m.id === medId ? { ...m, administeredCount: count + 1 } : m)`. */
  function MarkMeds(meds: seq<Prescription>, medId: string): (r: seq<Prescription>)
    ensures |r| == |meds|
    ensures forall k :: 0 <= k < |r| ==>
      r[k] == if meds[k].id == medId then meds[k].(administeredCount := meds[k].administeredCount + 1) else meds[k]
  {
    if |meds| == 0 then []
    else [if meds[0].id == medId then meds[0].(administeredCount := meds[0].administeredCount + 1) else meds[0]]
         + MarkMeds(meds[1..], medId)
  }

  /** The plans with the id get the dose counted. */
  function MarkPlans(plans: seq<TreatmentPlan>, planId: string, medId: string): (r: seq<TreatmentPlan>)
    ensures |r| == |plans|
    ensures forall k :: 0 <= k < |r| ==>
      r[k] == if plans[k].id == planId then plans[k].(medications := MarkMeds(plans[k].medications, medId)) else plans[k]
  {
    if |plans| == 0 then []
    else [if plans[0].id == planId then plans[0].(medications := MarkMeds(plans[0].medications, medId)) else plans[0]]
         + MarkPlans(plans[1..], planId, medId)
  }

  /** The prescription a dose is drawn for, with its plan, when it draws on stock. */
  function DoseOf(s: State, planId: string, medId: string): Option<(TreatmentPlan, Prescription, Item)> {
    match FirstIndex(s.treatments, PlanIs(planId))
    case None => None
    case Some(p) =>
      var plan := s.treatments[p];
      match FirstIndex(plan.medications, PrescriptionIs(medId))
      case None => None
      case Some(m) =>
        var med := plan.medications[m];
        if med.itemId == "" then None
        else match ItemById(s.inventory, med.itemId)
          case None => None
          case Some(item) => Some((plan, med, item))
  }

  /** `administerMedication`: the dose is counted on every matching prescription
      of every matching plan; when the prescription draws on an item in stock its
      dosage is taken out and booked at the average cost from the medicine store
      to treatment expense (Dr 6031, Cr 1042), whatever the cost. */
  function AdministerMedication(s: State, env: Env, planId: string, medId: string): (r: State)
    ensures r == s.(treatments := r.treatments, inventory := r.inventory, moves := r.moves, journal := r.journal)
    ensures r.treatments == MarkPlans(s.treatments, planId, medId)
    ensures NonnegStock(s.inventory) ==> NonnegStock(r.inventory)
    ensures DoseOf(s, planId, medId).None? ==> r.inventory == s.inventory && r.moves == s.moves && r.journal == s.journal
    ensures var d := DoseOf(s, planId, medId);
      d.Some? ==>
        forall c :: Balance(r.journal, c) == Balance(s.journal, c) + Effect("6031", "1042", d.value.1.dosageQuantity * d.value.2.averageCost, c)
    ensures var d := DoseOf(s, planId, medId);
      d.Some? ==>
        |r.inventory| == |s.inventory| &&
        (forall k :: 0 <= k < |s.inventory| ==>
          r.inventory[k] == if s.inventory[k].id == d.value.2.id then Restock(s.inventory[k], Out, d.value.1.dosageQuantity, 0.0) else s.inventory[k]) &&
        |r.moves| == |s.moves| + 1 && r.moves[1..] == s.moves &&
        r.moves[0].itemId == d.value.2.id && r.moves[0].kind == Out && r.moves[0].quantity == d.value.1.dosageQuantity &&
        r.moves[0].dogId == d.value.0.dogId
  {
    Administer(s, s.(treatments := MarkPlans(s.treatments, planId, medId)), env, DoseOf(s, planId, medId))
  }

  /** The stock side of `administerMedication` on the state `s1` whose plans are
      already counted, for the dose `d` found in `s`. */
  function Administer(s: State, s1: State, env: Env, d: Option<(TreatmentPlan, Prescription, Item)>): (r: State)
    requires s1 == s.(treatments := s1.treatments)
    ensures r == s1.(inventory := r.inventory, moves := r.moves, journal := r.journal)
    ensures NonnegStock(s.inventory) ==> NonnegStock(r.inventory)
    ensures d.None? ==> r == s1
    ensures d.Some? ==>
      forall c :: Balance(r.journal, c) == Balance(s.journal, c) + Effect("6031", "1042", d.value.1.dosageQuantity * d.value.2.averageCost, c)
    ensures d.Some? ==>
      |r.inventory| == |s.inventory| &&
      (forall k :: 0 <= k < |s.inventory| ==>
        r.inventory[k] == if s.inventory[k].id == d.value.2.id then Restock(s.inventory[k], Out, d.value.1.dosageQuantity, 0.0) else s.inventory[k]) &&
      |r.moves| == |s.moves| + 1 && r.moves[1..] == s.moves &&
      r.moves[0].itemId == d.value.2.id && r.moves[0].kind == Out && r.moves[0].quantity == d.value.1.dosageQuantity &&
      r.moves[0].dogId == d.value.0.dogId
  {
    if d.None? then s1
    else Dose(s1, env, d.value.0.dogId, d.value.2, d.value.1.dosageQuantity)
  }

  /** When the item holds at least the dosage, a dose leaves every copy of the
      item with exactly the dosage less and its average cost unchanged, so its
      stock value falls by the dosage at the average cost, which is what
      `AdministerMedication` books to treatment expense (see `OutValue`). `d` is
      the dose `DoseOf` finds, as `AdministerMedication` passes it on. */
  lemma DoseDrawsDown(s: State, s1: State, env: Env, d: Option<(TreatmentPlan, Prescription, Item)>)
    requires s1 == s.(treatments := s1.treatments)
    requires d.Some? && 0.0 <= d.value.1.dosageQuantity <= d.value.2.quantity
    ensures var r := Administer(s, s1, env, d);
      var n, item := d.value.1.dosageQuantity, d.value.2;
      forall k :: 0 <= k < |s.inventory| && s.inventory[k] == item ==>
        k < |r.inventory| && r.inventory[k] == item.(quantity := item.quantity - n)
  {
    var r := Administer(s, s1, env, d);
    var n, item := d.value.1.dosageQuantity, d.value.2;
    forall k | 0 <= k < |s.inventory| && s.inventory[k] == item
      ensures r.inventory[k] == item.(quantity := item.quantity - n)
    {
      OutValue(item, n, r.inventory[k]);
    }
  }

  /** Taking out no more than is held lowers the quantity by that much and the
      stock value by that much at the average cost. */
  lemma OutValue(i: Item, n: real, o: Item)
    requires 0.0 <= n <= i.quantity && o == Restock(i, Out, n, 0.0)
    ensures o == i.(quantity := i.quantity - n)
    ensures o.quantity * o.averageCost == i.quantity * i.averageCost - n * i.averageCost
  {
    assert NewQuantity(i, Out, n) == i.quantity - n;
    assert o.averageCost == i.averageCost;
  }

  /** One dose of `n` units of the item for the dog: taken out of stock and booked
      from the medicine store to treatment expense at the average cost. */
  function Dose(s: State, env: Env, dogId: string, item: Item, n: real): (r: State)
    ensures r == s.(inventory := r.inventory, moves := r.moves, journal := r.journal)
    ensures |r.inventory| == |s.inventory|
    ensures forall k :: 0 <= k < |s.inventory| ==>
      r.inventory[k] == if s.inventory[k].id == item.id then Restock(s.inventory[k], Out, n, 0.0) else s.inventory[k]
    ensures r.moves == [Movement(s, env, item.id, n, Out, dogId, 0.0)] + s.moves
    ensures NonnegStock(s.inventory) ==> NonnegStock(r.inventory)
    ensures forall c :: Balance(r.journal, c) == Balance(s.journal, c) + Effect("6031", "1042", n * item.averageCost, c)
  {
    var s2 := UpdateStock(s, env, item.id, n, Out, dogId, 0.0);
    assert s2.journal == s.journal;
    PostTwo(s2, env, env.today, "", "", "6031", "1042", n * item.averageCost)
  }

  /** Cooking never touches a wallet or the wallet account. */
  lemma BatchKeepsDrift(s: State, env: Env, ings: seq<Ingredient>, totalWeight: real)
    ensures WalletDrift(ProduceFoodBatch(s, env, ings, totalWeight)) == WalletDrift(s)
  {
    var r := ProduceFoodBatch(s, env, ings, totalWeight);
    var cooked := FirstIndex(s.inventory, ItemNamed(CookedName));
    if cooked.Some? && totalWeight > 0.0 && BatchCost(s.inventory, ings) > 0.0 {
      var code := StoreCode(ItemById(s.inventory, s.inventory[cooked.value].id));
      assert code != WalletCode;
      assert Balance(r.journal, WalletCode) == Balance(s.journal, WalletCode) + Effect(code, "1011", BatchCost(s.inventory, ings), WalletCode);
    }
    assert r.users == s.users;
  }

  /** A dose never touches a wallet or the wallet account. */
  lemma DoseKeepsDrift(s: State, env: Env, planId: string, medId: string)
    ensures WalletDrift(AdministerMedication(s, env, planId, medId)) == WalletDrift(s)
  {
  }
}

=== FILE: dashboard.dfy ===
/** The client side of pages/Dashboard.tsx: the signed-in client's open bills,
    the room board, and the pay form that checks an amount before it reaches
    `payInvoice`, offering a wallet top-up when the wallet is short. */
module DashboardPage {
  import opened Wrappers
  import opened Types
  import opened Seqs
  import opened Club
  import opened Billing
  import opened Reports

  /** `i.userId === currentUser?.id && i.status !== PAID`; with nobody signed
      in the id is undefined and matches no invoice. */
  function MineAndOpen(current: Option<User>): Invoice -> bool {
    (inv: Invoice) => current.Some? && inv.userId == current.value.id && inv.status != Paid
  }

  /** `myPendingInvoices`. */
  function MyPendingInvoices(invoices: seq<Invoice>, current: Option<User>): (r: seq<Invoice>)
    ensures forall i :: 0 <= i < |r| ==> current.Some? && r[i].userId == current.value.id && r[i].status != Paid
    ensures current.None? ==> r == []
  {
    var r := Filter(invoices, MineAndOpen(current));
    assert |r| > 0 ==> MineAndOpen(current)(r[0]);
    r
  }

  /** An invoice is listed exactly when it is the signed-in user's and not paid. */
  lemma PendingListedIff(invoices: seq<Invoice>, current: Option<User>, inv: Invoice)
    ensures inv in MyPendingInvoices(invoices, current) <==>
      inv in invoices && current.Some? && inv.userId == current.value.id && inv.status != Paid
  {
    var r := MyPendingInvoices(invoices, current);
    if inv in r {
      assert inv in multiset(r);
      assert inv in multiset(invoices);
    }
  }

  // The room board

  datatype RoomStatus = Available | Occupied | PendingCheckout

  function Inside(room: Room): Dog -> bool { (d: Dog) => d.id in room.occupiedBy }
  function LeavesOn(today: string): Dog -> bool { (d: Dog) => d.checkoutDate == today }

  /** One row of `roomStatusData`: a room, its status and the dogs in it. */
  datatype RoomRow = RoomRow(room: Room, status: RoomStatus, occupants: seq<Dog>)

  /** The status of one room: awaiting checkout if one of its dogs leaves
      today, occupied if it holds any dog, otherwise available. */
  function RoomRowOf(room: Room, dogs: seq<Dog>, today: string): (r: RoomRow)
    ensures r.room == room
    ensures r.status == PendingCheckout <==>
      exists i :: 0 <= i < |dogs| && dogs[i].id in room.occupiedBy && dogs[i].checkoutDate == today
    ensures r.status == Available <==> forall i :: 0 <= i < |dogs| ==> dogs[i].id !in room.occupiedBy
    ensures forall i :: 0 <= i < |r.occupants| ==> r.occupants[i].id in room.occupiedBy
    ensures forall i :: 0 <= i < |dogs| && dogs[i].id in room.occupiedBy ==> dogs[i] in r.occupants
    ensures forall d :: multiset(r.occupants)[d] == if d.id in room.occupiedBy then multiset(dogs)[d] else 0
  {
    var occupants := Filter(dogs, Inside(room));
    FilterMultiplicity(dogs, Inside(room));
    var leaving := FirstIndex(occupants, LeavesOn(today)).Some?;
    if leaving then
      var k := FirstIndex(occupants, LeavesOn(today)).value;
      assert occupants[k] in multiset(dogs);
      RoomRow(room, PendingCheckout, occupants)
    else if |occupants| > 0 then
      assert occupants[0] in multiset(dogs);
      assert forall i :: 0 <= i < |dogs| && dogs[i].id in room.occupiedBy ==> dogs[i] in occupants;
      RoomRow(room, Occupied, occupants)
    else
      assert forall i :: 0 <= i < |dogs| && dogs[i].id in room.occupiedBy ==> dogs[i] in occupants;
      RoomRow(room, Available, occupants)
  }

  /** A row lists as many dogs as the room houses, and shows the room
      available exactly when that list is empty. */
  lemma RoomRowCount(room: Room, dogs: seq<Dog>, today: string)
    ensures var r := RoomRowOf(room, dogs, today);
      |r.occupants| == CountOf(dogs, Inside(room)) && (r.status == Available <==> |r.occupants| == 0)
  {
    var r := RoomRowOf(room, dogs, today);
    CountOfIsFilterLength(dogs, Inside(room));
    if |r.occupants| > 0 {
      assert r.occupants[0] in multiset(r.occupants);
    }
  }

  /** `roomStatusData`: one row per room, in the rooms' order. */
  function RoomStatusData(rooms: seq<Room>, dogs: seq<Dog>, today: string): (r: seq<RoomRow>)
    ensures |r| == |rooms|
    ensures forall i :: 0 <= i < |rooms| ==> r[i] == RoomRowOf(rooms[i], dogs, today)
  {
    if |rooms| == 0 then [] else [RoomRowOf(rooms[0], dogs, today)] + RoomStatusData(rooms[1..], dogs, today)
  }

  // Paying a bill

  datatype PayRejection = NotPositive | AboveRemaining

  /** What `handleClientPayment` does with the typed amount: refuse it, ask for
      a wallet top-up of the shortfall, or hand the payment to `payInvoice`. */
  datatype PayStep = Refused(why: PayRejection) | NeedRecharge(shortfall: real) | Submit

  /** `currentUser?.balance || 0`. */
  function CurrentBalance(current: Option<User>): real {
    if current.Some? then current.value.balance else 0.0
  }

  function ClientPayment(inv: Invoice, via: PaymentMethod, amt: real, current: Option<User>): (r: PayStep)
    ensures r == Refused(NotPositive) <==> amt <= 0.0
    ensures r == Refused(AboveRemaining) <==> amt > 0.0 && amt > Remaining(inv)
    ensures r.NeedRecharge? ==>
      via == Wallet && r.shortfall > 0.0 && CurrentBalance(current) + r.shortfall == amt
    ensures r.Submit? <==>
      0.0 < amt <= Remaining(inv) && (via == Wallet ==> CurrentBalance(current) >= amt)
  {
    if amt <= 0.0 then Refused(NotPositive)
    else if amt > inv.finalAmount - inv.paidAmount then Refused(AboveRemaining)
    else if via == Wallet && CurrentBalance(current) < amt then NeedRecharge(amt - CurrentBalance(current))
    else Submit
  }

  /** The pay form acting on the state: a submitted payment goes to `payInvoice`
      with no top-up; any other step leaves the state as it is. */
  function HandleClientPayment(s: State, env: Env, inv: Invoice, via: PaymentMethod, amt: real): (r: State)
    ensures !ClientPayment(inv, via, amt, env.currentUser).Submit? ==> r == s
    ensures ClientPayment(inv, via, amt, env.currentUser).Submit? ==> r == PayInvoice(s, env, inv.id, via, amt, 0.0).0
  {
    if ClientPayment(inv, via, amt, env.currentUser).Submit? then PayInvoice(s, env, inv.id, via, amt, 0.0).0 else s
  }

  /** The bill the page shows is the state's invoice `k`, and its payer is the
      state's user `u`. */
  predicate Showing(s: State, inv: Invoice, k: nat, u: nat) {
    FirstIndex(s.invoices, InvoiceIs(inv.id)) == Some(k) && k < |s.invoices| && s.invoices[k] == inv &&
    FindUser(s, inv.userId) == Some(u) && u < |s.users|
  }

  /** A payment that passes the page's checks on an open bill, made by the payer
      whose balance the page shows, is accepted by `payInvoice`. */
  lemma SubmittedPaymentAccepted(s: State, env: Env, inv: Invoice, via: PaymentMethod, amt: real, k: nat, u: nat)
    requires Showing(s, inv, k, u) && inv.status != Paid
    requires ClientPayment(inv, via, amt, env.currentUser).Submit?
    requires via == Wallet ==> env.currentUser.Some? && env.currentUser.value.balance == s.users[u].balance
    ensures Refusal(s, inv.id, via, amt, 0.0).None?
  {
  }

  /** `handleRechargeAndPay`: one call of `payInvoice` on the wallet with the
      typed amount and the (editable) top-up. */
  function RechargeAndPay(s: State, env: Env, inv: Invoice, amt: real, recharge: real): (r: (State, Outcome<PayError>))
    ensures r.1.Fail? ==> r.0 == s
    ensures r.1.Pass? <==> Refusal(s, inv.id, Wallet, amt, recharge).None?
  {
    PayInvoice(s, env, inv.id, Wallet, amt, recharge)
  }

  /** After the page asked for a top-up, the combined call goes through exactly
      when the top-up covers the shortfall; a top-up edited below it is refused
      for insufficient funds. */
  lemma RechargeCoversShortfall(s: State, env: Env, inv: Invoice, amt: real, recharge: real, k: nat, u: nat)
    requires Showing(s, inv, k, u) && inv.status != Paid
    requires env.currentUser.Some? && env.currentUser.value.balance == s.users[u].balance
    requires ClientPayment(inv, Wallet, amt, env.currentUser).NeedRecharge?
    ensures var shortfall := ClientPayment(inv, Wallet, amt, env.currentUser).shortfall;
      RechargeAndPay(s, env, inv, amt, recharge).1.Pass? <==> recharge >= shortfall
    ensures var shortfall := ClientPayment(inv, Wallet, amt, env.currentUser).shortfall;
      recharge < shortfall ==> Refusal(s, inv.id, Wallet, amt, recharge) == Some(InsufficientFunds)
  {
    var shortfall := ClientPayment(inv, Wallet, amt, env.currentUser).shortfall;
    assert amt > 0.0 && shortfall > 0.0;
    if recharge >= shortfall {
      assert TopUp(recharge) == recharge;
    }
  }
}

=== FILE: dogs.dfy ===
/** The helpers of pages/DogsList.tsx: the admission form's total, its service
    toggles and its guard, the dog's billing report, the age shown on a dog's
    card, and the active and archived views. */
module DogsPage {
  import opened Wrappers
  import opened Types
  import opened Sums
  import opened Seqs
  import opened Text
  import opened Club
  import opened Stock
  import opened Reports
  import opened DueDates

  // Admission

  /** `services.find(ser => ser.id === svcId)?.price || 0`. */
  function PriceOf(services: seq<Service>): string -> real {
    (id: string) =>
      var k := FirstIndex(services, ServiceIs(id));
      if k.Some? then services[k.value].price else 0.0
  }

  /** The listed prices of the selected services, summed. */
  function SelectedTotal(services: seq<Service>, selected: seq<string>): real {
    SumOf(selected, PriceOf(services))
  }

  /** `totalAdmissionCost`: the selected prices less the discount, never below zero. */
  function AdmissionCost(services: seq<Service>, selected: seq<string>, discount: real): (r: real)
    ensures r >= 0.0 && r >= SelectedTotal(services, selected) - discount
    ensures r == 0.0 || r == SelectedTotal(services, selected) - discount
  {
    Max0(SelectedTotal(services, selected) - discount)
  }

  /** Selecting a service the list does not know adds nothing to the total. */
  lemma UnknownServiceIsFree(services: seq<Service>, selected: seq<string>, id: string, discount: real)
    requires forall i :: 0 <= i < |services| ==> services[i].id != id
    ensures AdmissionCost(services, selected + [id], discount) == AdmissionCost(services, selected, discount)
  {
    SumOfSnoc(selected, id, PriceOf(services));
  }

  /** The total does not depend on the order the services were picked in. */
  lemma AdmissionCostOrderFree(services: seq<Service>, a: seq<string>, b: seq<string>, discount: real)
    requires multiset(a) == multiset(b)
    ensures AdmissionCost(services, a, discount) == AdmissionCost(services, b, discount)
  {
    SumOfPermutation(a, b, PriceOf(services));
  }

  function Except(id: string): string -> bool { (x: string) => x != id }

  /** `handleServiceToggle`: a selected service is dropped, any other is appended. */
  function ToggleService(selected: seq<string>, id: string): (r: seq<string>)
    ensures id in r <==> id !in selected
    ensures forall x :: x != id ==> (x in r <==> x in selected)
  {
    if id in selected then
      var r := Filter(selected, Except(id));
      assert forall x :: x in r ==> x in selected by {
        forall x | x in r
          ensures x in selected
        {
          assert x in multiset(r);
        }
      }
      r
    else
      selected + [id]
  }

  /** Toggling a service twice restores which services are selected, and
      restores the list itself when the service was not selected before. */
  lemma ToggleTwice(selected: seq<string>, id: string)
    ensures forall x :: x in ToggleService(ToggleService(selected, id), id) <==> x in selected
    ensures id !in selected ==> ToggleService(ToggleService(selected, id), id) == selected
  {
    if id !in selected {
      FilterAppend(selected, [id], Except(id));
      FilterAll(selected, Except(id));
    }
  }

  /** What the admission form hands to `admitDog` once it passes its guard. */
  datatype AdmissionRequest = AdmissionRequest(dogId: string, roomId: string, services: seq<string>,
                                               downPayment: real, discount: real)

  /** `handleAdmissionSubmit`: refused without a dog, a room or at least one service. */
  function SubmitAdmission(dog: Option<Dog>, roomId: string, selected: seq<string>,
                           downPayment: real, discount: real): (r: Option<AdmissionRequest>)
    ensures r.Some? <==> dog.Some? && roomId != "" && |selected| > 0
    ensures r.Some? ==> r.value.dogId == dog.value.id && r.value.roomId == roomId && r.value.services == selected
    ensures r.Some? ==> r.value.discount == discount && r.value.downPayment == downPayment
  {
    if dog.None? || roomId == "" || |selected| == 0 then None
    else Some(AdmissionRequest(dog.value.id, roomId, selected, downPayment, discount))
  }

  // The dog's report

  /** `inv.paidAmount || (inv.status === PAID ? inv.finalAmount : 0)`: what the
      report counts as paid on one invoice. */
  function CountedPaid(inv: Invoice): real {
    if inv.paidAmount != 0.0 then inv.paidAmount else if inv.status == Paid then inv.finalAmount else 0.0
  }

  function FinalOf(inv: Invoice): real { inv.finalAmount }

  function DogFinal(dogId: string): Invoice -> real {
    (inv: Invoice) => if inv.dogId == dogId then inv.finalAmount else 0.0
  }

  function DogPaid(dogId: string): Invoice -> real {
    (inv: Invoice) => if inv.dogId == dogId then CountedPaid(inv) else 0.0
  }

  datatype ReportTotals = ReportTotals(invoiced: real, paid: real, pending: real)

  /** The totals of `getDogReport`, over the invoices of the dog. */
  function DogReport(invoices: seq<Invoice>, dogId: string): (r: ReportTotals)
    ensures r.invoiced == SumOf(invoices, DogFinal(dogId))
    ensures r.paid == SumOf(invoices, DogPaid(dogId))
    ensures r.pending == r.invoiced - r.paid
  {
    var mine := Filter(invoices, OfDog(dogId));
    SumOfFilterMask(invoices, OfDog(dogId), FinalOf, DogFinal(dogId));
    SumOfFilterMask(invoices, OfDog(dogId), CountedPaid, DogPaid(dogId));
    var invoiced := SumOf(mine, FinalOf);
    var paid := SumOf(mine, CountedPaid);
    ReportTotals(invoiced, paid, invoiced - paid)
  }

  /** The paid invoices of the dog carry either no paid amount or exactly the final amount. */
  predicate PaidInFull(invoices: seq<Invoice>, dogId: string) {
    forall i :: 0 <= i < |invoices| && invoices[i].dogId == dogId && invoices[i].status == Paid ==>
      invoices[i].paidAmount == 0.0 || invoices[i].paidAmount == invoices[i].finalAmount
  }

  /** The report's pending figure is the dog's debt as the engine reckons it
      (`getDogFinancialStatus`) whenever each of its paid invoices was paid in
      full or has no paid amount; a paid invoice settled short of its final
      amount is counted as pending by the report and as cleared by the engine. */
  lemma ReportAgreesWithDebt(invoices: seq<Invoice>, dogId: string)
    requires PaidInFull(invoices, dogId)
    ensures DogReport(invoices, dogId).pending == DogFinancialStatus(invoices, dogId).0
  {
    var gap := (inv: Invoice) => DogFinal(dogId)(inv) - DogPaid(dogId)(inv);
    SumOfPlus(invoices, gap, DogPaid(dogId), DogFinal(dogId));
    SumOfCongruent(invoices, gap, DogDebtOf(dogId));
  }

  // The card

  /** The year the page counts ages from. */
  const CurrentYear: nat := 1403

  const UnderOneYear: string := "زیر یک سال"

  /** `calculateAge`: nothing for a missing date or an unreadable year, the
      "under one year" text for a year at or after 1403, otherwise the number
      of years. */
  function CalculateAge(birthDate: string): (r: string)
    ensures r == "" <==> birthDate == "" || PartValue(Split(birthDate, '/'), 0).None?
  {
    if birthDate == "" then ""
    else match PartValue(Split(birthDate, '/'), 0)
      case None => ""
      case Some(y) => if CurrentYear - y < 1 then UnderOneYear else NatToString(CurrentYear - y)
  }

  /** For a date the page writes, the age is 1403 less the year, and the
      "under one year" text once that difference is below one. */
  lemma AgeOfDate(y: nat, m: nat, d: nat)
    ensures y < CurrentYear ==> CalculateAge(DateString(y, m, d)) == NatToString(CurrentYear - y)
    ensures y >= CurrentYear ==> CalculateAge(DateString(y, m, d)) == UnderOneYear
  {
    ReadDate(y, m, d);
  }

  // The views

  function Active(): Dog -> bool { (d: Dog) => d.status != CheckedOut }
  function Archived(): Dog -> bool { (d: Dog) => d.status == CheckedOut }

  /** `displayedDogs`: the dogs still in the club, or the checked-out ones. */
  function DisplayedDogs(dogs: seq<Dog>, active: bool): (r: seq<Dog>)
    ensures active ==> forall i :: 0 <= i < |r| ==> r[i].status != CheckedOut
    ensures !active ==> forall i :: 0 <= i < |r| ==> r[i].status == CheckedOut
  {
    Filter(dogs, if active then Active() else Archived())
  }

  /** Every dog is shown in exactly one of the two views. */
  lemma ViewsPartitionDogs(dogs: seq<Dog>)
    ensures multiset(DisplayedDogs(dogs, true)) + multiset(DisplayedDogs(dogs, false)) == multiset(dogs)
  {
    FilterPartition(dogs, Active(), Archived());
  }
}

=== FILE: duedate.dfy ===
/** The due date `addInvoice` fills in when an invoice has none
    (context/AppContext.tsx:263): the issue date `y/m/d` split on '/', each part
    read with `parseInt`, moved on seven days in a calendar of 30-day months, and
    written back with two-digit month and day. A part `parseInt` cannot read is
    NaN, which stays NaN through the arithmetic and is written "NaN". */
module DueDates {
  import opened Wrappers
  import opened Text

  /** `parseInt(parts[k])`; a missing part is `undefined`, which reads as NaN. */
  function PartValue(parts: seq<string>, k: nat): Option<nat> {
    if k < |parts| then ParseInt(parts[k]) else None
  }

  /** Addition on a number that may be NaN. */
  function Plus(a: Option<nat>, n: nat): Option<nat> {
    match a
    case None => None
    case Some(v) => Some(v + n)
  }

  /** `String(y)`. */
  function ShowYear(a: Option<nat>): string {
    match a
    case None => "NaN"
    case Some(v) => NatToString(v)
  }

  /** `m < 10 ? '0' + m : m`. */
  function ShowTwo(a: Option<nat>): string {
    match a
    case None => "NaN"
    case Some(v) => Pad2(v)
  }

  /** The seven-day roll: past day 30 the day wraps into the next month, past
      month 12 the month wraps to 1 of the next year. */
  function Roll(y: Option<nat>, m: Option<nat>, d: Option<nat>): (Option<nat>, Option<nat>, Option<nat>) {
    var d1 := Plus(d, 7);
    var (m2, d2) := if d1.Some? && d1.value > 30 then (Plus(m, 1), Some(d1.value - 30)) else (m, d1);
    var (y3, m3) := if m2.Some? && m2.value > 12 then (Plus(y, 1), Some(1)) else (y, m2);
    (y3, m3, d2)
  }

  function DueDate(date: string): string {
    var parts := Split(date, '/');
    var (y, m, d) := Roll(PartValue(parts, 0), PartValue(parts, 1), PartValue(parts, 2));
    ShowYear(y) + "/" + ShowTwo(m) + "/" + ShowTwo(d)
  }

  /** A date as the engine writes it: year, then two-digit month and day. */
  function DateString(y: nat, m: nat, d: nat): string {
    NatToString(y) + "/" + Pad2(m) + "/" + Pad2(d)
  }

  /** A day of a 30-day-month calendar. */
  predicate ValidDate(m: nat, d: nat) {
    1 <= m <= 12 && 1 <= d <= 30
  }

  /** The days since year 0 in a calendar of twelve 30-day months. */
  function DayNumber(y: nat, m: nat, d: nat): int {
    360 * y + 30 * (m - 1) + (d - 1)
  }

  lemma DigitsHaveNoSlash(s: string)
    requires AllDigits(s)
    ensures '/' !in s
  {
    forall i | 0 <= i < |s|
      ensures s[i] != '/'
    {
      assert IsDigit(s[i]);
    }
  }

  /** A written date splits back into its three parts and reads back as its numbers. */
  lemma ReadDate(y: nat, m: nat, d: nat)
    ensures var parts := Split(DateString(y, m, d), '/');
      PartValue(parts, 0) == Some(y) && PartValue(parts, 1) == Some(m) && PartValue(parts, 2) == Some(d)
  {
    var a, b, c := NatToString(y), Pad2(m), Pad2(d);
    DigitsHaveNoSlash(a);
    DigitsHaveNoSlash(b);
    DigitsHaveNoSlash(c);
    assert DateString(y, m, d) == a + ['/'] + (b + ['/'] + c);
    SplitPiece(a, '/', b + ['/'] + c);
    SplitPiece(b, '/', c);
    SplitWhole(c, '/');
    assert Split(DateString(y, m, d), '/') == [a, b, c];
    ParseIntNatToString(y);
    ParseIntDigitsThen(b, "");
    ParseIntDigitsThen(c, "");
    assert b + "" == b && c + "" == c;
  }

  /** The valid date seven days after `y/m/d`. */
  function WeekLater(y: nat, m: nat, d: nat): (r: (nat, nat, nat))
    requires ValidDate(m, d)
    ensures ValidDate(r.1, r.2)
    ensures DayNumber(r.0, r.1, r.2) == DayNumber(y, m, d) + 7
  {
    if d + 7 <= 30 then (y, m, d + 7)
    else if m < 12 then (y, m + 1, d + 7 - 30)
    else (y + 1, 1, d + 7 - 30)
  }

  /** On a valid date the due date is the date seven days later. */
  lemma DueDateAddsAWeek(y: nat, m: nat, d: nat)
    requires ValidDate(m, d)
    ensures var w := WeekLater(y, m, d);
      DueDate(DateString(y, m, d)) == DateString(w.0, w.1, w.2)
  {
    ReadDate(y, m, d);
    RollWeek(y, m, d);
    var w := WeekLater(y, m, d);
    DueDateOfParts(DateString(y, m, d), w.0, w.1, w.2);
  }

  /** On a valid date the roll is the date seven days later. */
  lemma RollWeek(y: nat, m: nat, d: nat)
    requires ValidDate(m, d)
    ensures var w := WeekLater(y, m, d);
      Roll(Some(y), Some(m), Some(d)) == (Some(w.0), Some(w.1), Some(w.2))
  {
  }

  /** A date whose parts roll to readable numbers falls due on those numbers written out. */
  lemma DueDateOfParts(date: string, y: nat, m: nat, d: nat)
    requires var parts := Split(date, '/');
      Roll(PartValue(parts, 0), PartValue(parts, 1), PartValue(parts, 2)) == (Some(y), Some(m), Some(d))
    ensures DueDate(date) == DateString(y, m, d)
  {
  }

  /** Written out: a date up to the 23rd falls due on the same month's day a week later. */
  lemma SameMonthDue(y: nat, m: nat, d: nat, year: string, month: string, day: string, due: string)
    requires 1 <= m <= 12 && 1 <= d <= 23
    requires year == NatToString(y) && month == Pad2(m) && day == Pad2(d) && due == Pad2(d + 7)
    ensures DueDate(year + "/" + month + "/" + day) == year + "/" + month + "/" + due
  {
    assert year + "/" + month + "/" + day == DateString(y, m, d);
    DueDateAddsAWeek(y, m, d);
    assert WeekLater(y, m, d) == (y, m, d + 7);
    assert DateString(y, m, d + 7) == year + "/" + month + "/" + due;
  }

  /** A date written in digits `parseInt` does not read (the Persian digits the
      fa-IR locale prints, say) gives "NaN/NaN/NaN". */
  lemma DueDateOfUnreadable(a: string, b: string, c: string)
    requires '/' !in a && '/' !in b && '/' !in c
    requires ParseInt(a).None? && ParseInt(b).None? && ParseInt(c).None?
    ensures DueDate(a + "/" + b + "/" + c) == "NaN/NaN/NaN"
  {
    var date := a + "/" + b + "/" + c;
    assert date == a + ['/'] + (b + ['/'] + c);
    SplitPiece(a, '/', b + ['/'] + c);
    SplitPiece(b, '/', c);
    SplitWhole(c, '/');
    assert Split(date, '/') == [a, b, c];
    DueDateOfNaN(date);
  }

  /** A date none of whose parts reads as a number falls due on "NaN/NaN/NaN". */
  lemma DueDateOfNaN(date: string)
    requires var parts := Split(date, '/');
      PartValue(parts, 0).None? && PartValue(parts, 1).None? && PartValue(parts, 2).None?
    ensures DueDate(date) == "NaN/NaN/NaN"
  {
  }
}

=== FILE: finance_page.dfy ===
/** The two handlers of pages/Finance.tsx that feed the engine: the manual
    invoice form (`handleAddInvoice`) and the manual journal entry form
    (`handleManualEntrySubmit`). Form fields that the page reads through
    `Number(x) || fallback` are held as reals, `0.0` standing for an empty field. */
module FinancePage {
  import opened Wrappers
  import opened Types
  import opened Seqs
  import opened Journal
  import opened Club
  import opened Billing

  /** The manual invoice form. */
  datatype InvoiceForm = InvoiceForm(userId: string, serviceId: string, price: real, dueDate: string, discount: real)

  /** `Number(price) || service?.price || 0`: the typed price, else the listed
      price of the service, else nothing. */
  function InvoicePrice(services: seq<Service>, form: InvoiceForm): (price: real)
    ensures form.price != 0.0 ==> price == form.price
    ensures form.price == 0.0 && FirstIndex(services, ServiceIs(form.serviceId)).Some? ==>
      price == services[FirstIndex(services, ServiceIs(form.serviceId)).value].price
    ensures form.price == 0.0 && (forall i :: 0 <= i < |services| ==> services[i].id != form.serviceId) ==> price == 0.0
  {
    if form.price != 0.0 then form.price
    else match FirstIndex(services, ServiceIs(form.serviceId))
      case Some(k) => services[k].price
      case None => 0.0
  }

  /** The invoice the form issues: a general (not dog-specific) bill, unpaid and pending. */
  function ManualInvoice(s: State, env: Env, form: InvoiceForm): (inv: Invoice)
    ensures inv.finalAmount >= 0.0
    ensures inv.finalAmount >= inv.amount - inv.discount
    ensures inv.finalAmount == 0.0 || inv.finalAmount == inv.amount - inv.discount
    ensures inv.amount == InvoicePrice(s.services, form) && inv.discount == form.discount
    ensures inv.paidAmount == 0.0 && inv.status == Pending && inv.dogId == "GENERAL"
    ensures inv.userId == form.userId && inv.serviceId == form.serviceId && inv.dueDate == form.dueDate
  {
    var price := InvoicePrice(s.services, form);
    var finalAmount := if price - form.discount > 0.0 then price - form.discount else 0.0;
    Invoice("inv_m_" + env.stamp, form.userId, "GENERAL", form.serviceId, price, form.discount,
            finalAmount, 0.0, env.today, form.dueDate, Pending, None, "")
  }

  /** `handleAddInvoice`: without a customer or a service nothing happens;
      otherwise the invoice is issued through `addInvoice`. */
  function AddManualInvoice(s: State, env: Env, form: InvoiceForm): (r: State)
    ensures form.userId == "" || form.serviceId == "" ==> r == s
    ensures form.userId != "" && form.serviceId != "" ==>
      |r.invoices| == |s.invoices| + 1 && r.invoices[1..] == s.invoices &&
      r.invoices[0].finalAmount >= 0.0 && r.invoices[0].paidAmount == 0.0 &&
      Balance(r.journal, Receivables) == Balance(s.journal, Receivables) + r.invoices[0].finalAmount
  {
    if form.userId == "" || form.serviceId == "" then s
    else
      var inv := ManualInvoice(s, env, form);
      assert RevenueCode(s.services, inv.serviceId) != Receivables;
      AddInvoice(s, env, inv)
  }

  /** A manual invoice for a listed service, typed with no price, bills the
      listed price less the discount, never below zero. */
  lemma ManualInvoiceUsesListedPrice(s: State, env: Env, form: InvoiceForm, k: nat)
    requires form.price == 0.0 && FirstIndex(s.services, ServiceIs(form.serviceId)) == Some(k)
    requires k < |s.services| && s.services[k].price >= form.discount
    ensures ManualInvoice(s, env, form).finalAmount == s.services[k].price - form.discount
  {
  }

  /** The manual entry form: a description and the lines typed so far. */
  datatype EntryForm = EntryForm(description: string, lines: seq<Line>)

  /** The form as the page resets it: no description and two empty lines. */
  function BlankForm(): EntryForm {
    EntryForm("", [Line("", 0.0, 0.0), Line("", 0.0, 0.0)])
  }

  /** The page's view of the entry modal: whether it is open and what it holds. */
  datatype EntryModal = EntryModal(open: bool, form: EntryForm)

  /** `handleManualEntrySubmit`: records the typed lines as a posted entry; only
      when the journal accepts it is the modal closed and the form reset, and a
      refused entry leaves both the journal and the form as they were. */
  function SubmitManualEntry(j: seq<Entry>, env: Env, modal: EntryModal): (r: (seq<Entry>, EntryModal))
    ensures Balanced(modal.form.lines) ==>
      |r.0| == |j| + 1 && r.0[1..] == j && r.0[0].lines == modal.form.lines && r.0[0].status == Posted &&
      r.1 == EntryModal(false, BlankForm())
    ensures !Balanced(modal.form.lines) ==> r == (j, modal)
  {
    var data := EntryData(env.today, modal.form.description, "", Posted, modal.form.lines);
    var (j1, outcome) := Record(j, data, EntryId(env, j), CreatedBy(env.currentUser));
    if outcome.Pass? then (j1, EntryModal(false, BlankForm())) else (j, modal)
  }

  /** Whatever is typed, the journal after a submission still balances entry by entry. */
  lemma SubmitKeepsBooks(j: seq<Entry>, env: Env, modal: EntryModal)
    requires AllBalanced(j)
    ensures AllBalanced(SubmitManualEntry(j, env, modal).0)
  {
    var data := EntryData(env.today, modal.form.description, "", Posted, modal.form.lines);
    RecordKeepsBalanced(j, data, EntryId(env, j), CreatedBy(env.currentUser));
  }
}

=== FILE: history.dfy ===
/** The audit page, pages/History.tsx: the system log filtered by user,
    category and a search text, the admin-verified checklists, and the
    twenty-per-page pagination shared by both tabs. */
module HistoryPage {
  import opened Types
  import opened Seqs
  import opened Text

  // Filtering

  /** A log line matches the search text, ignoring case, in its description,
      its action or its author. */
  predicate Mentions(log: SystemLog, query: string) {
    var q := Lower(query);
    Contains(Lower(log.description), q) || Contains(Lower(log.action), q) || Contains(Lower(log.performedBy), q)
  }

  /** The three filters together; an empty filter lets everything through. */
  predicate Matches(log: SystemLog, user: string, category: string, query: string) {
    (user == "" || log.userId == user || log.performedBy == user) &&
    (category == "" || log.category == category) &&
    (query == "" || Mentions(log, query))
  }

  function Matching(user: string, category: string, query: string): SystemLog -> bool {
    (log: SystemLog) => Matches(log, user, category, query)
  }

  /** `filteredLogs`. */
  function FilteredLogs(logs: seq<SystemLog>, user: string, category: string, query: string): (r: seq<SystemLog>)
    ensures forall x :: x in r <==> x in logs && Matches(x, user, category, query)
    ensures user == "" && category == "" && query == "" ==> r == logs
    ensures |r| == CountOf(logs, Matching(user, category, query))
    ensures forall x :: multiset(r)[x] == if Matches(x, user, category, query) then multiset(logs)[x] else 0
  {
    FilterMembers(logs, Matching(user, category, query));
    FilterMultiplicity(logs, Matching(user, category, query));
    CountOfIsFilterLength(logs, Matching(user, category, query));
    if user == "" && category == "" && query == "" then
      FilterAll(logs, Matching(user, category, query));
      Filter(logs, Matching(user, category, query))
    else
      Filter(logs, Matching(user, category, query))
  }

  /** Narrowing by a user never shows more lines than the category and search filters alone. */
  lemma UserFilterNarrows(logs: seq<SystemLog>, user: string, category: string, query: string)
    ensures forall x :: x in FilteredLogs(logs, user, category, query) ==> x in FilteredLogs(logs, "", category, query)
  {
  }

  /** The filter keeps the log's order: filtering a log made of two parts
      filters each part in place, and a single line is kept exactly when it
      matches. */
  lemma FilteredLogsInOrder(a: seq<SystemLog>, b: seq<SystemLog>, x: SystemLog, user: string, category: string, query: string)
    ensures FilteredLogs(a + b, user, category, query) == FilteredLogs(a, user, category, query) + FilteredLogs(b, user, category, query)
    ensures FilteredLogs([x], user, category, query) == if Matches(x, user, category, query) then [x] else []
  {
    FilterAppend(a, b, Matching(user, category, query));
    FilterCons(x, [], Matching(user, category, query));
    assert [x] + [] == [x];
  }

  function Verified(): DailyChecklist -> bool { (c: DailyChecklist) => c.verifiedByAdmin }

  /** `archivedChecklists`: exactly the checklists an admin has verified. */
  function ArchivedChecklists(lists: seq<DailyChecklist>): (r: seq<DailyChecklist>)
    ensures forall c :: c in r <==> c in lists && c.verifiedByAdmin
    ensures |r| == CountOf(lists, Verified())
    ensures forall c :: multiset(r)[c] == if c.verifiedByAdmin then multiset(lists)[c] else 0
  {
    FilterMembers(lists, Verified());
    FilterMultiplicity(lists, Verified());
    CountOfIsFilterLength(lists, Verified());
    Filter(lists, Verified())
  }

  /** The archive keeps the checklists' order, in the same sense. */
  lemma ArchivedInOrder(a: seq<DailyChecklist>, b: seq<DailyChecklist>, c: DailyChecklist)
    ensures ArchivedChecklists(a + b) == ArchivedChecklists(a) + ArchivedChecklists(b)
    ensures ArchivedChecklists([c]) == if c.verifiedByAdmin then [c] else []
  {
    FilterAppend(a, b, Verified());
    FilterCons(c, [], Verified());
    assert [c] + [] == [c];
  }

  // Pagination

  const PageSize: nat := 20

  /** `Math.ceil(n / 20)`. */
  function TotalPages(n: nat): (t: nat)
    ensures n == 0 <==> t == 0
    ensures PageSize * t >= n
    ensures t > 0 ==> PageSize * (t - 1) < n
  {
    (n + PageSize - 1) / PageSize
  }

  function Min(a: nat, b: nat): nat { if a <= b then a else b }

  /** `data.slice((page - 1) * 20, page * 20)`, where a slice past the end stops
      at the end. The page counter starts at 1 and only ever takes pages the
      page change accepts, which are at least 1. */
  function PageSlice<T>(data: seq<T>, page: nat): (r: seq<T>)
    requires page >= 1
    ensures |r| <= PageSize
    ensures |r| > 0 ==> (page - 1) * PageSize + |r| <= |data|
    ensures forall i :: 0 <= i < |r| ==> r[i] == data[(page - 1) * PageSize + i]
    ensures page <= TotalPages(|data|) ==> |r| > 0
    ensures page > TotalPages(|data|) ==> r == []
    ensures page < TotalPages(|data|) ==> |r| == PageSize
  {
    var start := Min((page - 1) * PageSize, |data|);
    var end := Min(page * PageSize, |data|);
    data[start..end]
  }

  /** The pages from `page` on, one after another. */
  function PagesFrom<T>(data: seq<T>, page: nat): seq<T>
    requires page >= 1
    decreases TotalPages(|data|) + 1 - page
  {
    if page > TotalPages(|data|) then [] else PageSlice(data, page) + PagesFrom(data, page + 1)
  }

  lemma {:induction false} PagesFromRest<T>(data: seq<T>, page: nat)
    requires page >= 1
    ensures PagesFrom(data, page) == data[Min((page - 1) * PageSize, |data|)..]
    decreases TotalPages(|data|) + 1 - page
  {
    if page <= TotalPages(|data|) {
      PagesFromRest(data, page + 1);
      var start := (page - 1) * PageSize;
      var end := Min(page * PageSize, |data|);
      assert PageSlice(data, page) == data[start..end];
      assert data[start..] == data[start..end] + data[end..];
    }
  }

  /** Paging through every page shows every item once, in order. */
  lemma PagesCoverData<T>(data: seq<T>)
    ensures PagesFrom(data, 1) == data
  {
    PagesFromRest(data, 1);
  }

  /** `handlePageChange`: only a page from 1 to the last is accepted. */
  function HandlePageChange(current: nat, newPage: int, totalPages: nat): (r: nat)
    ensures 1 <= newPage <= totalPages ==> r == newPage
    ensures !(1 <= newPage <= totalPages) ==> r == current
  {
    if 1 <= newPage <= totalPages then newPage else current
  }

  /** Starting on a page that shows data, every page change lands on a page
      that shows data. */
  lemma PageChangeKeepsData<T>(data: seq<T>, current: nat, newPage: int)
    requires 1 <= current <= TotalPages(|data|)
    ensures var r := HandlePageChange(current, newPage, TotalPages(|data|));
      r >= 1 && |PageSlice(data, r)| > 0
  {
  }
}

=== FILE: inventory_page.dfy ===
/** The helpers of pages/Inventory.tsx: the low-stock list, new and edited
    items, and the kitchen, where a list of raw ingredients is put together,
    weighed and cooked into the daily food batch. */
module InventoryPage {
  import opened Wrappers
  import opened Types
  import opened Sums
  import opened Seqs
  import opened Club
  import opened Stock
  import opened Consumption

  // Items

  function Low(): Item -> bool { (i: Item) => i.quantity <= i.minQuantity }

  /** `lowStockItems`. */
  function LowStockItems(items: seq<Item>): (r: seq<Item>)
    ensures forall i :: 0 <= i < |r| ==> r[i].quantity <= r[i].minQuantity
    ensures forall i :: 0 <= i < |items| && items[i].quantity <= items[i].minQuantity ==> items[i] in r
  {
    Filter(items, Low())
  }

  /** An item is listed as low exactly when it is in stock no higher than its minimum. */
  lemma LowStockIff(items: seq<Item>, x: Item)
    ensures x in LowStockItems(items) <==> x in items && x.quantity <= x.minQuantity
  {
    if x in LowStockItems(items) {
      assert x in multiset(LowStockItems(items));
      assert x in multiset(items);
    }
  }

  /** `handleAddItem`: an item needs a name; it joins the end of the inventory
      at the typed quantity and with no cost history. */
  function AddItem(s: State, id: string, name: string, category: ItemCategory, quantity: real,
                   unit: string, minQuantity: real): (r: State)
    ensures name == "" ==> r == s
    ensures r == s.(inventory := r.inventory)
    ensures name != "" ==> |r.inventory| == |s.inventory| + 1 && r.inventory[..|s.inventory|] == s.inventory
    ensures name != "" ==> r.inventory[|s.inventory|].averageCost == 0.0 && r.inventory[|s.inventory|].quantity == quantity
    ensures name != "" ==> r.inventory[|s.inventory|] == Item(id, name, category, quantity, unit, minQuantity, 0.0)
  {
    if name == "" then s
    else s.(inventory := s.inventory + [Item(id, name, category, quantity, unit, minQuantity, 0.0)])
  }

  /** Since a new item carries no cost, a first priced purchase of an item that
      starts empty values it at the purchase price. */
  lemma FirstPurchaseSetsCost(i: Item, n: real, unitPrice: real)
    requires i.quantity == 0.0 && i.averageCost == 0.0 && n > 0.0 && unitPrice > 0.0
    ensures Restock(i, In, n, unitPrice).averageCost == unitPrice
  {
    var r := Restock(i, In, n, unitPrice);
    assert r.averageCost * n == n * unitPrice;
    assert (r.averageCost - unitPrice) * n == 0.0;
  }

  /** `handleEditItem`: a renamed item keeps its stock and its cost. */
  function EditItem(item: Item, name: string, category: ItemCategory, unit: string, minQuantity: real): (r: Item)
    ensures r.id == item.id && r.quantity == item.quantity && r.averageCost == item.averageCost
    ensures r.name == name && r.category == category && r.unit == unit && r.minQuantity == minQuantity
  {
    item.(name := name, category := category, unit := unit, minQuantity := minQuantity)
  }

  /** `updateInventoryItem`: replaces every item with the edited one's id. */
  function UpdateItem(items: seq<Item>, edited: Item): (r: seq<Item>)
    ensures |r| == |items|
    ensures forall k :: 0 <= k < |items| ==> r[k] == if items[k].id == edited.id then edited else items[k]
  {
    if |items| == 0 then [] else [if items[0].id == edited.id then edited else items[0]] + UpdateItem(items[1..], edited)
  }

  /** The edit form on item `k`: ignored without a name, otherwise every item
      with item `k`'s id becomes item `k` with the form's name, category, unit
      and minimum, keeping its id, stock and cost. */
  function SubmitEdit(s: State, k: nat, name: string, category: ItemCategory, unit: string, minQuantity: real): (r: State)
    requires k < |s.inventory|
    ensures name == "" ==> r == s
    ensures r == s.(inventory := r.inventory) && |r.inventory| == |s.inventory|
    ensures forall i :: 0 <= i < |s.inventory| && s.inventory[i].id != s.inventory[k].id ==> r.inventory[i] == s.inventory[i]
    ensures name != "" ==> forall i :: 0 <= i < |s.inventory| && s.inventory[i].id == s.inventory[k].id ==>
      r.inventory[i].quantity == s.inventory[k].quantity && r.inventory[i].averageCost == s.inventory[k].averageCost
    ensures name != "" ==> forall i :: 0 <= i < |s.inventory| && s.inventory[i].id == s.inventory[k].id ==>
      r.inventory[i] == s.inventory[k].(name := name, category := category, unit := unit, minQuantity := minQuantity)
  {
    if name == "" then s
    else s.(inventory := UpdateItem(s.inventory, EditItem(s.inventory[k], name, category, unit, minQuantity)))
  }

  /** Editing leaves the inventory's value untouched: the stock kept is the stock held. */
  lemma EditKeepsStock(s: State, k: nat, name: string, category: ItemCategory, unit: string, minQuantity: real)
    requires k < |s.inventory| && NonnegStock(s.inventory)
    ensures NonnegStock(SubmitEdit(s, k, name, category, unit, minQuantity).inventory)
  {
  }

  /** No two items share an id. */
  predicate UniqueItemIds(items: seq<Item>) {
    forall a, b :: 0 <= a < b < |items| ==> items[a].id != items[b].id
  }

  /** Submitting the same form twice is the same as submitting it once. */
  lemma EditTwice(s: State, k: nat, name: string, category: ItemCategory, unit: string, minQuantity: real)
    requires k < |s.inventory|
    ensures var s1 := SubmitEdit(s, k, name, category, unit, minQuantity);
      SubmitEdit(s1, k, name, category, unit, minQuantity) == s1
  {
    var s1 := SubmitEdit(s, k, name, category, unit, minQuantity);
    if name != "" {
      var s2 := SubmitEdit(s1, k, name, category, unit, minQuantity);
      assert s1.inventory[k].id == s.inventory[k].id;
      assert forall i :: 0 <= i < |s1.inventory| ==> s2.inventory[i] == s1.inventory[i];
    }
  }

  /** With distinct ids, submitting item `k`'s own fields again, after any
      edit of it, brings the inventory back to what it was. */
  lemma EditUndo(s: State, k: nat, name: string, category: ItemCategory, unit: string, minQuantity: real)
    requires k < |s.inventory| && UniqueItemIds(s.inventory)
    ensures var item := s.inventory[k];
      var s1 := SubmitEdit(s, k, name, category, unit, minQuantity);
      item.name != "" ==> SubmitEdit(s1, k, item.name, item.category, item.unit, item.minQuantity) == s
  {
    var item := s.inventory[k];
    var s1 := SubmitEdit(s, k, name, category, unit, minQuantity);
    if item.name != "" {
      var s2 := SubmitEdit(s1, k, item.name, item.category, item.unit, item.minQuantity);
      forall i | 0 <= i < |s.inventory|
        ensures s2.inventory[i] == s.inventory[i]
      {
        if s.inventory[i].id == item.id {
          assert i == k;
        }
      }
    }
  }

  // The kitchen

  function Quantity(ing: Ingredient): real { ing.quantity }

  /** `calculateProduction`: the raw weight of the list. */
  function RawWeight(list: seq<Ingredient>): real { SumOf(list, Quantity) }

  /** What the list holds of item `id`. */
  function QuantityAt(id: string): Ingredient -> real {
    (ing: Ingredient) => if ing.itemId == id then ing.quantity else 0.0
  }

  function QuantityOf(list: seq<Ingredient>, id: string): real { SumOf(list, QuantityAt(id)) }

  predicate Listed(list: seq<Ingredient>, id: string) {
    exists k :: 0 <= k < |list| && list[k].itemId == id
  }

  /** No item appears twice on the list. */
  predicate DistinctItems(list: seq<Ingredient>) {
    forall a, b :: 0 <= a < b < |list| ==> list[a].itemId != list[b].itemId
  }

  /** `prev.map(i => i.itemId === id ? { ...i, quantity: i.quantity + q } : i)`. */
  function AddTo(list: seq<Ingredient>, id: string, q: real): (r: seq<Ingredient>)
    ensures |r| == |list|
    ensures forall k :: 0 <= k < |list| ==>
      r[k] == if list[k].itemId == id then list[k].(quantity := list[k].quantity + q) else list[k]
  {
    if |list| == 0 then []
    else [if list[0].itemId == id then list[0].(quantity := list[0].quantity + q) else list[0]] + AddTo(list[1..], id, q)
  }

  /** `addIngredient`: without a selected item or a typed quantity (`None`)
      nothing happens; an item already listed gets the quantity added, any
      other item is appended. */
  function AddIngredient(list: seq<Ingredient>, id: string, qty: Option<real>): (r: seq<Ingredient>)
    ensures id == "" || qty.None? ==> r == list
    ensures id != "" && qty.Some? && Listed(list, id) ==> |r| == |list| && Listed(r, id)
    ensures id != "" && qty.Some? && !Listed(list, id) ==> r == list + [Ingredient(id, qty.value)]
  {
    if id == "" || qty.None? then list
    else if FirstIndex(list, (ing: Ingredient) => ing.itemId == id).Some? then
      var k := FirstIndex(list, (ing: Ingredient) => ing.itemId == id).value;
      var r := AddTo(list, id, qty.value);
      assert r[k].itemId == id;
      r
    else
      list + [Ingredient(id, qty.value)]
  }

  lemma {:induction false} AddToAbsent(list: seq<Ingredient>, id: string, q: real)
    requires !Listed(list, id)
    ensures AddTo(list, id, q) == list
  {
  }

  /** The list never holds an item twice. */
  lemma AddIngredientKeepsDistinct(list: seq<Ingredient>, id: string, qty: Option<real>)
    requires DistinctItems(list)
    ensures DistinctItems(AddIngredient(list, id, qty))
  {
    var r := AddIngredient(list, id, qty);
    if id != "" && qty.Some? && !Listed(list, id) {
      forall a, b | 0 <= a < b < |r|
        ensures r[a].itemId != r[b].itemId
      {
        if b == |list| {
          assert r[a] == list[a];
        }
      }
    }
  }

  /** On a list without repeats, adding raises the raw weight, and the item's
      quantity, by exactly the typed quantity. */
  lemma {:induction false} AddToWeight(list: seq<Ingredient>, id: string, q: real)
    requires DistinctItems(list)
    ensures RawWeight(AddTo(list, id, q)) == RawWeight(list) + (if Listed(list, id) then q else 0.0)
    ensures QuantityOf(AddTo(list, id, q), id) == QuantityOf(list, id) + (if Listed(list, id) then q else 0.0)
  {
    if |list| > 0 {
      var tail := list[1..];
      assert DistinctItems(tail) by {
        forall a, b | 0 <= a < b < |tail|
          ensures tail[a].itemId != tail[b].itemId
        {
          assert tail[a] == list[a + 1] && tail[b] == list[b + 1];
        }
      }
      AddToWeight(tail, id, q);
      var r := AddTo(list, id, q);
      assert r[1..] == AddTo(tail, id, q);
      if list[0].itemId == id {
        assert !Listed(tail, id) by {
          forall k | 0 <= k < |tail|
            ensures tail[k].itemId != id
          {
            assert tail[k] == list[k + 1];
          }
        }
        assert Listed(list, id);
      } else {
        if Listed(list, id) {
          var k :| 0 <= k < |list| && list[k].itemId == id;
          assert tail[k - 1].itemId == id;
        }
        if Listed(tail, id) {
          var k :| 0 <= k < |tail| && tail[k].itemId == id;
          assert list[k + 1].itemId == id;
        }
      }
    }
  }

  /** `calculateProduction` after `addIngredient` on a list without repeats:
      the typed quantity joins the raw weight once. */
  lemma AddIngredientWeight(list: seq<Ingredient>, id: string, q: real)
    requires DistinctItems(list) && id != ""
    ensures RawWeight(AddIngredient(list, id, Some(q))) == RawWeight(list) + q
    ensures QuantityOf(AddIngredient(list, id, Some(q)), id) == QuantityOf(list, id) + q
  {
    AddToWeight(list, id, q);
    if !Listed(list, id) {
      SumOfSnoc(list, Ingredient(id, q), Quantity);
      SumOfSnoc(list, Ingredient(id, q), QuantityAt(id));
    }
  }

  function Other(id: string): Ingredient -> bool { (ing: Ingredient) => ing.itemId != id }

  /** `removeIngredient`: drops every entry of the item and keeps the rest in order. */
  function RemoveIngredient(list: seq<Ingredient>, id: string): (r: seq<Ingredient>)
    ensures !Listed(r, id)
    ensures forall k :: 0 <= k < |list| && list[k].itemId != id ==> list[k] in r
  {
    Filter(list, Other(id))
  }

  /** Removing an item takes exactly its quantity off the raw weight. */
  lemma {:induction false} RemoveWeight(list: seq<Ingredient>, id: string)
    ensures RawWeight(RemoveIngredient(list, id)) == RawWeight(list) - QuantityOf(list, id)
  {
    if |list| > 0 {
      RemoveWeight(list[1..], id);
    }
  }

  /** Adding an item that was not listed and then removing it gives back the list. */
  lemma RemoveUndoesAdd(list: seq<Ingredient>, id: string, q: real)
    requires id != "" && !Listed(list, id)
    ensures RemoveIngredient(AddIngredient(list, id, Some(q)), id) == list
  {
    FilterAppend(list, [Ingredient(id, q)], Other(id));
    FilterAll(list, Other(id));
  }

  /** `rawWeight * (1 - productionTolerance / 100)`: the weight after the cooking loss. */
  function CookWeight(raw: real, tolerance: real): (w: real)
    ensures 0.0 <= tolerance <= 100.0 && raw >= 0.0 ==> 0.0 <= w <= raw
    ensures tolerance == 0.0 ==> w == raw
    ensures tolerance == 100.0 ==> w == 0.0
  {
    var keep := 1.0 - tolerance / 100.0;
    if 0.0 <= tolerance <= 100.0 && raw >= 0.0 then
      MulMonotone(raw, 0.0, keep);
      MulMonotone(raw, keep, 1.0);
      raw * keep
    else
      raw * keep
  }

  /** `handleCook`: cooks the list into a batch of the weight after loss and
      empties the list. */
  function HandleCook(s: State, env: Env, list: seq<Ingredient>, tolerance: real): (r: (State, seq<Ingredient>))
    ensures r.1 == []
    ensures r.0 == ProduceFoodBatch(s, env, list, CookWeight(RawWeight(list), tolerance))
  {
    (ProduceFoodBatch(s, env, list, CookWeight(RawWeight(list), tolerance)), [])
  }

  /** With quantities that are not negative and a loss between 0 and 100 per
      cent, the batch never weighs more than its raw ingredients. */
  lemma CookedNoHeavierThanRaw(list: seq<Ingredient>, tolerance: real)
    requires forall k :: 0 <= k < |list| ==> list[k].quantity >= 0.0
    requires 0.0 <= tolerance <= 100.0
    ensures 0.0 <= CookWeight(RawWeight(list), tolerance) <= RawWeight(list)
  {
    SumOfNonneg(list, Quantity);
  }
}

=== FILE: journal.dfy ===
/** The general journal (context/AppContext.tsx:230-239): entries are checked
    for balance, numbered and prepended; only an administrator may delete.
    Newest entries come first, as in AppContext.tsx. */
module Journal {
  import opened Wrappers
  import opened Types
  import opened Sums
  import opened Seqs

  /** The largest difference between total debit and total credit an entry may carry. */
  const Tolerance: real := 0.01

  /** The number of the first entry of an empty journal. */
  const FirstNumber: int := 1001

  function DebitOf(l: Line): real { l.debit }
  function CreditOf(l: Line): real { l.credit }

  function TotalDebit(lines: seq<Line>): real { SumOf(lines, DebitOf) }
  function TotalCredit(lines: seq<Line>): real { SumOf(lines, CreditOf) }

  /** The lines' debits and credits agree to within the tolerance. */
  predicate Balanced(lines: seq<Line>) {
    Abs(TotalDebit(lines) - TotalCredit(lines)) <= Tolerance
  }

  /** Every entry of the journal is balanced. */
  predicate AllBalanced(j: seq<Entry>) {
    forall k :: 0 <= k < |j| ==> Balanced(j[k].lines)
  }

  /** The refusal `recordJournalEntry` reports, with the two totals it quotes. */
  datatype PostError = Unbalanced(totalDebit: real, totalCredit: real)

  /** `currentUser?.name || 'System'`. */
  function CreatedBy(current: Option<User>): (author: string)
    ensures author != ""
    ensures current.Some? && current.value.name != "" ==> author == current.value.name
  {
    match current
    case Some(u) => if u.name == "" then "System" else u.name
    case None => "System"
  }

  /** `recordJournalEntry`: refuses an unbalanced entry and leaves the journal as
      it was; otherwise prepends the entry numbered `|j| + 1001`, keeping the
      caller's status, lines and texts. */
  function Record(j: seq<Entry>, data: EntryData, id: string, author: string): (r: (seq<Entry>, Outcome<PostError>))
    ensures r.1.Pass? <==> Balanced(data.lines)
    ensures r.1.Fail? ==> r.0 == j && r.1.error == Unbalanced(TotalDebit(data.lines), TotalCredit(data.lines))
    ensures r.1.Pass? ==>
      |r.0| == |j| + 1 && r.0[1..] == j &&
      r.0[0].documentNumber == |j| + FirstNumber &&
      r.0[0].id == id && r.0[0].createdBy == author &&
      r.0[0].lines == data.lines && r.0[0].status == data.status &&
      r.0[0].date == data.date && r.0[0].reference == data.reference
  {
    if !Balanced(data.lines) then
      (j, Fail(Unbalanced(TotalDebit(data.lines), TotalCredit(data.lines))))
    else
      var e := Entry(id, |j| + FirstNumber, data.date, data.description, data.reference,
                     data.status, data.lines, author);
      ([e] + j, Pass)
  }

  /** The signed-in user holds the administrator role. */
  predicate IsAdmin(current: Option<User>) {
    current.Some? && Admin in current.value.roles
  }

  function HasId(id: string): Entry -> bool { (e: Entry) => e.id == id }
  function LacksId(id: string): Entry -> bool { (e: Entry) => e.id != id }

  /** `deleteJournalEntry`: a non-administrator changes nothing; an administrator
      removes every entry with that id and keeps the others in order. */
  function Delete(j: seq<Entry>, admin: bool, id: string): (r: seq<Entry>)
    ensures !admin ==> r == j
    ensures admin ==> forall k :: 0 <= k < |r| ==> r[k].id != id
    ensures admin ==> forall k :: 0 <= k < |j| && j[k].id != id ==> j[k] in r
    ensures multiset(r) <= multiset(j)
    ensures admin ==> forall e :: multiset(r)[e] == if e.id == id then 0 else multiset(j)[e]
  {
    if admin then
      FilterMultiplicity(j, LacksId(id));
      Filter(j, LacksId(id))
    else j
  }

  /** An administrator's delete works entry by entry and keeps the journal's
      order: deleting from two stretches is deleting from each, and one entry
      goes exactly when it carries the id. */
  lemma DeleteAppend(a: seq<Entry>, b: seq<Entry>, id: string, e: Entry)
    ensures Delete(a + b, true, id) == Delete(a, true, id) + Delete(b, true, id)
    ensures Delete([e], true, id) == if e.id == id then [] else [e]
  {
    FilterAppend(a, b, LacksId(id));
    assert [e][1..] == [];
  }

  /** Deleting an id no entry carries leaves the journal as it is. */
  lemma DeleteAbsent(j: seq<Entry>, id: string)
    requires forall k :: 0 <= k < |j| ==> j[k].id != id
    ensures Delete(j, true, id) == j
  {
    FilterAll(j, LacksId(id));
  }

  // Account balances

  /** The effect of one line on the account `code`. */
  function LineNet(code: string): Line -> real {
    (l: Line) => if l.accountId == code then l.debit - l.credit else 0.0
  }

  /** The effect of one entry on the account `code`. */
  function EntryNet(code: string): Entry -> real {
    (e: Entry) => SumOf(e.lines, LineNet(code))
  }

  /** Debits minus credits posted to `code` over the whole journal. */
  function Balance(j: seq<Entry>, code: string): real {
    SumOf(j, EntryNet(code))
  }

  /** The lines of a two-sided posting: `amount` debited to `dr`, credited to `cr`. */
  function TwoLine(dr: string, cr: string, amount: real): (lines: seq<Line>)
    ensures TotalDebit(lines) == amount && TotalCredit(lines) == amount
    ensures Balanced(lines)
    ensures forall c :: SumOf(lines, LineNet(c)) == Effect(dr, cr, amount, c)
  {
    var d, k := Line(dr, amount, 0.0), Line(cr, 0.0, amount);
    SumOfPair(d, k, DebitOf);
    SumOfPair(d, k, CreditOf);
    assert forall c :: SumOf([d, k], LineNet(c)) == Effect(dr, cr, amount, c) by {
      forall c
        ensures SumOf([d, k], LineNet(c)) == Effect(dr, cr, amount, c)
      {
        SumOfPair(d, k, LineNet(c));
      }
    }
    [d, k]
  }

  /** How a two-sided posting moves the balance of `c`. */
  function Effect(dr: string, cr: string, amount: real, c: string): real {
    (if c == dr then amount else 0.0) - (if c == cr then amount else 0.0)
  }

  /** Records a two-sided posting. The engine only ever builds exactly balanced
      postings, so the journal always accepts them: the entry is prepended and the
      balance of every account moves by the posting's effect on it. */
  function Post(j: seq<Entry>, date: string, description: string, reference: string,
                dr: string, cr: string, amount: real, id: string, author: string): (r: seq<Entry>)
    ensures |r| == |j| + 1 && r[1..] == j
    ensures r[0].lines == TwoLine(dr, cr, amount) && r[0].documentNumber == |j| + FirstNumber
    ensures forall c :: Balance(r, c) == Balance(j, c) + Effect(dr, cr, amount, c)
  {
    var data := EntryData(date, description, reference, Posted, TwoLine(dr, cr, amount));
    var r := Record(j, data, id, author);
    assert r.0 == [r.0[0]] + j;
    r.0
  }

  /** Prepending an entry adds its effect to every balance. */
  lemma PrependBalance(e: Entry, j: seq<Entry>, c: string)
    ensures Balance([e] + j, c) == EntryNet(c)(e) + Balance(j, c)
  {
    assert ([e] + j)[1..] == j;
  }

  /** An accepted entry moves every balance by its own lines; a refused one moves nothing. */
  lemma RecordBalance(j: seq<Entry>, data: EntryData, id: string, author: string, c: string)
    ensures var r := Record(j, data, id, author);
      Balance(r.0, c) == Balance(j, c) + (if r.1.Pass? then SumOf(data.lines, LineNet(c)) else 0.0)
  {
    var r := Record(j, data, id, author);
    if r.1.Pass? {
      assert r.0 == [r.0[0]] + j;
      PrependBalance(r.0[0], j, c);
    }
  }

  /** Recording keeps every entry of the journal balanced, whatever it is given. */
  lemma RecordKeepsBalanced(j: seq<Entry>, data: EntryData, id: string, author: string)
    requires AllBalanced(j)
    ensures AllBalanced(Record(j, data, id, author).0)
  {
    var r := Record(j, data, id, author).0;
    if r != j {
      forall k | 0 <= k < |r|
        ensures Balanced(r[k].lines)
      {
        if k > 0 {
          assert r[k] == j[k - 1];
        }
      }
    }
  }

  /** Deleting keeps the remaining entries balanced. */
  lemma DeleteKeepsBalanced(j: seq<Entry>, admin: bool, id: string)
    requires AllBalanced(j)
    ensures AllBalanced(Delete(j, admin, id))
  {
    var r := Delete(j, admin, id);
    forall k | 0 <= k < |r|
      ensures Balanced(r[k].lines)
    {
      assert r[k] in multiset(j);
    }
  }

  /** Deleting as administrator takes exactly the deleted entries' effect off every balance. */
  lemma DeleteBalance(j: seq<Entry>, id: string, c: string)
    ensures Balance(Delete(j, true, id), c) + Balance(Filter(j, HasId(id)), c) == Balance(j, c)
  {
    SplitBalance(j, id, c);
  }

  /** Splitting a journal by an id splits every balance. */
  lemma {:induction false} SplitBalance(j: seq<Entry>, id: string, c: string)
    ensures Balance(Filter(j, LacksId(id)), c) + Balance(Filter(j, HasId(id)), c) == Balance(j, c)
  {
    if |j| > 0 {
      var e, t := j[0], j[1..];
      var keep, drop := Filter(t, LacksId(id)), Filter(t, HasId(id));
      SplitBalance(t, id, c);
      assert Balance(j, c) == EntryNet(c)(e) + Balance(t, c);
      if e.id == id {
        assert Filter(j, LacksId(id)) == keep;
        PrependBalance(e, drop, c);
      } else {
        assert Filter(j, HasId(id)) == drop;
        PrependBalance(e, keep, c);
      }
    }
  }

  /** Numbers run down from the newest entry to 1001 without gaps, as they do
      when entries have only ever been recorded. */
  predicate WellNumbered(j: seq<Entry>) {
    forall k :: 0 <= k < |j| ==> j[k].documentNumber == FirstNumber + |j| - 1 - k
  }

  /** Recording keeps the numbering gap-free, so no two entries share a number. */
  lemma RecordKeepsNumbering(j: seq<Entry>, data: EntryData, id: string, author: string)
    requires WellNumbered(j)
    ensures WellNumbered(Record(j, data, id, author).0)
    ensures forall a, b :: 0 <= a < b < |Record(j, data, id, author).0| ==>
      Record(j, data, id, author).0[a].documentNumber != Record(j, data, id, author).0[b].documentNumber
  {
    var r := Record(j, data, id, author).0;
    if r != j {
      forall k | 0 <= k < |r|
        ensures r[k].documentNumber == FirstNumber + |r| - 1 - k
      {
        if k > 0 {
          assert r[k] == j[k - 1];
        }
      }
    }
  }

  /** The number is the journal length plus 1001, so after an administrator
      deletes an older entry the next entry repeats the number of the newest one. */
  lemma NumberReusedAfterDelete()
    ensures var e2 := Entry("b", 1002, "", "", "", Posted, [], "");
            var e1 := Entry("a", 1001, "", "", "", Posted, [], "");
            var j := Delete([e2, e1], true, "a");
            var r := Record(j, EntryData("", "", "", Posted, []), "c", "");
            WellNumbered([e2, e1]) && r.1.Pass? &&
            r.0[0].documentNumber == r.0[1].documentNumber == 1002
  {
    var e2 := Entry("b", 1002, "", "", "", Posted, [], "");
    var e1 := Entry("a", 1001, "", "", "", Posted, [], "");
    assert Filter([e2, e1], LacksId("a")) == [e2] by {
      assert [e2, e1][1..] == [e1];
      assert [e1][1..] == [];
    }
  }
}

=== FILE: projector.dfy ===
/** The read-only views the finance page derives from the journal
    (pages/Finance.tsx:38-61 and the cash figure of its summary cards): the
    balance of every account, the trial balance over the chart, and the running
    statement of one account. */
module Projector {
  import opened Wrappers
  import opened Types
  import opened Sums
  import opened Seqs
  import opened Sorting
  import opened Journal

  // All-account balances

  /** `balances[c] || 0`: a code never posted to reads as zero. */
  function Lookup(m: map<string, real>, c: string): real {
    if c in m then m[c] else 0.0
  }

  /** Some line of the journal is posted to `c`. */
  ghost predicate Mentioned(j: seq<Entry>, c: string) {
    exists k, i :: 0 <= k < |j| && 0 <= i < |j[k].lines| && j[k].lines[i].accountId == c
  }

  /** `accountBalances`: walks every line of every entry and accumulates debit
      minus credit per code. The result holds exactly the codes some line is
      posted to, and reads the journal balance of every code. */
  method AccountBalances(j: seq<Entry>) returns (m: map<string, real>)
    ensures forall c :: Lookup(m, c) == Balance(j, c)
    ensures forall k, i :: 0 <= k < |j| && 0 <= i < |j[k].lines| ==> j[k].lines[i].accountId in m
    ensures forall c :: c in m ==> Mentioned(j, c)
  {
    m := map[];
    var k := 0;
    while k < |j|
      invariant 0 <= k <= |j|
      invariant forall c :: Lookup(m, c) == Balance(j[..k], c)
      invariant forall k', i :: 0 <= k' < k && 0 <= i < |j[k'].lines| ==> j[k'].lines[i].accountId in m
      invariant forall c :: c in m ==> Mentioned(j, c)
    {
      var lines := j[k].lines;
      var i := 0;
      while i < |lines|
        invariant 0 <= i <= |lines|
        invariant forall c :: Lookup(m, c) == Balance(j[..k], c) + SumOf(lines[..i], LineNet(c))
        invariant forall k', i' :: 0 <= k' < k && 0 <= i' < |j[k'].lines| ==> j[k'].lines[i'].accountId in m
        invariant forall i' :: 0 <= i' < i ==> lines[i'].accountId in m
        invariant forall c :: c in m ==> Mentioned(j, c)
      {
        var l := lines[i];
        assert j[k].lines[i].accountId == l.accountId;
        m := m[l.accountId := Lookup(m, l.accountId) + (l.debit - l.credit)];
        forall c
          ensures Lookup(m, c) == Balance(j[..k], c) + SumOf(lines[..i + 1], LineNet(c))
        {
          assert lines[..i + 1] == lines[..i] + [l];
          SumOfSnoc(lines[..i], l, LineNet(c));
        }
        i := i + 1;
      }
      forall c
        ensures Lookup(m, c) == Balance(j[..k + 1], c)
      {
        assert lines[..i] == lines;
        assert j[..k + 1] == j[..k] + [j[k]];
        SumOfSnoc(j[..k], j[k], EntryNet(c));
      }
      k := k + 1;
    }
    assert j[..k] == j;
  }

  /** The cash-and-bank card: the balances of the cash box 1011 and the bank 1012. */
  function CashAndBank(m: map<string, real>): real {
    Lookup(m, "1011") + Lookup(m, "1012")
  }

  /** Read from the balances of a journal, the card is the cash and bank balances of that journal. */
  lemma CashAndBankOfJournal(j: seq<Entry>, m: map<string, real>)
    requires forall c :: Lookup(m, c) == Balance(j, c)
    ensures CashAndBank(m) == Balance(j, "1011") + Balance(j, "1012")
  {
  }

  // Trial balance

  datatype TrialRow = TrialRow(code: string, name: string, balance: real, kind: AccountType)

  function RowOf(a: Account, m: map<string, real>): TrialRow {
    TrialRow(a.code, a.name, Lookup(m, a.code), a.kind)
  }

  function RowBalance(r: TrialRow): real { r.balance }

  /** `trialBalance`: the chart accounts, in chart order, whose balance is not
      zero. A code that is posted to but missing from the chart has no row. */
  function TrialBalance(accounts: seq<Account>, m: map<string, real>): (r: seq<TrialRow>)
    ensures |r| <= |accounts|
    ensures forall i :: 0 <= i < |r| ==> r[i].balance != 0.0
    ensures forall i :: 0 <= i < |r| ==> exists k :: 0 <= k < |accounts| && r[i] == RowOf(accounts[k], m)
    ensures forall k :: 0 <= k < |accounts| && Lookup(m, accounts[k].code) != 0.0 ==> RowOf(accounts[k], m) in r
  {
    if |accounts| == 0 then []
    else
      var rest := TrialBalance(accounts[1..], m);
      var row := RowOf(accounts[0], m);
      assert forall i :: 0 <= i < |rest| ==> exists k :: 0 <= k < |accounts| && rest[i] == RowOf(accounts[k], m) by {
        forall i | 0 <= i < |rest|
          ensures exists k :: 0 <= k < |accounts| && rest[i] == RowOf(accounts[k], m)
        {
          var k :| 0 <= k < |accounts[1..]| && rest[i] == RowOf(accounts[1..][k], m);
          assert accounts[k + 1] == accounts[1..][k];
        }
      }
      assert forall k :: 1 <= k < |accounts| ==> accounts[k] == accounts[1..][k - 1];
      if Abs(row.balance) > 0.0 then [row] + rest else rest
  }

  /** One row per chart account, in chart order, zero balances included. */
  function ChartRows(accounts: seq<Account>, m: map<string, real>): (r: seq<TrialRow>)
    ensures |r| == |accounts| && forall k :: 0 <= k < |accounts| ==> r[k] == RowOf(accounts[k], m)
  {
    if |accounts| == 0 then [] else [RowOf(accounts[0], m)] + ChartRows(accounts[1..], m)
  }

  function NonZeroRow(): TrialRow -> bool {
    (row: TrialRow) => row.balance != 0.0
  }

  /** The trial balance is the chart's rows, in chart order and each account
      once, with the zero rows dropped. */
  lemma {:induction false} TrialBalanceInChartOrder(accounts: seq<Account>, m: map<string, real>)
    ensures TrialBalance(accounts, m) == Filter(ChartRows(accounts, m), NonZeroRow())
  {
    if |accounts| > 0 {
      TrialBalanceInChartOrder(accounts[1..], m);
      FilterCons(RowOf(accounts[0], m), ChartRows(accounts[1..], m), NonZeroRow());
    }
  }

  function LookupAt(m: map<string, real>): Account -> real {
    (a: Account) => Lookup(m, a.code)
  }

  /** The rows left out are the zero ones, so the trial balance totals the whole chart. */
  lemma {:induction false} TrialBalanceTotal(accounts: seq<Account>, m: map<string, real>)
    ensures SumOf(TrialBalance(accounts, m), RowBalance) == SumOf(accounts, LookupAt(m))
  {
    if |accounts| > 0 {
      TrialBalanceTotal(accounts[1..], m);
      var rest := TrialBalance(accounts[1..], m);
      if Abs(Lookup(m, accounts[0].code)) > 0.0 {
        assert ([RowOf(accounts[0], m)] + rest)[1..] == rest;
      }
    }
  }

  // Double entry: the balances of a covering chart net out

  /** No two accounts share a code. */
  predicate DistinctCodes(accounts: seq<Account>) {
    forall a, b :: 0 <= a < b < |accounts| ==> accounts[a].code != accounts[b].code
  }

  predicate HasCode(accounts: seq<Account>, code: string) {
    exists k :: 0 <= k < |accounts| && accounts[k].code == code
  }

  /** Every line of `lines` is posted to an account of the chart. */
  predicate LinesCovered(accounts: seq<Account>, lines: seq<Line>) {
    forall i :: 0 <= i < |lines| ==> HasCode(accounts, lines[i].accountId)
  }

  predicate Covered(accounts: seq<Account>, j: seq<Entry>) {
    forall k :: 0 <= k < |j| ==> LinesCovered(accounts, j[k].lines)
  }

  function LineGap(l: Line): real { l.debit - l.credit }

  /** How far an entry is from balancing. */
  function EntryGap(e: Entry): real { TotalDebit(e.lines) - TotalCredit(e.lines) }

  function AtLine(l: Line): Account -> real {
    (a: Account) => LineNet(a.code)(l)
  }

  function AtLines(lines: seq<Line>): Account -> real {
    (a: Account) => SumOf(lines, LineNet(a.code))
  }

  function AtJournal(j: seq<Entry>): Account -> real {
    (a: Account) => Balance(j, a.code)
  }

  /** Over a chart with distinct codes, one line lands on exactly one account, or on none. */
  lemma {:induction false} OneLineOverChart(accounts: seq<Account>, l: Line)
    requires DistinctCodes(accounts)
    ensures SumOf(accounts, AtLine(l)) == if HasCode(accounts, l.accountId) then LineGap(l) else 0.0
  {
    if |accounts| > 0 {
      var rest := accounts[1..];
      assert DistinctCodes(rest) by {
        forall a, b | 0 <= a < b < |rest|
          ensures rest[a].code != rest[b].code
        {
          assert rest[a] == accounts[a + 1] && rest[b] == accounts[b + 1];
        }
      }
      OneLineOverChart(rest, l);
      assert SumOf(accounts, AtLine(l)) == AtLine(l)(accounts[0]) + SumOf(rest, AtLine(l));
      if accounts[0].code == l.accountId {
        assert HasCode(accounts, l.accountId);
        assert LineNet(accounts[0].code)(l) == LineGap(l);
        assert AtLine(l)(accounts[0]) == LineGap(l);
        forall k | 0 <= k < |rest|
          ensures rest[k].code != l.accountId
        {
          assert rest[k] == accounts[k + 1];
        }
      } else {
        assert LineNet(accounts[0].code)(l) == 0.0;
        assert AtLine(l)(accounts[0]) == 0.0;
        assert HasCode(accounts, l.accountId) <==> HasCode(rest, l.accountId) by {
          if HasCode(accounts, l.accountId) {
            var k :| 0 <= k < |accounts| && accounts[k].code == l.accountId;
            assert rest[k - 1].code == l.accountId;
          }
          if HasCode(rest, l.accountId) {
            var k :| 0 <= k < |rest| && rest[k].code == l.accountId;
            assert accounts[k + 1].code == l.accountId;
          }
        }
      }
    }
  }

  /** Summed over a covering chart, the lines of an entry give its debits minus its credits. */
  lemma {:induction false} LinesOverChart(accounts: seq<Account>, lines: seq<Line>)
    requires DistinctCodes(accounts)
    requires LinesCovered(accounts, lines)
    ensures SumOf(accounts, AtLines(lines)) == SumOf(lines, LineGap)
  {
    if |lines| == 0 {
      SumOfZero(accounts, AtLines(lines));
    } else {
      var l, rest := lines[0], lines[1..];
      assert LinesCovered(accounts, rest) by {
        forall i | 0 <= i < |rest|
          ensures HasCode(accounts, rest[i].accountId)
        {
          assert rest[i] == lines[i + 1];
        }
      }
      LinesOverChart(accounts, rest);
      OneLineOverChart(accounts, l);
      assert HasCode(accounts, lines[0].accountId);
      SumOfPlus(accounts, AtLine(l), AtLines(rest), AtLines(lines));
    }
  }

  /** The debits minus the credits of a list of lines. */
  lemma LinesGap(lines: seq<Line>)
    ensures SumOf(lines, LineGap) == TotalDebit(lines) - TotalCredit(lines)
  {
    SumOfPlus(lines, LineGap, CreditOf, DebitOf);
  }

  /** Summed over a chart with distinct codes that covers every posted line, the
      balances of a journal add up to the sum of its entries' gaps. */
  lemma {:induction false} JournalOverChart(accounts: seq<Account>, j: seq<Entry>)
    requires DistinctCodes(accounts)
    requires Covered(accounts, j)
    ensures SumOf(accounts, AtJournal(j)) == SumOf(j, EntryGap)
  {
    if |j| == 0 {
      SumOfZero(accounts, AtJournal(j));
    } else {
      var e, rest := j[0], j[1..];
      assert Covered(accounts, rest) by {
        forall k | 0 <= k < |rest|
          ensures LinesCovered(accounts, rest[k].lines)
        {
          assert rest[k] == j[k + 1];
        }
      }
      JournalOverChart(accounts, rest);
      assert LinesCovered(accounts, e.lines);
      LinesOverChart(accounts, e.lines);
      LinesGap(e.lines);
      SumOfPlus(accounts, AtLines(e.lines), AtJournal(rest), AtJournal(j));
    }
  }

  function TolerancePer(e: Entry): real { Tolerance }

  lemma {:induction false} ToleranceSum(j: seq<Entry>)
    ensures SumOf(j, TolerancePer) == Tolerance * |j| as real
  {
    if |j| > 0 {
      ToleranceSum(j[1..]);
    }
  }

  /** Every entry's debits equal its credits exactly. */
  predicate ExactlyBalanced(j: seq<Entry>) {
    forall k :: 0 <= k < |j| ==> TotalDebit(j[k].lines) == TotalCredit(j[k].lines)
  }

  /** Double entry: over a chart with distinct codes that covers every posted
      code, the balances of a journal whose entries the journal accepted net to
      at most 0.01 per entry, and to exactly zero when every entry balances exactly. */
  lemma BalancesNetOut(accounts: seq<Account>, j: seq<Entry>)
    requires DistinctCodes(accounts)
    requires Covered(accounts, j)
    requires AllBalanced(j)
    ensures Abs(SumOf(accounts, AtJournal(j))) <= Tolerance * |j| as real
    ensures ExactlyBalanced(j) ==> SumOf(accounts, AtJournal(j)) == 0.0
  {
    JournalOverChart(accounts, j);
    SumOfAbsBound(j, EntryGap, TolerancePer);
    ToleranceSum(j);
    if ExactlyBalanced(j) {
      SumOfZero(j, EntryGap);
    }
  }

  /** The same for the trial balance the page shows: its rows total to within
      0.01 per entry of zero. */
  lemma TrialBalanceNetsOut(accounts: seq<Account>, j: seq<Entry>, m: map<string, real>)
    requires forall c :: Lookup(m, c) == Balance(j, c)
    requires DistinctCodes(accounts)
    requires Covered(accounts, j)
    requires AllBalanced(j)
    ensures Abs(SumOf(TrialBalance(accounts, m), RowBalance)) <= Tolerance * |j| as real
    ensures ExactlyBalanced(j) ==> SumOf(TrialBalance(accounts, m), RowBalance) == 0.0
  {
    TrialBalanceTotal(accounts, m);
    SumOfCongruent(accounts, LookupAt(m), AtJournal(j));
    BalancesNetOut(accounts, j);
  }

  // Account statement

  /** The position of the first line posted to `code`, or `|lines|` when there is none. */
  function FirstAt(lines: seq<Line>, code: string): (i: nat)
    ensures i <= |lines|
    ensures forall h :: 0 <= h < i ==> lines[h].accountId != code
    ensures i < |lines| ==> lines[i].accountId == code
  {
    if |lines| == 0 || lines[0].accountId == code then 0
    else 1 + FirstAt(lines[1..], code)
  }

  /** `lines.find(l => l.accountId === code)`. */
  function FirstLine(lines: seq<Line>, code: string): Option<Line> {
    var i := FirstAt(lines, code);
    if i < |lines| then Some(lines[i]) else None
  }

  /** `lines.some(l => l.accountId === code)`. */
  function Touches(code: string): Entry -> bool {
    (e: Entry) => FirstAt(e.lines, code) < |e.lines|
  }

  /** What the statement counts for one entry: the first matching line's debit minus credit. */
  function FirstNet(code: string): Entry -> real {
    (e: Entry) => match FirstLine(e.lines, code)
      case Some(l) => l.debit - l.credit
      case None => 0.0
  }

  /** One statement row: the entry, the matching line's amounts and the running balance. */
  datatype LedgerRow = LedgerRow(entry: Entry, debit: real, credit: real, balance: real)

  /** The running balance after the last row, `start` when there is none. */
  function Closing(r: seq<LedgerRow>, start: real): real {
    if |r| == 0 then start else r[|r| - 1].balance
  }

  /** The `flatMap` over the ordered entries, starting from the balance `start`:
      each row carries the first matching line's amounts, and its balance is the
      previous row's (or `start`) plus debit minus credit. */
  function Rows(es: seq<Entry>, code: string, start: real): (r: seq<LedgerRow>)
    ensures |r| <= |es|
    ensures forall i :: 0 <= i < |r| ==> FirstLine(r[i].entry.lines, code) == Some(Line(code, r[i].debit, r[i].credit))
    ensures |r| > 0 ==> r[0].balance == start + r[0].debit - r[0].credit
    ensures forall i :: 0 < i < |r| ==> r[i].balance == r[i - 1].balance + r[i].debit - r[i].credit
  {
    if |es| == 0 then []
    else
      match FirstLine(es[0].lines, code)
      case None => Rows(es[1..], code, start)
      case Some(l) =>
        var b := start + (l.debit - l.credit);
        [LedgerRow(es[0], l.debit, l.credit, b)] + Rows(es[1..], code, b)
  }

  /** When every entry has a line on the account, there is one row per entry, in order. */
  lemma {:induction false} RowsCover(es: seq<Entry>, code: string, start: real)
    requires forall i :: 0 <= i < |es| ==> Touches(code)(es[i])
    ensures EntriesOf(Rows(es, code, start)) == es
  {
    if |es| > 0 {
      assert Touches(code)(es[0]);
      var l := es[0].lines[FirstAt(es[0].lines, code)];
      assert forall i :: 0 <= i < |es[1..]| ==> es[1..][i] == es[i + 1];
      RowsCover(es[1..], code, start + (l.debit - l.credit));
    }
  }

  /** The statement closes at its opening balance plus the first matching line of every entry. */
  lemma {:induction false} RowsClosing(es: seq<Entry>, code: string, start: real)
    ensures Closing(Rows(es, code, start), start) == start + SumOf(es, FirstNet(code))
  {
    if |es| > 0 {
      match FirstLine(es[0].lines, code)
      case None =>
        RowsClosing(es[1..], code, start);
      case Some(l) =>
        var b := start + (l.debit - l.credit);
        RowsClosing(es[1..], code, b);
    }
  }

  function ByNumber(): (Entry, Entry) -> bool {
    (a: Entry, b: Entry) => a.documentNumber <= b.documentNumber
  }

  lemma ByNumberPreorder()
    ensures IsTotalPreorder(ByNumber())
  {
  }

  /** The entries carrying document number `n`: all tied under `ByNumber`. */
  function NumberIs(n: int): Entry -> bool {
    (e: Entry) => e.documentNumber == n
  }

  lemma NumberTied(n: int)
    ensures TiedBy(ByNumber(), NumberIs(n))
  {
  }

  function EntriesOf(r: seq<LedgerRow>): (es: seq<Entry>)
    ensures |es| == |r| && forall i :: 0 <= i < |r| ==> es[i] == r[i].entry
  {
    if |r| == 0 then [] else [r[0].entry] + EntriesOf(r[1..])
  }

  /** `ledgerData`: nothing without a selected account; otherwise a row for each
      entry with a line on the account, ordered by document number, carrying the
      first matching line's amounts and the running balance from zero. */
  function LedgerData(j: seq<Entry>, selected: string): (r: seq<LedgerRow>)
    ensures selected == "" ==> r == []
    ensures selected != "" ==> multiset(EntriesOf(r)) == multiset(Filter(j, Touches(selected)))
    ensures forall i, k :: 0 <= i < k < |r| ==> r[i].entry.documentNumber <= r[k].entry.documentNumber
    ensures forall i :: 0 <= i < |r| ==> FirstLine(r[i].entry.lines, selected) == Some(Line(selected, r[i].debit, r[i].credit))
    ensures |r| > 0 ==> r[0].balance == r[0].debit - r[0].credit
    ensures forall i :: 0 < i < |r| ==> r[i].balance == r[i - 1].balance + r[i].debit - r[i].credit
    ensures selected != "" ==> forall n :: Filter(EntriesOf(r), NumberIs(n)) == Filter(Filter(j, Touches(selected)), NumberIs(n))
  {
    if selected == "" then []
    else
      var sorted := Relevant(j, selected);
      RowsCover(sorted, selected, 0.0);
      Rows(sorted, selected, 0.0)
  }

  /** The entries with a line on `code`, ordered by document number. */
  function Relevant(j: seq<Entry>, code: string): (sorted: seq<Entry>)
    ensures multiset(sorted) == multiset(Filter(j, Touches(code)))
    ensures SortedBy(sorted, ByNumber())
    ensures forall i :: 0 <= i < |sorted| ==> Touches(code)(sorted[i])
    ensures forall n :: Filter(sorted, NumberIs(n)) == Filter(Filter(j, Touches(code)), NumberIs(n))
  {
    var relevant := Filter(j, Touches(code));
    ByNumberPreorder();
    var sorted := SortBy(relevant, ByNumber());
    assert forall n :: Filter(sorted, NumberIs(n)) == Filter(relevant, NumberIs(n)) by {
      forall n
        ensures Filter(sorted, NumberIs(n)) == Filter(relevant, NumberIs(n))
      {
        NumberTied(n);
        SortByStable(relevant, ByNumber(), NumberIs(n));
      }
    }
    assert forall i :: 0 <= i < |sorted| ==> Touches(code)(sorted[i]) by {
      forall i | 0 <= i < |sorted|
        ensures Touches(code)(sorted[i])
      {
        assert sorted[i] in multiset(relevant);
      }
    }
    sorted
  }

  /** The statement of an account closes at the sum, over the whole journal, of
      each entry's first line on it. */
  lemma LedgerClosing(j: seq<Entry>, selected: string)
    requires selected != ""
    ensures Closing(LedgerData(j, selected), 0.0) == SumOf(j, FirstNet(selected))
  {
    var sorted := Relevant(j, selected);
    var relevant := Filter(j, Touches(selected));
    RowsClosing(sorted, selected, 0.0);
    assert LedgerData(j, selected) == Rows(sorted, selected, 0.0);
    SumOfPermutation(sorted, relevant, FirstNet(selected));
    forall i | 0 <= i < |j| && !Touches(selected)(j[i])
      ensures FirstNet(selected)(j[i]) == 0.0
    {
      assert FirstLine(j[i].lines, selected).None?;
    }
    SumOfFilter(j, Touches(selected), FirstNet(selected));
  }

  /** No entry has two lines on `code`. */
  predicate AtMostOneLineOn(j: seq<Entry>, code: string) {
    forall k, a, b :: 0 <= k < |j| && 0 <= a < b < |j[k].lines| && j[k].lines[a].accountId == code ==>
      j[k].lines[b].accountId != code
  }

  /** With at most one line on `code`, that line is the entry's whole effect on it. */
  lemma {:induction false} SingleLineNet(lines: seq<Line>, code: string)
    requires forall a, b :: 0 <= a < b < |lines| && lines[a].accountId == code ==> lines[b].accountId != code
    ensures SumOf(lines, LineNet(code)) == (match FirstLine(lines, code) case Some(l) => l.debit - l.credit case None => 0.0)
  {
    if |lines| > 0 {
      var rest := lines[1..];
      if lines[0].accountId == code {
        SumOfZero(rest, LineNet(code));
      } else {
        SingleLineNet(rest, code);
      }
    }
  }

  /** When no entry has two lines on the account, the statement closes at the
      account's balance, the figure the balances view shows. */
  lemma LedgerClosesAtBalance(j: seq<Entry>, code: string)
    requires code != ""
    requires AtMostOneLineOn(j, code)
    ensures Closing(LedgerData(j, code), 0.0) == Balance(j, code)
  {
    forall k | 0 <= k < |j|
      ensures FirstNet(code)(j[k]) == EntryNet(code)(j[k])
    {
      SingleLineNet(j[k].lines, code);
    }
    SumOfCongruent(j, FirstNet(code), EntryNet(code));
    LedgerClosing(j, code);
  }

  /** An entry with two lines on one account: the statement counts only the first. */
  lemma LedgerCountsFirstLineOnly()
    ensures var e := Entry("e", 1001, "", "", "", Posted, [Line("1011", 5.0, 0.0), Line("1011", 3.0, 0.0)], "");
            Closing(LedgerData([e], "1011"), 0.0) == 5.0 && Balance([e], "1011") == 8.0
  {
    var e := Entry("e", 1001, "", "", "", Posted, [Line("1011", 5.0, 0.0), Line("1011", 3.0, 0.0)], "");
    SumOfPair(e.lines[0], e.lines[1], LineNet("1011"));
    assert e.lines == [e.lines[0], e.lines[1]];
    assert [e][1..] == [];
  }
}

=== FILE: reports.dfy ===
/** The figures context/AppContext.tsx derives from the state without changing
    it: the open debt of one dog (`getDogFinancialStatus`, 310) and the
    dashboard's `financials` (252-260). */
module Reports {
  import opened Types
  import opened Sums
  import opened Seqs
  import opened Club

  /** What remains to be paid on an invoice. */
  function Remaining(inv: Invoice): real { inv.finalAmount - inv.paidAmount }

  function Unpaid(): Invoice -> bool { (inv: Invoice) => inv.status != Paid }
  function OfDog(dogId: string): Invoice -> bool { (inv: Invoice) => inv.dogId == dogId }

  /** The remainder of an unpaid invoice of the dog, and zero for any other invoice. */
  function DogDebtOf(dogId: string): Invoice -> real {
    (inv: Invoice) => if inv.dogId == dogId && inv.status != Paid then Remaining(inv) else 0.0
  }

  /** `getDogFinancialStatus`: the remainders of the dog's unpaid invoices, summed,
      and whether that sum is zero. */
  function DogFinancialStatus(invoices: seq<Invoice>, dogId: string): (r: (real, bool))
    ensures r.1 <==> r.0 == 0.0
    ensures r.0 == SumOf(invoices, DogDebtOf(dogId))
  {
    var dogInvoices := Filter(invoices, OfDog(dogId));
    var mid := (inv: Invoice) => if inv.status != Paid then Remaining(inv) else 0.0;
    SumOfFilterMask(dogInvoices, Unpaid(), Remaining, mid);
    SumOfFilterMask(invoices, OfDog(dogId), mid, DogDebtOf(dogId));
    var totalDebt := SumOf(Filter(dogInvoices, Unpaid()), Remaining);
    (totalDebt, totalDebt == 0.0)
  }

  /** No invoice is paid beyond its final amount. */
  predicate NotOverpaid(invoices: seq<Invoice>) {
    forall i :: 0 <= i < |invoices| ==> invoices[i].paidAmount <= invoices[i].finalAmount
  }

  /** When no invoice is overpaid, a dog is cleared exactly when each of its
      unpaid invoices has been paid in full. */
  lemma DogClearedIff(invoices: seq<Invoice>, dogId: string)
    requires NotOverpaid(invoices)
    ensures DogFinancialStatus(invoices, dogId).1 <==>
      forall i :: 0 <= i < |invoices| && invoices[i].dogId == dogId && invoices[i].status != Paid ==>
        invoices[i].paidAmount == invoices[i].finalAmount
  {
    var f := DogDebtOf(dogId);
    assert forall i :: 0 <= i < |invoices| ==> f(invoices[i]) >= 0.0;
    if DogFinancialStatus(invoices, dogId).1 {
      SumOfNonnegZero(invoices, f);
      forall i | 0 <= i < |invoices| && invoices[i].dogId == dogId && invoices[i].status != Paid
        ensures invoices[i].paidAmount == invoices[i].finalAmount
      {
        assert f(invoices[i]) == 0.0;
      }
    } else {
      if forall i :: 0 <= i < |invoices| && invoices[i].dogId == dogId && invoices[i].status != Paid ==>
           invoices[i].paidAmount == invoices[i].finalAmount {
        SumOfZero(invoices, f);
      }
    }
  }

  /** The dashboard figures; growth and the emergency fund are fixed numbers. */
  datatype Financials = Financials(
    totalRevenue: real,
    totalExpenses: real,
    netProfit: real,
    pendingDebts: real,
    totalWalletLiability: real,
    monthlyGrowth: real,
    emergencyFund: real)

  const MonthlyGrowth: real := 12.5
  const EmergencyFund: real := 50000000.0

  function PaidRevenue(inv: Invoice): real { if inv.status == Paid then inv.finalAmount else 0.0 }
  function UnpaidDebt(inv: Invoice): real { if inv.status != Paid then Remaining(inv) else 0.0 }
  function ExpenseAmount(e: ExpenseRecord): real { e.amount }
  function InCredit(): User -> bool { (u: User) => u.balance > 0.0 }
  function InDebt(): User -> bool { (u: User) => u.balance < 0.0 }
  function CreditPart(u: User): real { if u.balance > 0.0 then u.balance else 0.0 }
  function DebtPart(u: User): real { if u.balance < 0.0 then u.balance else 0.0 }

  /** `financials`: revenue from PAID invoices, all expenses, their difference,
      the unpaid remainders plus the size of the overdrawn wallets, and the sum of
      the positive wallets. */
  function ComputeFinancials(invoices: seq<Invoice>, expenses: seq<ExpenseRecord>, users: seq<User>): (f: Financials)
    ensures f.netProfit == f.totalRevenue - f.totalExpenses
    ensures f.totalRevenue == SumOf(invoices, PaidRevenue)
    ensures f.totalExpenses == SumOf(expenses, ExpenseAmount)
    ensures f.totalWalletLiability == SumOf(users, CreditPart) && f.totalWalletLiability >= 0.0
    ensures f.pendingDebts == SumOf(invoices, UnpaidDebt) - SumOf(users, DebtPart)
    ensures f.pendingDebts >= SumOf(invoices, UnpaidDebt)
    ensures f.monthlyGrowth == MonthlyGrowth && f.emergencyFund == EmergencyFund
  {
    var isPaid := (inv: Invoice) => inv.status == Paid;
    var totalRevenue := SumOf(Filter(invoices, isPaid), (inv: Invoice) => inv.finalAmount);
    SumOfFilterMask(invoices, isPaid, (inv: Invoice) => inv.finalAmount, PaidRevenue);
    var totalExpenses := SumOf(expenses, ExpenseAmount);
    var unpaidInvoicesDebt := SumOf(Filter(invoices, Unpaid()), Remaining);
    SumOfFilterMask(invoices, Unpaid(), Remaining, UnpaidDebt);
    var walletDebt := SumOf(Filter(users, InDebt()), UserBalance);
    SumOfFilterMask(users, InDebt(), UserBalance, DebtPart);
    var totalWalletLiability := SumOf(Filter(users, InCredit()), UserBalance);
    SumOfFilterMask(users, InCredit(), UserBalance, CreditPart);
    SumOfNonneg(users, CreditPart);
    SumOfMonotone(users, DebtPart, (u: User) => 0.0);
    SumOfZero(users, (u: User) => 0.0);
    Financials(totalRevenue, totalExpenses, totalRevenue - totalExpenses,
               unpaidInvoicesDebt + Abs(walletDebt), totalWalletLiability, MonthlyGrowth, EmergencyFund)
  }

  /** The positive wallets less the size of the overdrawn ones are the total of
      all wallets: the liability figure and the wallet part of pending debts
      split `WalletTotal` by sign. */
  lemma WalletSplit(invoices: seq<Invoice>, expenses: seq<ExpenseRecord>, users: seq<User>)
    ensures var f := ComputeFinancials(invoices, expenses, users);
      f.totalWalletLiability - (f.pendingDebts - SumOf(invoices, UnpaidDebt)) == WalletTotal(users)
  {
    SumOfPlus(users, CreditPart, DebtPart, UserBalance);
  }
}

=== FILE: seeds.dfy ===
/** The state the application starts from (constants.ts:147-167): three
    invoices, four stock items and one cheque, and what holds of them. */
module Seeds {
  import opened Wrappers
  import opened Types
  import opened Seqs
  import opened Club
  import opened Stock
  import opened Consumption
  import opened Reports

  const SeedInvoices: seq<Invoice> := [
    Invoice("inv1", "u3", "d1", "s1", 5000000.0, 0.0, 5000000.0, 5000000.0, "1402/12/01", "1402/12/08", Paid, None, ""),
    Invoice("inv2", "u3", "d2", "s5", 800000.0, 0.0, 800000.0, 0.0, "1402/12/10", "1402/12/17", Pending, None, ""),
    Invoice("inv3", "u4", "d3", "s3", 3000000.0, 100000.0, 2900000.0, 2900000.0, "1402/12/15", "1402/12/22", Paid, None, "")
  ]

  const SeedInventory: seq<Item> := [
    Item("inv_f1", "غذای خشک رویال (بالغ)", Food, 50.0, "کیلوگرم", 10.0, 350000.0),
    Item("inv_f2", "کنسرو تشویقی", Food, 20.0, "قوطی", 5.0, 120000.0),
    Item("inv_m1", "قرص انگل", Medical, 100.0, "عدد", 20.0, 15000.0),
    Item("inv_e1", "مایع ضدعفونی کننده", Equipment, 10.0, "لیتر", 2.0, 80000.0)
  ]

  const SeedChecks: seq<Check> := [
    Check("ch1", Received, 5000000.0, "123456", "1403/02/01", "رضا کاظمی", Outstanding, "1402/12/01")
  ]

  /** Each seed invoice's final amount is its amount less its discount, it is
      never paid beyond that, and it is PAID exactly when paid in full. */
  lemma SeedInvoicesConsistent()
    ensures forall i :: 0 <= i < |SeedInvoices| ==>
      var v := SeedInvoices[i];
      v.finalAmount == v.amount - v.discount && 0.0 <= v.paidAmount <= v.finalAmount &&
      (v.status == Paid <==> v.paidAmount == v.finalAmount)
  {
  }

  /** Only the second dog owes anything at the start: its unpaid check-up. */
  lemma SeedDogDebts()
    ensures DogFinancialStatus(SeedInvoices, "d2") == (800000.0, false)
    ensures DogFinancialStatus(SeedInvoices, "d1") == (0.0, true)
  {
  }

  /** Seed stock holds no negative quantity and no negative cost. */
  lemma SeedInventorySound()
    ensures NonnegStock(SeedInventory)
    ensures forall k :: 0 <= k < |SeedInventory| ==> SeedInventory[k].averageCost >= 0.0
  {
  }

  /** The seed inventory has no cooked-food item, so a batch cooked from it
      stocks nothing in and books nothing. */
  lemma SeedHasNoCookedFood()
    ensures FirstIndex(SeedInventory, ItemNamed(CookedName)).None?
  {
    forall k | 0 <= k < |SeedInventory|
      ensures SeedInventory[k].name != CookedName
    {
      assert SeedInventory[k].name[0] != CookedName[0] || SeedInventory[k].name[1] != CookedName[1] || |SeedInventory[k].name| != |CookedName|;
    }
  }

  /** The seed cheque is received and still outstanding. */
  lemma SeedCheckOutstanding()
    ensures |SeedChecks| == 1 && SeedChecks[0].status == Outstanding && SeedChecks[0].kind == Received
  {
  }
}

=== FILE: sorting.dfy ===
/** A stable insertion sort by a total preorder, standing in for the stable
    `Array.prototype.sort` the ledger and statement views call. */
module Sorting {
  import opened Seqs

  /** `le` is total and transitive. */
  ghost predicate IsTotalPreorder<T(!new)>(le: (T, T) -> bool) {
    (forall a, b :: le(a, b) || le(b, a)) &&
    (forall a, b, c :: le(a, b) && le(b, c) ==> le(a, c))
  }

  predicate SortedBy<T>(s: seq<T>, le: (T, T) -> bool) {
    forall i, j :: 0 <= i < j < |s| ==> le(s[i], s[j])
  }

  /** `x` inserted before the first element it does not come after. */
  function InsertBy<T>(x: T, s: seq<T>, le: (T, T) -> bool): (r: seq<T>)
    ensures multiset(r) == multiset(s) + multiset{x}
    ensures |r| == |s| + 1
  {
    if |s| == 0 then [x]
    else if le(x, s[0]) then [x] + s
    else
      assert s == [s[0]] + s[1..];
      [s[0]] + InsertBy(x, s[1..], le)
  }

  /** Inserting into a sorted sequence keeps it sorted. */
  lemma {:induction false} InsertBySorted<T(!new)>(x: T, s: seq<T>, le: (T, T) -> bool)
    requires IsTotalPreorder(le)
    requires SortedBy(s, le)
    ensures SortedBy(InsertBy(x, s, le), le)
  {
    if |s| > 0 && !le(x, s[0]) {
      var t := InsertBy(x, s[1..], le);
      InsertBySorted(x, s[1..], le);
      assert s == [s[0]] + s[1..];
      assert le(s[0], x);
      assert forall j :: 0 <= j < |t| ==> le(s[0], t[j]) by {
        forall j | 0 <= j < |t|
          ensures le(s[0], t[j])
        {
          assert t[j] in multiset(s[1..]) + multiset{x};
          if t[j] != x {
            assert t[j] in multiset(s[1..]);
            var k :| 0 <= k < |s[1..]| && s[1..][k] == t[j];
            assert s[k + 1] == t[j];
          }
        }
      }
      assert InsertBy(x, s, le) == [s[0]] + t;
    } else if |s| > 0 {
      assert forall j :: 0 <= j < |s| ==> le(s[0], s[j]);
    }
  }

  /** The elements of `s` ordered by `le`, equal elements keeping their order. */
  function SortBy<T(!new)>(s: seq<T>, le: (T, T) -> bool): (r: seq<T>)
    requires IsTotalPreorder(le)
    ensures SortedBy(r, le)
    ensures multiset(r) == multiset(s)
    ensures |r| == |s|
  {
    if |s| == 0 then []
    else
      assert s == [s[0]] + s[1..];
      var rest := SortBy(s[1..], le);
      InsertBySorted(s[0], rest, le);
      InsertBy(s[0], rest, le)
  }

  /** The elements passing `t` are all tied under `le`: each comes before every other. */
  ghost predicate TiedBy<T(!new)>(le: (T, T) -> bool, t: T -> bool) {
    forall a, b :: t(a) && t(b) ==> le(a, b)
  }

  /** Inserting `x` puts it in front of every element it is tied with. */
  lemma {:induction false} InsertByStable<T(!new)>(x: T, s: seq<T>, le: (T, T) -> bool, t: T -> bool)
    requires TiedBy(le, t)
    ensures Filter(InsertBy(x, s, le), t) == (if t(x) then [x] else []) + Filter(s, t)
  {
    if |s| == 0 || le(x, s[0]) {
      assert InsertBy(x, s, le) == [x] + s;
      FilterCons(x, s, t);
    } else {
      InsertByStable(x, s[1..], le, t);
      assert InsertBy(x, s, le) == [s[0]] + InsertBy(x, s[1..], le);
      assert t(s[0]) ==> !t(x);
      assert s == [s[0]] + s[1..];
      PassOver(x, s[0], s[1..], InsertBy(x, s[1..], le), t);
    }
  }

  /** `y` ahead of `x` in a filtered list keeps its place when the two are
      never both kept. */
  lemma PassOver<T>(x: T, y: T, s: seq<T>, rest: seq<T>, t: T -> bool)
    requires Filter(rest, t) == (if t(x) then [x] else []) + Filter(s, t)
    requires t(y) ==> !t(x)
    ensures Filter([y] + rest, t) == (if t(x) then [x] else []) + Filter([y] + s, t)
  {
    FilterCons(y, rest, t);
    FilterCons(y, s, t);
    if t(y) {
      assert Filter(rest, t) == Filter(s, t);
      assert Filter([y] + rest, t) == [y] + Filter(s, t);
      assert Filter([y] + s, t) == [y] + Filter(s, t);
    } else {
      assert Filter([y] + rest, t) == Filter(rest, t);
      assert Filter([y] + s, t) == Filter(s, t);
    }
  }

  /** `SortBy` is stable: any run of mutually tied elements, such as the
      entries sharing one key, keeps its order. */
  lemma {:induction false} SortByStable<T(!new)>(s: seq<T>, le: (T, T) -> bool, t: T -> bool)
    requires IsTotalPreorder(le) && TiedBy(le, t)
    ensures Filter(SortBy(s, le), t) == Filter(s, t)
  {
    if |s| > 0 {
      SortByStable(s[1..], le, t);
      InsertByStable(s[0], SortBy(s[1..], le), le, t);
      FilterCons(s[0], s[1..], t);
      assert s == [s[0]] + s[1..];
    }
  }
}

=== FILE: stock.dfy ===
/** Stock keeping in context/AppContext.tsx:352-376: `updateStock` moves an
    item's quantity in or out, floors it at zero, keeps the item's weighted
    average cost, records the movement, and books a priced purchase from the
    cash box into the inventory account of the item's category. */
module Stock {
  import opened Wrappers
  import opened Types
  import opened Seqs
  import opened Journal
  import opened Club
  import Chart

  /** `Math.max(0, x)`. */
  function Max0(x: real): (r: real)
    ensures r >= 0.0 && r >= x && (r == x || r == 0.0)
  {
    if x > 0.0 then x else 0.0
  }

  /** The quantity before the zero floor. */
  function NewQuantity(i: Item, kind: MoveType, n: real): real {
    if kind == In then i.quantity + n else i.quantity - n
  }

  /** Whether a movement re-averages the cost: a positively priced stock-in that
      leaves some stock. */
  predicate Reprices(i: Item, kind: MoveType, n: real, unitPrice: real) {
    kind == In && unitPrice > 0.0 && NewQuantity(i, kind, n) > 0.0
  }

  /** The item after a movement of `n` units at `unitPrice`. */
  function Restock(i: Item, kind: MoveType, n: real, unitPrice: real): (r: Item)
    ensures r == i.(quantity := r.quantity, averageCost := r.averageCost)
    ensures r.quantity == Max0(NewQuantity(i, kind, n))
    ensures Reprices(i, kind, n, unitPrice) ==>
      r.averageCost * (i.quantity + n) == i.quantity * i.averageCost + n * unitPrice
    ensures !Reprices(i, kind, n, unitPrice) ==> r.averageCost == i.averageCost
  {
    var newQty := NewQuantity(i, kind, n);
    var avg := if Reprices(i, kind, n, unitPrice) then (i.quantity * i.averageCost + n * unitPrice) / newQty else i.averageCost;
    i.(quantity := Max0(newQty), averageCost := avg)
  }

  function Min(a: real, b: real): real { if a <= b then a else b }
  function Max(a: real, b: real): real { if a <= b then b else a }

  /** Buying more of an item at a price puts its new average cost between the
      old average and the price. */
  lemma AverageBetween(i: Item, n: real, unitPrice: real)
    requires i.quantity >= 0.0 && n >= 0.0
    requires Reprices(i, In, n, unitPrice)
    ensures var a := Restock(i, In, n, unitPrice).averageCost;
      Min(i.averageCost, unitPrice) <= a <= Max(i.averageCost, unitPrice)
  {
    var q, c, p := i.quantity, i.averageCost, unitPrice;
    var a := Restock(i, In, n, unitPrice).averageCost;
    var lo, hi := Min(c, p), Max(c, p);
    assert q * lo <= q * c <= q * hi by {
      MulMonotone(q, lo, c);
      MulMonotone(q, c, hi);
    }
    assert n * lo <= n * p <= n * hi by {
      MulMonotone(n, lo, p);
      MulMonotone(n, p, hi);
    }
    assert a * (q + n) == q * c + n * p;
    assert (q + n) * lo <= a * (q + n) <= (q + n) * hi;
    DivideBack(q + n, lo, a);
    DivideBack(q + n, a, hi);
  }

  lemma MulMonotone(k: real, x: real, y: real)
    requires k >= 0.0 && x <= y
    ensures k * x <= k * y
  {
  }

  lemma DivideBack(w: real, x: real, y: real)
    requires w > 0.0 && w * x <= y * w
    ensures x <= y
  {
  }

  /** Stock-in at a price adds exactly the purchase to the item's stock value. */
  lemma PurchaseAddsValue(i: Item, n: real, unitPrice: real)
    requires i.quantity >= 0.0 && n >= 0.0 && unitPrice > 0.0 && i.quantity + n > 0.0
    ensures var r := Restock(i, In, n, unitPrice);
      r.quantity * r.averageCost == i.quantity * i.averageCost + n * unitPrice
  {
  }

  /** `inventory.map(i => i.id === id ? Restock(i) : i)`. */
  function RestockAll(items: seq<Item>, id: string, kind: MoveType, n: real, unitPrice: real): (r: seq<Item>)
    ensures |r| == |items|
    ensures forall k :: 0 <= k < |r| ==> r[k] == if items[k].id == id then Restock(items[k], kind, n, unitPrice) else items[k]
  {
    if |items| == 0 then []
    else [if items[0].id == id then Restock(items[0], kind, n, unitPrice) else items[0]]
         + RestockAll(items[1..], id, kind, n, unitPrice)
  }

  /** The inventory account of a category: food 1041, medicine 1042, anything
      else, or an item that is not found, 1043. */
  function StoreCode(item: Option<Item>): (code: string)
    ensures code in ["1041", "1042", "1043"]
    ensures code == "1041" <==> item.Some? && item.value.category == Food
    ensures code == "1042" <==> item.Some? && item.value.category == Medical
    ensures code in Chart.PostedCodes
  {
    if item.Some? && item.value.category == Food then "1041"
    else if item.Some? && item.value.category == Medical then "1042"
    else "1043"
  }

  /** The item with the id, as `find` returns it. */
  function ItemById(items: seq<Item>, id: string): (r: Option<Item>)
    ensures r.Some? <==> exists k :: 0 <= k < |items| && items[k].id == id
    ensures r.Some? ==> r.value.id == id && r.value in items
  {
    match FirstIndex(items, ItemIs(id))
    case Some(k) => Some(items[k])
    case None => None
  }

  /** The price a movement is recorded at: the given price when there is one,
      otherwise the item's average cost, otherwise 0. */
  function MovePrice(item: Option<Item>, unitPrice: real): (p: real)
    ensures unitPrice != 0.0 ==> p == unitPrice
    ensures unitPrice == 0.0 && item.Some? ==> p == item.value.averageCost
    ensures unitPrice == 0.0 && item.None? ==> p == 0.0
  {
    if unitPrice != 0.0 then unitPrice else if item.Some? then item.value.averageCost else 0.0
  }

  /** Whether a movement books a purchase: a priced stock-in of positive value. */
  predicate Purchases(kind: MoveType, n: real, price: real, unitPrice: real) {
    kind == In && unitPrice != 0.0 && n * price > 0.0
  }

  /** The movement `updateStock` records: the item's name, or "" when it is not
      found, and the value at the recorded price. */
  function Movement(s: State, env: Env, itemId: string, n: real, kind: MoveType, dogId: string, unitPrice: real): (m: StockMove)
    ensures var item := ItemById(s.inventory, itemId);
      m.itemId == itemId && m.kind == kind && m.quantity == n && m.dogId == dogId &&
      m.unitPrice == MovePrice(item, unitPrice) && m.totalPrice == n * m.unitPrice &&
      m.itemName == (if item.Some? then item.value.name else "")
  {
    var item := ItemById(s.inventory, itemId);
    var price := MovePrice(item, unitPrice);
    var user := if env.currentUser.Some? then env.currentUser.value.id else "sys";
    StockMove("inv_txn_" + env.stamp, itemId, if item.Some? then item.value.name else "",
              kind, n, price, n * price, env.today, user, dogId)
  }

  /** `updateStock`. An unknown item changes no stock, but the movement is still
      recorded, and still booked when it is a priced stock-in. */
  function UpdateStock(s: State, env: Env, itemId: string, n: real, kind: MoveType, dogId: string, unitPrice: real): (r: State)
    ensures r == s.(inventory := r.inventory, moves := r.moves, journal := r.journal)
    ensures |r.inventory| == |s.inventory|
    ensures forall k :: 0 <= k < |s.inventory| ==>
      r.inventory[k] == if s.inventory[k].id == itemId then Restock(s.inventory[k], kind, n, unitPrice) else s.inventory[k]
    ensures r.moves == [Movement(s, env, itemId, n, kind, dogId, unitPrice)] + s.moves
    ensures var m := Movement(s, env, itemId, n, kind, dogId, unitPrice);
      !Purchases(kind, m.quantity, m.unitPrice, unitPrice) ==> r.journal == s.journal
    ensures var m := Movement(s, env, itemId, n, kind, dogId, unitPrice);
      var code := StoreCode(ItemById(s.inventory, itemId));
      Purchases(kind, m.quantity, m.unitPrice, unitPrice) ==>
        |r.journal| == |s.journal| + 1 &&
        forall c :: Balance(r.journal, c) == Balance(s.journal, c) + Effect(code, "1011", m.totalPrice, c)
  {
    var item := ItemById(s.inventory, itemId);
    var m := Movement(s, env, itemId, n, kind, dogId, unitPrice);
    var s1 := s.(inventory := RestockAll(s.inventory, itemId, kind, n, unitPrice), moves := [m] + s.moves);
    if Purchases(kind, m.quantity, m.unitPrice, unitPrice) then
      PostTwo(s1, env, env.today, "", "PUR-" + env.stamp, StoreCode(item), "1011", m.totalPrice)
    else s1
  }

  /** No item holds a negative quantity. */
  predicate NonnegStock(items: seq<Item>) {
    forall k :: 0 <= k < |items| ==> items[k].quantity >= 0.0
  }

  /** Whatever is moved, no quantity goes below zero. */
  lemma UpdateStockKeepsNonneg(s: State, env: Env, itemId: string, n: real, kind: MoveType, dogId: string, unitPrice: real)
    requires NonnegStock(s.inventory)
    ensures NonnegStock(UpdateStock(s, env, itemId, n, kind, dogId, unitPrice).inventory)
  {
  }

  /** Stock movements never touch a wallet or the wallet account. */
  lemma UpdateStockKeepsDrift(s: State, env: Env, itemId: string, n: real, kind: MoveType, dogId: string, unitPrice: real)
    ensures WalletDrift(UpdateStock(s, env, itemId, n, kind, dogId, unitPrice)) == WalletDrift(s)
  {
    var item := ItemById(s.inventory, itemId);
    assert StoreCode(item) != WalletCode;
  }

  /** A stock-out keeps every item's id, name, category, unit and average cost,
      so whatever is looked up by them afterwards is found where it was. */
  lemma OutKeepsItems(s: State, env: Env, itemId: string, n: real, dogId: string)
    ensures var r := UpdateStock(s, env, itemId, n, Out, dogId, 0.0);
      |r.inventory| == |s.inventory| &&
      forall k :: 0 <= k < |s.inventory| ==> r.inventory[k] == s.inventory[k].(quantity := r.inventory[k].quantity)
  {
  }
}

=== FILE: text.dfy ===
/** The few string operations the engine relies on: decimal digits, `parseInt`
    on a leading digit run, splitting on a separator, zero padding, substring
    search, ASCII lower-casing and code-unit ordering. */
module Text {
  import opened Wrappers

  predicate IsDigit(c: char) {
    '0' <= c <= '9'
  }

  predicate AllDigits(s: string) {
    forall i :: 0 <= i < |s| ==> IsDigit(s[i])
  }

  function DigitValue(c: char): (v: nat)
    requires IsDigit(c)
    ensures v < 10
  {
    c as int - '0' as int
  }

  function DigitChar(d: nat): (c: char)
    requires d < 10
    ensures IsDigit(c) && DigitValue(c) == d
  {
    (d + '0' as int) as char
  }

  /** The value of a run of decimal digits, most significant first. */
  function DigitsValue(s: string): nat
    requires AllDigits(s)
  {
    if |s| == 0 then 0 else 10 * DigitsValue(s[..|s| - 1]) + DigitValue(s[|s| - 1])
  }

  /** The decimal rendering of `n`, without leading zeros; reading it back gives `n`. */
  function NatToString(n: nat): (s: string)
    ensures 1 <= |s|
    ensures AllDigits(s)
    ensures DigitsValue(s) == n
    ensures n < 10 <==> |s| == 1
  {
    if n < 10 then [DigitChar(n)]
    else
      var s := NatToString(n / 10) + [DigitChar(n % 10)];
      assert s[..|s| - 1] == NatToString(n / 10);
      s
  }

  /** A leading zero does not change the value of a digit run. */
  lemma {:induction false} LeadingZero(s: string)
    requires AllDigits(s)
    ensures AllDigits("0" + s) && DigitsValue("0" + s) == DigitsValue(s)
  {
    if |s| > 0 {
      var t := "0" + s;
      assert t[..|t| - 1] == "0" + s[..|s| - 1];
      LeadingZero(s[..|s| - 1]);
    }
  }

  /** The longest prefix of `s` made of digits. */
  function DigitPrefix(s: string): (p: string)
    ensures |p| <= |s| && p == s[..|p|]
    ensures AllDigits(p)
    ensures |p| < |s| ==> !IsDigit(s[|p|])
  {
    if |s| == 0 || !IsDigit(s[0]) then ""
    else [s[0]] + DigitPrefix(s[1..])
  }

  /** JavaScript `parseInt` on an unsigned decimal: the value of the leading digit
      run, or `None` (NaN) when `s` does not start with a digit. */
  function ParseInt(s: string): (r: Option<nat>)
    ensures r.None? <==> |s| == 0 || !IsDigit(s[0])
  {
    var p := DigitPrefix(s);
    if |p| == 0 then None else Some(DigitsValue(p))
  }

  /** `parseInt` reads a digit run back up to the first non-digit that follows it. */
  lemma {:induction false} ParseIntDigitsThen(a: string, rest: string)
    requires 1 <= |a| && AllDigits(a)
    requires |rest| == 0 || !IsDigit(rest[0])
    ensures ParseInt(a + rest) == Some(DigitsValue(a))
  {
    DigitPrefixOf(a, rest);
  }

  lemma {:induction false} DigitPrefixOf(a: string, rest: string)
    requires AllDigits(a)
    requires |rest| == 0 || !IsDigit(rest[0])
    ensures DigitPrefix(a + rest) == a
  {
    if |a| == 0 {
      assert a + rest == rest;
    } else {
      assert (a + rest)[1..] == a[1..] + rest;
      DigitPrefixOf(a[1..], rest);
    }
  }

  /** `parseInt(String(n))` is `n`. */
  lemma ParseIntNatToString(n: nat)
    ensures ParseInt(NatToString(n)) == Some(n)
  {
    ParseIntDigitsThen(NatToString(n), "");
    assert NatToString(n) + "" == NatToString(n);
  }

  /** `s.split(sep)`: the pieces between separators, at least one. */
  function Split(s: string, sep: char): (r: seq<string>)
    ensures 1 <= |r|
  {
    if |s| == 0 then [""]
    else
      var rest := Split(s[1..], sep);
      if s[0] == sep then [""] + rest else [[s[0]] + rest[0]] + rest[1..]
  }

  /** A piece with no separator in it is split off whole. */
  lemma {:induction false} SplitPiece(a: string, sep: char, b: string)
    requires sep !in a
    ensures Split(a + [sep] + b, sep) == [a] + Split(b, sep)
  {
    if |a| == 0 {
      assert a + [sep] + b == [sep] + b;
      assert ([sep] + b)[1..] == b;
    } else {
      assert (a + [sep] + b)[1..] == a[1..] + [sep] + b;
      SplitPiece(a[1..], sep, b);
      assert [a[0]] + a[1..] == a;
    }
  }

  /** A string with no separator splits into itself. */
  lemma {:induction false} SplitWhole(a: string, sep: char)
    requires sep !in a
    ensures Split(a, sep) == [a]
  {
    if |a| > 0 {
      SplitWhole(a[1..], sep);
      assert [a[0]] + a[1..] == a;
    }
  }

  /** A number written with at least two digits, as the due-date formatter does. */
  function Pad2(n: nat): (s: string)
    ensures 2 <= |s| && AllDigits(s) && DigitsValue(s) == n
    ensures n < 100 ==> |s| == 2
  {
    if n < 10 then
      LeadingZero(NatToString(n));
      "0" + NatToString(n)
    else NatToString(n)
  }

  /** `hay` starts with `needle`. */
  predicate StartsWith(hay: string, needle: string) {
    |needle| <= |hay| && hay[..|needle|] == needle
  }

  /** JavaScript `hay.includes(needle)`. */
  predicate Contains(hay: string, needle: string)
    decreases |hay|
  {
    StartsWith(hay, needle) || (|hay| > 0 && Contains(hay[1..], needle))
  }

  /** `needle` occurs in `hay` starting at position `i`. */
  predicate OccursAt(hay: string, needle: string, i: int) {
    0 <= i <= |hay| - |needle| && hay[i..i + |needle|] == needle
  }

  /** `Contains` holds exactly when `needle` occurs at some position of `hay`. */
  lemma {:induction false} ContainsIffOccurs(hay: string, needle: string)
    ensures Contains(hay, needle) <==> exists i :: OccursAt(hay, needle, i)
  {
    if |hay| > 0 {
      ContainsIffOccurs(hay[1..], needle);
      if StartsWith(hay, needle) {
        assert OccursAt(hay, needle, 0);
      } else if Contains(hay[1..], needle) {
        var i :| OccursAt(hay[1..], needle, i);
        assert hay[i + 1..i + 1 + |needle|] == hay[1..][i..i + |needle|];
        assert OccursAt(hay, needle, i + 1);
      }
      if exists i :: OccursAt(hay, needle, i) {
        var i :| OccursAt(hay, needle, i);
        if i > 0 {
          assert hay[1..][i - 1..i - 1 + |needle|] == hay[i..i + |needle|];
          assert OccursAt(hay[1..], needle, i - 1);
        }
      }
    } else if StartsWith(hay, needle) {
      assert OccursAt(hay, needle, 0);
    }
  }

  /** ASCII lower-casing; other characters, Persian letters included, have no case. */
  function LowerChar(c: char): (d: char)
    ensures !('A' <= d <= 'Z')
    ensures !('A' <= c <= 'Z') ==> d == c
  {
    if 'A' <= c <= 'Z' then (c as int - 'A' as int + 'a' as int) as char else c
  }

  function Lower(s: string): (r: string)
    ensures |r| == |s|
    ensures forall i :: 0 <= i < |s| ==> r[i] == LowerChar(s[i])
  {
    if |s| == 0 then "" else [LowerChar(s[0])] + Lower(s[1..])
  }

  /** Strict order of strings by code units, a shorter prefix first. */
  predicate StrLt(a: string, b: string) {
    if |b| == 0 then false
    else if |a| == 0 then true
    else if a[0] != b[0] then a[0] < b[0]
    else StrLt(a[1..], b[1..])
  }

  predicate StrLe(a: string, b: string) {
    a == b || StrLt(a, b)
  }

  lemma {:induction false} StrLtIrreflexive(a: string)
    ensures !StrLt(a, a)
  {
    if |a| > 0 {
      StrLtIrreflexive(a[1..]);
    }
  }

  lemma {:induction false} StrLtTransitive(a: string, b: string, c: string)
    requires StrLt(a, b) && StrLt(b, c)
    ensures StrLt(a, c)
  {
    if |a| > 0 && a[0] == b[0] && b[0] == c[0] {
      StrLtTransitive(a[1..], b[1..], c[1..]);
    }
  }

  /** Two different strings are ordered one way or the other. */
  lemma {:induction false} StrLtTotal(a: string, b: string)
    requires a != b
    ensures StrLt(a, b) || StrLt(b, a)
  {
    if |a| > 0 && |b| > 0 && a[0] == b[0] {
      assert a == [a[0]] + a[1..] && b == [b[0]] + b[1..];
      StrLtTotal(a[1..], b[1..]);
    }
  }

  lemma StrLtAsymmetric(a: string, b: string)
    requires StrLt(a, b)
    ensures !StrLt(b, a)
  {
    if StrLt(b, a) {
      StrLtTransitive(a, b, a);
      StrLtIrreflexive(a);
    }
  }
}

=== FILE: types.dfy ===
/** The records the bookkeeping engine works on (types.ts). Optional numeric
    fields that the engine reads through `x || 0` are stored as `0.0` when
    absent, optional strings as `""`; display-only fields are dropped. */
module Types {
  import opened Wrappers

  datatype UserRole =
    | Admin | InternalManager | Accountant | Vet | Receptionist
    | Trainer | Staff | Client | Breeder

  datatype DogStatus =
    | Healthy | Sick | InTraining | Boarding | TrainingBoarding | CheckedOut

  /** `PaymentMethod`; the enum's `CHECK` is `ByCheck` here. */
  datatype PaymentMethod = Cash | Card | Online | Wallet | Installment | ByCheck

  /** `InvoiceStatus`; the enum's `INSTALLMENT` is `Installments` here. */
  datatype InvoiceStatus = Paid | Pending | Overdue | Installments

  datatype TransactionType =
    | Deposit | Withdrawal | Payment | Salary | Bonus | Commission | Refund | ManualAdjustment

  datatype AccountType = Asset | Liability | Equity | Revenue | Expense

  /** A member of the club. `baseSalary` is `0.0` when unset; `commissionOverrides`
      maps a service category to a commission percentage. */
  datatype User = User(
    id: string,
    name: string,
    roles: seq<UserRole>,
    phone: string,
    balance: real,
    baseSalary: real,
    commissionOverrides: map<string, real>)

  /** One movement of a user's wallet; `isCredit` says whether it added to the balance. */
  datatype WalletTxn = WalletTxn(
    id: string,
    userId: string,
    amount: real,
    kind: TransactionType,
    description: string,
    date: string,
    isCredit: bool)

  /** A billable service. `category` is the key of commission overrides;
      `defaultCommission` is `0.0` when unset. */
  datatype Service = Service(
    id: string,
    name: string,
    price: real,
    category: string,
    defaultCommission: real)

  /** A bill. `dueDate` and `providerId` are `""` when unset; `paidAmount` is `0.0` when unset. */
  datatype Invoice = Invoice(
    id: string,
    userId: string,
    dogId: string,
    serviceId: string,
    amount: real,
    discount: real,
    finalAmount: real,
    paidAmount: real,
    date: string,
    dueDate: string,
    status: InvoiceStatus,
    paymentMethod: Option<PaymentMethod>,
    providerId: string)

  /** A recorded expense (only what the dashboard totals read). */
  datatype ExpenseRecord = ExpenseRecord(id: string, category: string, amount: real)

  /** A chart-of-accounts node; `parentId` is `""` for a root. */
  datatype Account = Account(
    id: string,
    code: string,
    name: string,
    kind: AccountType,
    parentId: string,
    isActive: bool)

  /** One line of a journal entry, posted to the account whose code is `accountId`. */
  datatype Line = Line(accountId: string, debit: real, credit: real)

  datatype EntryStatus = Draft | Posted

  /** What a caller hands to the journal: an entry without id, number or author. */
  datatype EntryData = EntryData(
    date: string,
    description: string,
    reference: string,
    status: EntryStatus,
    lines: seq<Line>)

  datatype Entry = Entry(
    id: string,
    documentNumber: int,
    date: string,
    description: string,
    reference: string,
    status: EntryStatus,
    lines: seq<Line>,
    createdBy: string)

  datatype ItemCategory = Food | Medical | Equipment | Other

  datatype Item = Item(
    id: string,
    name: string,
    category: ItemCategory,
    quantity: real,
    unit: string,
    minQuantity: real,
    averageCost: real)

  datatype MoveType = In | Out

  /** An `InventoryTransaction`: one stock movement with the price it was valued at. */
  datatype StockMove = StockMove(
    id: string,
    itemId: string,
    itemName: string,
    kind: MoveType,
    quantity: real,
    unitPrice: real,
    totalPrice: real,
    date: string,
    userId: string,
    dogId: string)

  /** `Check.type`: a cheque the club received or one it wrote (`'Paid'`). */
  datatype CheckType = Received | Issued

  /** `Check.status`; the literal `'Pending'` is `Outstanding` here. */
  datatype CheckStatus = Outstanding | Cleared | Bounced

  datatype Check = Check(
    id: string,
    kind: CheckType,
    amount: real,
    checkNumber: string,
    dueDate: string,
    party: string,
    status: CheckStatus,
    registeredDate: string)

  /** A food or medical line of a daily log; `itemId` is `""` and the numbers `0.0` when unset. */
  datatype LogEntry = LogEntry(itemId: string, quantityUsed: real, weight: real)

  datatype DailyLog = DailyLog(
    id: string,
    date: string,
    foodEntries: seq<LogEntry>,
    medicalEntries: seq<LogEntry>)

  /** A prescribed medication; `itemId` is `""` when it is not drawn from stock. */
  datatype Prescription = Prescription(
    id: string,
    itemId: string,
    dosageQuantity: real,
    administeredCount: nat)

  datatype TreatmentPlan = TreatmentPlan(id: string, dogId: string, medications: seq<Prescription>)

  /** A dog; `birthDate` and `checkoutDate` are `""` when unset. */
  datatype Dog = Dog(
    id: string,
    ownerId: string,
    name: string,
    status: DogStatus,
    birthDate: string,
    checkoutDate: string,
    logs: seq<DailyLog>)

  datatype Room = Room(id: string, occupiedBy: seq<string>)

  datatype SystemLog = SystemLog(
    id: string,
    action: string,
    description: string,
    performedBy: string,
    userId: string,
    category: string)

  datatype DailyChecklist = DailyChecklist(id: string, verifiedByAdmin: bool)

  /** What an operation reads from outside the state: the formatted date of the day,
      a fresh token for ids, and who is signed in. */
  datatype Env = Env(today: string, stamp: string, currentUser: Option<User>)
}

=== FILE: users.dfy ===
/** The helpers of pages/Users.tsx: the role toggles and the submit guard of
    the user form, what an edit or a new user does to the wallets, a user's
    wallet statement, the staff test, and the permission checkboxes. */
module UsersPage {
  import opened Wrappers
  import opened Types
  import opened Sums
  import opened Seqs
  import opened Text
  import opened Sorting
  import opened Journal
  import opened Club

  // Roles

  function Without(role: UserRole): UserRole -> bool { (r: UserRole) => r != role }

  /** `toggleRole`: a held role is dropped unless it is the only one, a role not
      held is appended. */
  function ToggleRole(roles: seq<UserRole>, role: UserRole): (r: seq<UserRole>)
    ensures role !in roles ==> r == roles + [role]
    ensures role in roles && |roles| == 1 ==> r == roles
    ensures role in roles && |roles| > 1 ==> role !in r
    ensures forall x :: x != role ==> (x in r <==> x in roles)
  {
    if role in roles then
      if |roles| == 1 then roles
      else
        var r := Filter(roles, Without(role));
        assert forall x :: x in r ==> x in roles by {
          forall x | x in r
            ensures x in roles
          {
            assert x in multiset(r);
          }
        }
        r
    else roles + [role]
  }

  /** The role list, which never repeats a role, is never emptied by a toggle. */
  lemma ToggleRoleKeepsSome(roles: seq<UserRole>, role: UserRole)
    requires |roles| > 0 && Distinct(roles)
    ensures |ToggleRole(roles, role)| > 0
    ensures Distinct(ToggleRole(roles, role))
  {
    if role in roles && |roles| > 1 {
      FilterKeepsDistinct(roles, Without(role));
      var other := if roles[0] != role then roles[0] else roles[1];
      assert other in ToggleRole(roles, role);
    } else if role !in roles {
      var r := roles + [role];
      forall i, j | 0 <= i < j < |r|
        ensures r[i] != r[j]
      {
        if j == |roles| {
          assert r[i] == roles[i];
        }
      }
    }
  }

  /** Toggling a role the user lacks on and off again gives back the list. */
  lemma ToggleRoleTwice(roles: seq<UserRole>, role: UserRole)
    requires |roles| > 0 && role !in roles
    ensures ToggleRole(ToggleRole(roles, role), role) == roles
  {
    FilterAppend(roles, [role], Without(role));
    FilterAll(roles, Without(role));
  }

  /** `isStaff`: some role other than client is held. */
  function IsStaff(roles: seq<UserRole>): (b: bool)
    ensures b <==> exists i :: 0 <= i < |roles| && roles[i] != Client
  {
    FirstIndex(roles, Without(Client)).Some?
  }

  /** Adding any role but client makes the user staff. */
  lemma StaffRoleMakesStaff(roles: seq<UserRole>, role: UserRole)
    requires role != Client && role !in roles
    ensures IsStaff(ToggleRole(roles, role))
  {
    assert ToggleRole(roles, role)[|roles|] == role;
  }

  // The user form

  datatype UserForm = UserForm(name: string, phone: string, roles: seq<UserRole>, balance: real,
                               baseSalary: real, commissionOverrides: map<string, real>)

  /** `updateUser`: every user with the edited id is replaced. */
  function UpdateUser(users: seq<User>, edited: User): (r: seq<User>)
    ensures |r| == |users|
    ensures forall i :: 0 <= i < |users| ==> r[i] == if users[i].id == edited.id then edited else users[i]
  {
    if |users| == 0 then [] else [if users[0].id == edited.id then edited else users[0]] + UpdateUser(users[1..], edited)
  }

  /** The form's fields over an existing user; the balance is not among them. */
  function Edited(u: User, form: UserForm): User {
    u.(name := form.name, phone := form.phone, roles := form.roles, baseSalary := form.baseSalary,
       commissionOverrides := form.commissionOverrides)
  }

  /** `handleSubmit`: refused without a name, a phone or a role; an edit keeps
      the user's balance, and only a new user, put first, takes the typed one. */
  function SubmitUser(users: seq<User>, editing: Option<User>, form: UserForm, newId: string): (r: seq<User>)
    ensures form.name == "" || form.phone == "" || |form.roles| == 0 ==> r == users
    ensures form.name != "" && form.phone != "" && |form.roles| > 0 && editing.Some? ==>
      |r| == |users| &&
      (forall i :: 0 <= i < |users| && users[i].id != editing.value.id ==> r[i] == users[i]) &&
      (forall i :: 0 <= i < |users| && users[i].id == editing.value.id ==>
        r[i].balance == editing.value.balance && r[i].name == form.name && r[i].roles == form.roles)
    ensures form.name != "" && form.phone != "" && |form.roles| > 0 && editing.Some? ==>
      forall i :: 0 <= i < |users| && users[i].id == editing.value.id ==>
        r[i].id == editing.value.id && r[i].phone == form.phone && r[i].baseSalary == form.baseSalary &&
        r[i].commissionOverrides == form.commissionOverrides
    ensures form.name != "" && form.phone != "" && |form.roles| > 0 && editing.None? ==>
      |r| == |users| + 1 && r[1..] == users && r[0].id == newId && r[0].balance == form.balance
    ensures form.name != "" && form.phone != "" && |form.roles| > 0 && editing.None? ==>
      r[0] == User(newId, form.name, form.roles, form.phone, form.balance, form.baseSalary, form.commissionOverrides)
  {
    if form.name == "" || form.phone == "" || |form.roles| == 0 then users
    else match editing
      case Some(u) => UpdateUser(users, Edited(u, form))
      case None => [User(newId, form.name, form.roles, form.phone, form.balance, form.baseSalary, form.commissionOverrides)] + users
  }

  lemma {:induction false} SameBalancesSameTotal(a: seq<User>, b: seq<User>)
    requires |a| == |b| && forall i :: 0 <= i < |a| ==> a[i].balance == b[i].balance
    ensures WalletTotal(a) == WalletTotal(b)
  {
    if |a| > 0 {
      SameBalancesSameTotal(a[1..], b[1..]);
    }
  }

  /** Editing a listed user never moves money: the wallets add up as before. */
  lemma EditKeepsWallets(s: State, k: nat, form: UserForm, newId: string)
    requires k < |s.users| && UniqueUserIds(s.users)
    ensures WalletDrift(s.(users := SubmitUser(s.users, Some(s.users[k]), form, newId))) == WalletDrift(s)
  {
    var r := SubmitUser(s.users, Some(s.users[k]), form, newId);
    if form.name != "" && form.phone != "" && |form.roles| > 0 {
      forall i | 0 <= i < |s.users|
        ensures r[i].balance == s.users[i].balance
      {
        if s.users[i].id == s.users[k].id {
          assert i == k;
        }
      }
      SameBalancesSameTotal(r, s.users);
    }
  }

  /** A new user's opening balance enters the wallets with no journal entry
      behind it, so the wallet figure moves by exactly that balance. */
  lemma NewUserMovesWallets(s: State, form: UserForm, newId: string)
    requires form.name != "" && form.phone != "" && |form.roles| > 0
    ensures WalletDrift(s.(users := SubmitUser(s.users, None, form, newId))) == WalletDrift(s) + form.balance
  {
  }

  // The wallet statement

  /** `b.id.localeCompare(a.id)`: `a` goes first when its id is not the smaller. */
  function NewerFirst(): (WalletTxn, WalletTxn) -> bool {
    (a: WalletTxn, b: WalletTxn) => StrLe(b.id, a.id)
  }

  lemma NewerFirstPreorder()
    ensures IsTotalPreorder(NewerFirst())
  {
    forall a: WalletTxn, b: WalletTxn
      ensures NewerFirst()(a, b) || NewerFirst()(b, a)
    {
      if a.id != b.id {
        StrLtTotal(a.id, b.id);
      }
    }
    forall a: WalletTxn, b: WalletTxn, c: WalletTxn | NewerFirst()(a, b) && NewerFirst()(b, c)
      ensures NewerFirst()(a, c)
    {
      if c.id != b.id && b.id != a.id {
        StrLtTransitive(c.id, b.id, a.id);
      }
    }
  }

  function ForUser(userId: string): WalletTxn -> bool { (t: WalletTxn) => t.userId == userId }

  /** `getUserTransactions`: the user's own wallet transactions, largest id first. */
  function UserTransactions(txns: seq<WalletTxn>, userId: string): (r: seq<WalletTxn>)
    ensures forall i :: 0 <= i < |r| ==> r[i].userId == userId
    ensures forall i, j :: 0 <= i < j < |r| ==> StrLe(r[j].id, r[i].id)
    ensures forall t :: t in r <==> t in txns && t.userId == userId
    ensures forall t :: multiset(r)[t] == if t.userId == userId then multiset(txns)[t] else 0
  {
    NewerFirstPreorder();
    var mine := Filter(txns, ForUser(userId));
    var r := SortBy(mine, NewerFirst());
    FilterMembers(txns, ForUser(userId));
    FilterMultiplicity(txns, ForUser(userId));
    SameMembers(r, mine);
    assert forall i :: 0 <= i < |r| ==> r[i] in mine;
    r
  }

  function Amount(t: WalletTxn): real { t.amount }

  function AmountFor(userId: string): WalletTxn -> real {
    (t: WalletTxn) => if t.userId == userId then t.amount else 0.0
  }

  /** The history shows as many transactions as the user has in the list, and
      they add up to the user's part of the list's total. */
  lemma UserTransactionsTotal(txns: seq<WalletTxn>, userId: string)
    ensures |UserTransactions(txns, userId)| == CountOf(txns, ForUser(userId))
    ensures SumOf(UserTransactions(txns, userId), Amount) == SumOf(txns, AmountFor(userId))
  {
    NewerFirstPreorder();
    var mine := Filter(txns, ForUser(userId));
    var r := UserTransactions(txns, userId);
    assert r == SortBy(mine, NewerFirst());
    CountOfIsFilterLength(txns, ForUser(userId));
    SumOfPermutation(r, mine, Amount);
    SumOfFilterMask(txns, ForUser(userId), Amount, AmountFor(userId));
  }

  // Permissions

  /** The keys of `UserPermissions`. */
  datatype PermKey =
    | AccessDashboard | ManageDogs | ManageFinance | ManageUsers | ManageMedical | ManageRooms
    | ViewReports | ManageInventory | LogFood | LogMedical | LogTraining | LogActivity

  /** A permission that was never set reads as off (`?? false`). */
  function Allowed(p: map<PermKey, bool>, k: PermKey): bool {
    k in p && p[k]
  }

  /** `PermissionsForm.handleChange`: flips one checkbox. */
  function HandleChange(p: map<PermKey, bool>, key: PermKey): (r: map<PermKey, bool>)
    ensures Allowed(r, key) == !Allowed(p, key)
    ensures forall k :: k != key ==> Allowed(r, k) == Allowed(p, k)
    ensures r.Keys == p.Keys + {key}
  {
    p[key := !Allowed(p, key)]
  }

  /** Flipping the same checkbox twice restores the form. */
  lemma ChangeTwice(p: map<PermKey, bool>, key: PermKey)
    requires key in p
    ensures HandleChange(HandleChange(p, key), key) == p
  {
  }
}

=== FILE: wallets.dfy ===
/** The wallet subsystem of context/AppContext.tsx:297-300: payouts, manual
    adjustments, self-service top-ups and the monthly payroll. Each changes only
    the wallets it names, records one wallet transaction per wallet, and posts
    one balanced entry against the wallet liability account 2031. */
module Wallets {
  import opened Wrappers
  import opened Types
  import opened Sums
  import opened Seqs
  import opened Journal
  import opened Club
  import Chart

  /** The expense a payout is booked to: commissions to 6011, everything else to salaries 6010. */
  function PayoutCode(kind: TransactionType): (code: string)
    ensures code == "6011" <==> kind == Commission
    ensures code == "6011" || code == "6010"
    ensures code in Chart.PostedCodes
  {
    if kind == Commission then "6011" else "6010"
  }

  /** `processPayout`: credits the user's wallet by `amount`, records a credit
      transaction and posts Dr 6010/6011, Cr 2031. */
  function ProcessPayout(s: State, env: Env, userId: string, amount: real, kind: TransactionType,
                         description: string): (r: State)
    ensures r == s.(users := r.users, transactions := r.transactions, journal := r.journal)
    ensures |r.users| == |s.users|
    ensures forall i :: 0 <= i < |s.users| ==>
      r.users[i].balance == s.users[i].balance + (if s.users[i].id == userId then amount else 0.0)
    ensures forall i :: 0 <= i < |s.users| ==> r.users[i] == s.users[i].(balance := r.users[i].balance)
    ensures |r.transactions| == |s.transactions| + 1 && r.transactions[1..] == s.transactions
    ensures r.transactions[0].userId == userId && r.transactions[0].amount == amount
    ensures r.transactions[0].kind == kind && r.transactions[0].isCredit
    ensures |r.journal| == |s.journal| + 1
    ensures forall c :: Balance(r.journal, c) == Balance(s.journal, c) + Effect(PayoutCode(kind), WalletCode, amount, c)
  {
    var txn := WalletTxn("txn_" + env.stamp, userId, amount, kind, description, env.today, true);
    var s1 := s.(users := Credit(s.users, userId, amount), transactions := [txn] + s.transactions);
    PostTwo(s1, env, env.today, description, userId, PayoutCode(kind), WalletCode, amount)
  }

  /** A payout to an existing user leaves the wallet figure unchanged. */
  lemma PayoutKeepsDrift(s: State, env: Env, userId: string, amount: real, kind: TransactionType, description: string)
    requires UniqueUserIds(s.users) && HasUser(s.users, userId)
    ensures WalletDrift(ProcessPayout(s, env, userId, amount, kind, description)) == WalletDrift(s)
  {
    CreditTotal(s.users, userId, amount);
  }

  /** `adminUpdateWallet`: a withdrawal takes `amount` off the wallet and pays it
      out of the cash box (Dr 2031, Cr 1011); any other kind adds it as a manual
      expense (Dr 6060, Cr 2031). There is no lower bound on the balance. */
  function AdminUpdateWallet(s: State, env: Env, userId: string, amount: real, kind: TransactionType,
                             description: string): (r: State)
    ensures r == s.(users := r.users, transactions := r.transactions, journal := r.journal)
    ensures |r.users| == |s.users|
    ensures forall i :: 0 <= i < |s.users| ==>
      r.users[i].balance == s.users[i].balance +
        (if s.users[i].id != userId then 0.0 else if kind == Withdrawal then -amount else amount)
    ensures forall i :: 0 <= i < |s.users| ==> r.users[i] == s.users[i].(balance := r.users[i].balance)
    ensures |r.transactions| == |s.transactions| + 1 && r.transactions[1..] == s.transactions
    ensures r.transactions[0].userId == userId && r.transactions[0].kind == kind
    ensures r.transactions[0].amount == Abs(amount) && r.transactions[0].isCredit == (kind != Withdrawal)
    ensures kind == Withdrawal ==> forall c :: Balance(r.journal, c) == Balance(s.journal, c) + Effect(WalletCode, "1011", amount, c)
    ensures kind != Withdrawal ==> forall c :: Balance(r.journal, c) == Balance(s.journal, c) + Effect("6060", WalletCode, amount, c)
  {
    var credit := kind != Withdrawal;
    var delta := if credit then amount else -amount;
    var txn := WalletTxn("txn_" + env.stamp, userId, Abs(amount), kind, description, env.today, credit);
    var s1 := s.(users := Credit(s.users, userId, delta), transactions := [txn] + s.transactions);
    if credit then PostTwo(s1, env, env.today, description, "", "6060", WalletCode, amount)
    else PostTwo(s1, env, env.today, description, "", WalletCode, "1011", amount)
  }

  lemma AdminUpdateKeepsDrift(s: State, env: Env, userId: string, amount: real, kind: TransactionType, description: string)
    requires UniqueUserIds(s.users) && HasUser(s.users, userId)
    ensures WalletDrift(AdminUpdateWallet(s, env, userId, amount, kind, description)) == WalletDrift(s)
  {
    CreditTotal(s.users, userId, if kind != Withdrawal then amount else -amount);
  }

  /** `chargeWallet`: with nobody signed in nothing happens; otherwise the
      signed-in user's wallet grows by `amount`, paid into the bank (Dr 1012, Cr 2031). */
  function ChargeWallet(s: State, env: Env, amount: real): (r: State)
    ensures env.currentUser.None? ==> r == s
    ensures r == s.(users := r.users, transactions := r.transactions, journal := r.journal)
    ensures env.currentUser.Some? ==>
      |r.users| == |s.users| &&
      (forall i :: 0 <= i < |s.users| ==>
        r.users[i].balance == s.users[i].balance + (if s.users[i].id == env.currentUser.value.id then amount else 0.0)) &&
      (forall i :: 0 <= i < |s.users| ==> r.users[i] == s.users[i].(balance := r.users[i].balance))
    ensures env.currentUser.Some? ==>
      |r.transactions| == |s.transactions| + 1 && r.transactions[1..] == s.transactions &&
      r.transactions[0].userId == env.currentUser.value.id && r.transactions[0].amount == amount &&
      r.transactions[0].kind == Deposit && r.transactions[0].isCredit
    ensures env.currentUser.Some? ==>
      forall c :: Balance(r.journal, c) == Balance(s.journal, c) + Effect("1012", WalletCode, amount, c)
  {
    match env.currentUser
    case None => s
    case Some(u) =>
      var txn := WalletTxn("txn_" + env.stamp, u.id, amount, Deposit, "", env.today, true);
      var s1 := s.(users := Credit(s.users, u.id, amount), transactions := [txn] + s.transactions);
      PostTwo(s1, env, env.today, u.name, "", "1012", WalletCode, amount)
  }

  lemma ChargeWalletKeepsDrift(s: State, env: Env, amount: real)
    requires UniqueUserIds(s.users)
    requires env.currentUser.Some? ==> HasUser(s.users, env.currentUser.value.id)
    ensures WalletDrift(ChargeWallet(s, env, amount)) == WalletDrift(s)
  {
    if env.currentUser.Some? {
      CreditTotal(s.users, env.currentUser.value.id, amount);
    }
  }

  /** A user is paid a salary when the base salary is set and positive. */
  function Salaried(): User -> bool { (u: User) => u.baseSalary > 0.0 }

  function SalaryOf(u: User): real { if u.baseSalary > 0.0 then u.baseSalary else 0.0 }

  /** The credited salary transaction `processMonthlyPayroll` records for `u`. */
  function SalaryTxn(env: Env, u: User): WalletTxn {
    WalletTxn("sal_" + env.stamp + "_" + u.id, u.id, u.baseSalary, Salary, "", env.today, true)
  }

  /** The salary transactions of the users `us`, in order. */
  function SalaryTxns(env: Env, us: seq<User>): (r: seq<WalletTxn>)
    ensures |r| == |us| && forall k :: 0 <= k < |us| ==> r[k] == SalaryTxn(env, us[k])
  {
    if |us| == 0 then [] else [SalaryTxn(env, us[0])] + SalaryTxns(env, us[1..])
  }

  lemma SalaryTxnsSnoc(env: Env, us: seq<User>, u: User)
    ensures SalaryTxns(env, us + [u]) == SalaryTxns(env, us) + [SalaryTxn(env, u)]
  {
    assert forall k :: 0 <= k < |us| ==> (us + [u])[k] == us[k];
  }

  /** Every user of `us` paid, in order. */
  function PaidAll(us: seq<User>): (r: seq<User>)
    ensures |r| == |us| && forall k :: 0 <= k < |us| ==> r[k] == PaySalary(us[k])
  {
    if |us| == 0 then [] else [PaySalary(us[0])] + PaidAll(us[1..])
  }

  lemma PaidAllSnoc(us: seq<User>, u: User)
    ensures PaidAll(us + [u]) == PaidAll(us) + [PaySalary(u)]
  {
    assert forall k :: 0 <= k < |us| ==> (us + [u])[k] == us[k];
  }

  function PaySalary(u: User): User {
    if u.baseSalary > 0.0 then u.(balance := u.balance + u.baseSalary) else u
  }

  /** `processMonthlyPayroll`: pays every salaried user their base salary, returns
      how many were paid and the total, and posts one aggregate Dr 6010, Cr 2031
      entry of the total; with nobody salaried nothing changes. */
  method Payroll(s: State, env: Env) returns (r: State, count: nat, total: real)
    ensures count == CountOf(s.users, Salaried()) && total == SumOf(s.users, SalaryOf)
    ensures total >= 0.0 && (count == 0 ==> total == 0.0)
    ensures count == 0 ==> r == s
    ensures r == s.(users := r.users, transactions := r.transactions, journal := r.journal)
    ensures count > 0 ==> |r.users| == |s.users| && forall i :: 0 <= i < |s.users| ==> r.users[i] == PaySalary(s.users[i])
    ensures count > 0 ==> |r.transactions| == |s.transactions| + count && r.transactions[count..] == s.transactions
    ensures count > 0 ==> |Filter(s.users, Salaried())| == count
    ensures count > 0 ==> forall k :: 0 <= k < count ==> r.transactions[k] == SalaryTxn(env, Filter(s.users, Salaried())[k])
    ensures forall c :: Balance(r.journal, c) == Balance(s.journal, c) + Effect("6010", WalletCode, total, c)
    ensures WalletDrift(r) == WalletDrift(s)
  {
    var updated, txns;
    updated, txns, count, total := PaySalaries(s.users, env);
    r := if count > 0 then PayrollPosting(s, env, updated, txns, total) else s;
  }

  /** The loop of `processMonthlyPayroll`: every user with a salary is paid it,
      and one salary transaction per paid user is collected. */
  method PaySalaries(users: seq<User>, env: Env) returns (updated: seq<User>, txns: seq<WalletTxn>, count: nat, total: real)
    ensures count == CountOf(users, Salaried()) && total == SumOf(users, SalaryOf)
    ensures total >= 0.0 && (count == 0 ==> total == 0.0)
    ensures |updated| == |users| && forall i :: 0 <= i < |users| ==> updated[i] == PaySalary(users[i])
    ensures WalletTotal(updated) == WalletTotal(users) + total
    ensures |txns| == count && |Filter(users, Salaried())| == count
    ensures forall k :: 0 <= k < count ==> txns[k] == SalaryTxn(env, Filter(users, Salaried())[k])
  {
    updated, txns := [], [];
    count, total := 0, 0.0;
    var i := 0;
    while i < |users|
      invariant 0 <= i <= |users|
      invariant PaidUpTo(users[..i], env, updated, txns, count, total)
    {
      var u := users[i];
      PayStep(users, i, env, updated, txns, count, total);
      if u.baseSalary > 0.0 {
        txns := txns + [SalaryTxn(env, u)];
        count, total := count + 1, total + u.baseSalary;
      }
      updated := updated + [PaySalary(u)];
      i := i + 1;
    }
    assert users[..i] == users;
    PaidAllUsers(users, env, updated, txns, count, total);
  }

  /** The payroll loop's state once the users `done` are processed. */
  predicate PaidUpTo(done: seq<User>, env: Env, updated: seq<User>, txns: seq<WalletTxn>, count: nat, total: real) {
    updated == PaidAll(done) &&
    count == CountOf(done, Salaried()) && total == SumOf(done, SalaryOf) &&
    total >= 0.0 && (count == 0 ==> total == 0.0) &&
    WalletTotal(updated) == WalletTotal(done) + total &&
    txns == Payslips(env, done)
  }

  /** One turn of the payroll loop keeps `PaidUpTo`. */
  lemma PayStep(users: seq<User>, i: nat, env: Env, updated: seq<User>, txns: seq<WalletTxn>, count: nat, total: real)
    requires i < |users| && PaidUpTo(users[..i], env, updated, txns, count, total)
    ensures var u := users[i];
      var salaried := u.baseSalary > 0.0;
      PaidUpTo(users[..i + 1], env, updated + [PaySalary(u)],
               if salaried then txns + [SalaryTxn(env, u)] else txns,
               if salaried then count + 1 else count,
               if salaried then total + u.baseSalary else total)
  {
    var u := users[i];
    PayrollStep(users, i, updated, env);
    if u.baseSalary > 0.0 {
      assert SalaryOf(u) == u.baseSalary;
    } else {
      assert SalaryOf(u) == 0.0;
      assert txns + [] == txns;
    }
  }

  /** Once every user is processed, the loop's state is the payroll's result. */
  lemma PaidAllUsers(users: seq<User>, env: Env, updated: seq<User>, txns: seq<WalletTxn>, count: nat, total: real)
    requires PaidUpTo(users, env, updated, txns, count, total)
    ensures |updated| == |users| && forall i :: 0 <= i < |users| ==> updated[i] == PaySalary(users[i])
    ensures |txns| == count && |Filter(users, Salaried())| == count
    ensures forall k :: 0 <= k < count ==> txns[k] == SalaryTxn(env, Filter(users, Salaried())[k])
  {
    PayslipsOfSalaried(env, users);
    CountOfIsFilterLength(users, Salaried());
  }

  /** The salary transactions of the users `us`, built as the loop builds them:
      one for each salaried user, in order. */
  function Payslips(env: Env, us: seq<User>): seq<WalletTxn> {
    if |us| == 0 then []
    else
      var u := us[|us| - 1];
      Payslips(env, us[..|us| - 1]) + (if u.baseSalary > 0.0 then [SalaryTxn(env, u)] else [])
  }

  /** The payslips are the salary transactions of the salaried users. */
  lemma {:induction false} PayslipsOfSalaried(env: Env, us: seq<User>)
    ensures Payslips(env, us) == SalaryTxns(env, Filter(us, Salaried()))
  {
    if |us| > 0 {
      var init, u := us[..|us| - 1], us[|us| - 1];
      assert us == init + [u];
      PayslipsOfSalaried(env, init);
      FilterSnoc(init, u, Salaried());
      if u.baseSalary > 0.0 {
        SalaryTxnsSnoc(env, Filter(init, Salaried()), u);
      }
    }
  }

  /** One user's share of the payroll totals: `users[i]` joins the prefix before it. */
  lemma PayrollStep(users: seq<User>, i: nat, updated: seq<User>, env: Env)
    requires i < |users|
    ensures PaidAll(users[..i + 1]) == PaidAll(users[..i]) + [PaySalary(users[i])]
    ensures Payslips(env, users[..i + 1]) ==
      Payslips(env, users[..i]) + (if users[i].baseSalary > 0.0 then [SalaryTxn(env, users[i])] else [])
    ensures CountOf(users[..i + 1], Salaried()) == CountOf(users[..i], Salaried()) + (if users[i].baseSalary > 0.0 then 1 else 0)
    ensures SumOf(users[..i + 1], SalaryOf) == SumOf(users[..i], SalaryOf) + SalaryOf(users[i])
    ensures WalletTotal(users[..i + 1]) == WalletTotal(users[..i]) + users[i].balance
    ensures WalletTotal(updated + [PaySalary(users[i])]) == WalletTotal(updated) + users[i].balance + SalaryOf(users[i])
  {
    var done, u := users[..i], users[i];
    assert users[..i + 1] == done + [u];
    CountOfSnoc(done, u, Salaried());
    SumOfSnoc(done, u, SalaryOf);
    SumOfSnoc(done, u, UserBalance);
    SumOfSnoc(updated, PaySalary(u), UserBalance);
    PaidAllSnoc(done, u);
    assert users[..i + 1][..i] == done;
  }

  /** The paid users and their salary transactions go in, and the total is
      booked from salaries into the wallet account. */
  function PayrollPosting(s: State, env: Env, updated: seq<User>, txns: seq<WalletTxn>, total: real): (r: State)
    requires WalletTotal(updated) == WalletTotal(s.users) + total
    ensures r == s.(users := updated, transactions := txns + s.transactions, journal := r.journal)
    ensures r.transactions[|txns|..] == s.transactions
    ensures forall c :: Balance(r.journal, c) == Balance(s.journal, c) + Effect("6010", WalletCode, total, c)
    ensures WalletDrift(r) == WalletDrift(s)
  {
    var s1 := s.(users := updated, transactions := txns + s.transactions);
    assert (txns + s.transactions)[|txns|..] == s.transactions;
    PostTwo(s1, env, env.today, "", "", "6010", WalletCode, total)
  }
}

=== FILE: wrappers.dfy ===
/** Failure-compatible wrappers shared by every module of the model. */
module Wrappers {

  /** An optional value: a lookup that may find nothing. */
  datatype Option<+T> = None | Some(value: T) {

    /** The value, or a default when absent. */
    function GetOr(default: T): T {
      match this
      case Some(v) => v
      case None => default
    }
  }

  /** The verdict of an operation that may refuse: `Pass`, or `Fail` with the reason. */
  datatype Outcome<+E> = Pass | Fail(error: E)
}
